=== FILE: README.md ===
# pygrap geometry, Wavefront I/O, materials and transforms in Dafny

This project models the bookkeeping core of the `pygrap` graphics library:

- the `Mesh` builder, which interns material names, appends vertices and texture
  coordinates, fan-triangulates faces and, in `finalize`, sorts the triangles by material
  and expands them to three output vertices each;
- the Wavefront reader and writer for `.obj` meshes and `.mtl` material libraries in
  `graphics/io/wavefront.py`, and the older copy in `graphics/geometry/wavefront.py`;
- the `Material` value object: its defaults, validating setters, dictionary constructor
  and `to_dict`;
- the `cube()` scenario, which builds a textured unit cube with six named materials.
  Every corner of the cube has a texture index, so the `finalize` defect listed under
  Findings does not affect it;
- the `Transform` class: `homogenize`, construction, `matrix()`, `*`, and the chained
  `translate`, `scale`, `rotate`, `ortho` and `frustum` calls.

How the Python is rendered:

- Every mutating method becomes a pure function that returns the new object.
- Exceptions become `Err(e)` of a `Result`, with `e` naming the Python exception class.
- A file system is a map from path to the lines a `for line in f` loop would see, each
  ending in `"\n"`. The save functions return the lines they would write.
- Numbers are `real`. Converting between numbers and text is a parameter
  `Numerals(show, parse)`. A number *reads* when parsing its text gives it back and the
  text is one word without white space.
- The normals `finalize` computes are a parameter `NormalRule`.
- Where the source has a defect, a Boolean `asWritten` selects the code as written
  (`true`) or the evident intent (`false`). Each such place is listed under Findings.

Modules, one per file:

- `Wrappers`: `Option`, `Result`, the Python exceptions, and Python list indexing.
- `PyText`: the string methods the code relies on, such as `split`, `strip`, `int()`,
  `str(int)`, `os.path.dirname` and `os.path.splitext`.
- `Transforms`.
- `Materials`.
- `TriangleOrder`: Python's ordering of `(mat, triangle)` pairs, and the sort.
- `Meshes`.
- `Wavefront`: the io module.
- `ObjRoundTrip`: the proof that `load_obj` reads back what `save_obj` wrote.
- `GeometryWavefront`.
- `SimpleShapes`.

## Model

| member | source | states |
|---|---|---|
| Meshes.EmptyValid | graphics/geometry/mesh.py:5-18 | a new mesh has no triangles, no tags, no materials, `init_mat` -1 and no output arrays, and satisfies the mesh invariant |
| Meshes.Vertices | graphics/geometry/mesh.py:20-24 | the `vertices` property returns the output positions exactly when `finalize` has produced them, and raises `ValueError` otherwise |
| Meshes.TextureCoords | graphics/geometry/mesh.py:26-30 | `texture_coords` returns the output texture coordinates once finalized, and raises `ValueError` before |
| Meshes.Normals | graphics/geometry/mesh.py:32-36 | `normals` returns the output normals once finalized, and raises `ValueError` before |
| Meshes.AccessorsAfterFinalize | graphics/geometry/mesh.py:20-36 | before `finalize` all three accessors raise; after a successful `finalize` all three succeed, with three output vertices per triangle |
| Meshes.IndexOf | graphics/geometry/mesh.py:51 | `list.index` returns the first position holding the value |
| Meshes.AddMaterial | graphics/geometry/mesh.py:46-52 | an unseen name is appended and gets the old list length as its index; a known name keeps its first index and leaves the list unchanged; `init_mat` becomes the returned index; nothing else changes |
| Meshes.AddMaterialValid | graphics/geometry/mesh.py:46-52 | interning a name preserves the mesh invariant: names stay distinct and `init_mat` indexes a name |
| Meshes.AddMaterialTwice | graphics/geometry/mesh.py:46-52 | interning the same name again is idempotent: same index, same mesh |
| Meshes.AddMaterialUnique | graphics/geometry/mesh.py:46-52 | in a valid mesh the returned index is the only position holding the name |
| Meshes.AddVertex | graphics/geometry/mesh.py:54-56 | appends exactly one vertex made of the first three coordinates and returns the new count; fewer than three coordinates raise `IndexError` |
| Meshes.AddTexcoord | graphics/geometry/mesh.py:58-60 | appends exactly one texture coordinate made of the first two values and returns the new count; fewer than two raise `IndexError` |
| Meshes.Slots | graphics/geometry/mesh.py:63-64 | a missing or empty `tc` gives `None` for every corner; otherwise corner i gets `tc[i]` |
| Meshes.Fan | graphics/geometry/mesh.py:68-71 | fan triangulation of an n-gon yields max(0, n-2) triangles |
| Meshes.AddFace | graphics/geometry/mesh.py:62-72 | appends max(0, n-2) triangles, triangle k being (vtx[0], vtx[k+1], vtx[k+2]) with their texture slots; appends one tag per triangle, namely `mat`, or `init_mat` when `mat` is negative; returns the new triangle count; an empty `vtx` or a too-short `tc` raises `IndexError`, and a face added after `finalize` raises `AttributeError` |
| Meshes.AddFaceValid | graphics/geometry/mesh.py:62-72 | adding a face preserves the mesh invariant, including one tag per triangle |
| Meshes.FanOutline | graphics/geometry/mesh.py:68-71 | walking the fan's outer corners gives back the polygon's vertex list |
| Meshes.FanBoundary | graphics/geometry/mesh.py:68-71 | every edge of the polygon is an edge of some triangle of the fan |
| Meshes.CornerTex | graphics/geometry/mesh.py:93-96 | a corner's texture coordinate is looked up when its slot is in range; as written a `None` slot raises `TypeError`, corrected it gives (0, 0) |
| Meshes.ExpandOne | graphics/geometry/mesh.py:84-108 | one triangle yields its three corner positions and texture coordinates in corner order; the three positions are looked up first, so a bad position raises `IndexError` whatever the texture slots hold, and as written `TypeError` arises exactly when the positions resolve and the first texture slot that fails is missing |
| Meshes.Expand | graphics/geometry/mesh.py:82-108 | output vertex 3t+k is corner k of triangle t, and likewise for texture coordinates; it succeeds exactly when every corner resolves |
| Meshes.FinalizeWith | graphics/geometry/mesh.py:74-119 | the (tag, triangle) pairs are put in sorted order, as a permutation; the tags end non-decreasing; the mesh is frozen; there are 3 output vertices, texture coordinates and normals per triangle, each taken from the sorted triangles; no triangles raises `ValueError`; other fields are unchanged |
| Meshes.SortedResolves | graphics/geometry/mesh.py:80 | sorting does not change whether every triangle's corners resolve |
| Meshes.FinalizeTagsNonDecreasing | graphics/geometry/mesh.py:80 | after `finalize` the tags never decrease |
| Meshes.FinalizeValid | graphics/geometry/mesh.py:74-119 | `finalize` preserves the mesh invariant |
| Meshes.FinalizeIdempotent | graphics/geometry/mesh.py:74-119 | finalizing a finalized mesh again gives the same mesh |
| Meshes.ResolvesCorrected | graphics/geometry/mesh.py:93-108 | a triangle whose lookups succeed as written also succeeds with the missing-slot fallback |
| Meshes.ExpandOneReadingsAgree | graphics/geometry/mesh.py:84-108 | on a triangle whose corners all carry a texture slot in range, the as-written and corrected lookups give the same entries |
| Meshes.ExpandReadingsAgree | graphics/geometry/mesh.py:82-108 | when every triangle resolves as written, both readings of the `finalize` loop produce the same output lists |
| Meshes.FinalizeReadingsAgree | graphics/geometry/mesh.py:74-119 | when every corner of every triangle has a texture coordinate in range, `finalize` as written returns the same result as the corrected one |
| Meshes.FinalizeAsWrittenNeedsTexcoords | graphics/geometry/mesh.py:93-108 | as written, `finalize` succeeds only if every corner has a texture index |
| Meshes.FinalizeWithoutTexcoords | graphics/geometry/mesh.py:93-108 | corrected, a mesh with no texture indices finalizes with (0, 0) at every output corner, where as written it fails |
| Meshes.UntexturedTriangle | graphics/geometry/mesh.py:62-108 | one triangle added without `tc`: as written `finalize` raises `TypeError`, corrected it gives three (0, 0) texture coordinates |
| TriangleOrder.LeqTotal | graphics/geometry/mesh.py:80 | the order `sorted` uses on (tag, triangle) pairs is total |
| TriangleOrder.LeqTrans | graphics/geometry/mesh.py:80 | the order is transitive |
| TriangleOrder.LeqAntisym | graphics/geometry/mesh.py:80 | the order is antisymmetric, so it is a total order on pairs |
| TriangleOrder.KeyInjective | graphics/geometry/mesh.py:80 | distinct pairs have distinct comparison keys |
| TriangleOrder.LeqTag | graphics/geometry/mesh.py:80 | pairs compare by tag first |
| TriangleOrder.Insert | graphics/geometry/mesh.py:80 | inserting adds exactly the one element to the multiset |
| TriangleOrder.InsertSorted | graphics/geometry/mesh.py:80 | inserting into a sorted list keeps it sorted |
| TriangleOrder.Sort | graphics/geometry/mesh.py:80 | `sorted` returns a sorted permutation of its input |
| TriangleOrder.SortedUnique | graphics/geometry/mesh.py:80 | two sorted permutations of the same pairs are equal, so the result of `sorted` is determined |
| TriangleOrder.SortOfSorted | graphics/geometry/mesh.py:80 | sorting a sorted list changes nothing |
| TriangleOrder.SortedTags | graphics/geometry/mesh.py:80 | in a sorted list of pairs the tags never decrease |
| TriangleOrder.Zip | graphics/geometry/mesh.py:80 | `zip` pairs position i of both lists and stops at the shorter one |
| TriangleOrder.Tags | graphics/geometry/mesh.py:80 | unzipping takes the first component of every pair |
| TriangleOrder.Tris | graphics/geometry/mesh.py:80 | unzipping takes the second component of every pair |
| TriangleOrder.ZipUnzip | graphics/geometry/mesh.py:80 | zipping the two unzipped halves gives the pairs back |
| Materials.Len | graphics/appearance/materials.py:62 | `len(val)` succeeds exactly for strings and lists, and raises `TypeError` otherwise |
| Materials.Elements | graphics/appearance/materials.py:64 | `[v for v in val]` has `len(val)` elements: a list's items, or a string's characters |
| Materials.Defaults | graphics/appearance/materials.py:3-12 | a new material carries the given name and satisfies the material invariant |
| Materials.NewWithoutDict | graphics/appearance/materials.py:3-12 | without a dictionary: diffuse [1,1,1], ambient and specular [0,0,0], exponent 1.0, all four maps `None` |
| Materials.ColorOf | graphics/appearance/materials.py:60-64 | a colour is accepted exactly when it has three elements, and stored as an element-wise copy; a wrong length raises `ValueError`, a value without length `TypeError` |
| Materials.SetDiffuse | graphics/appearance/materials.py:60-64 | the diffuse setter stores the copy when the length is 3 and changes nothing else; otherwise it raises |
| Materials.SetAmbient | graphics/appearance/materials.py:70-74 | the same for the ambient colour |
| Materials.SetSpecular | graphics/appearance/materials.py:80-84 | the same for the specular colour |
| Materials.SetExponent | graphics/appearance/materials.py:90-94 | the exponent setter raises `ValueError` exactly for iterable values and stores any scalar unchanged |
| Materials.ApplyChecked | graphics/appearance/materials.py:17-24 | the colour and exponent keys present in the dictionary go through their setters; absent keys keep the current value; it fails exactly when a present value is rejected |
| Materials.ApplyMaps | graphics/appearance/materials.py:25-32 | the map keys present are stored without validation; absent keys keep the current value |
| Materials.New | graphics/appearance/materials.py:3-32 | `Material(name, mdict)`: without a dictionary, the defaults; with one, each field is the dictionary's entry when present and the default when absent; it fails exactly when a setter rejects a value; the result satisfies the invariant |
| Materials.Entries | graphics/appearance/materials.py:34-50 | the dictionary always has name, diffuse, ambient, specular and specular_exponent, has each map key exactly when that map is not `None`, and has no key besides these nine |
| Materials.EntriesRead | graphics/appearance/materials.py:34-50 | each entry holds the field it is named after, the colours as lists, and a map that was left out reads back as `None` |
| Materials.ToDict | graphics/appearance/materials.py:34-50 | as written, `to_dict` works only for a list name and stores the name's bound `copy` method; any other name raises `AttributeError` |
| Materials.ToDictFailsForTextName | graphics/appearance/materials.py:36 | as written, `to_dict` raises `AttributeError` for every material named by a string |
| Materials.ToDictLosesListName | graphics/appearance/materials.py:36 | as written, rebuilding a list-named material from its dictionary gives it the bound method as its name, not the name |
| Materials.ToDictCorrectedRoundTrip | graphics/appearance/materials.py:3-50 | with the name stored as it is, `Material(mdict=m.to_dict())` rebuilds `m` exactly, whatever name is passed alongside |
| Transforms.New | graphics/core/transform.py:93-103 | `Transform()` is the identity map; `Transform(t)` copies `t`; any argument other than a transform or a matrix raises `ValueError` |
| Transforms.MulIdentity | graphics/core/transform.py:103 | the default identity matrix is neutral for the product on both sides |
| Transforms.ApplyIdentity | graphics/core/transform.py:103 | the identity maps every vector to itself |
| Transforms.Matrix | graphics/core/transform.py:105-107 | `matrix()` hands back the matrix, from which `Transform(...)` rebuilds the same transform |
| Transforms.MulAssoc | graphics/core/transform.py:113-116 | the matrix product is associative |
| Transforms.ApplyMul | graphics/core/transform.py:113-118 | applying a product applies the right factor first |
| Transforms.TimesApplies | graphics/core/transform.py:113-116 | `a * b` applies `b` first and then `a` |
| Transforms.ThenApplies | graphics/core/transform.py:179-187 | a chained call pre-multiplies, so the existing transform acts first and the new operation after it |
| Transforms.ChainIsProductReversed | graphics/core/transform.py:10-14 | `t.A().B()` equals `B * A * t`: a chain read left to right is a product read right to left |
| Transforms.ChainFromDefault | graphics/core/transform.py:10-14 | `Transform().A().B()` equals `Transform().B() * Transform().A()` |
| Transforms.TranslateThenRotate | tests/test_transform.py:22-26 | the unit test's claim: `Transform().translate(p).rotate(r)` equals `R * T` |
| Transforms.TranslateMoves | graphics/core/transform.py:179-187 | after `t`, `translate` moves points by (x, y, z) scaled by w, so vectors with w = 0 do not move |
| Transforms.ScaleStretches | graphics/core/transform.py:189-197 | after `t`, `scale` multiplies each axis by its own factor |
| Transforms.TranslateTwice | graphics/core/transform.py:179-187 | two chained translations equal one translation by the sum |
| Transforms.TranslationCompose | graphics/core/transform.py:181-186 | the product of two translation matrices is the translation by the sum |
| Transforms.ScaleTwice | graphics/core/transform.py:189-197 | two chained scalings equal one scaling by the products |
| Transforms.ScaleCompose | graphics/core/transform.py:191-196 | the product of two scale matrices is the scale by the products |
| Transforms.TranslateFromDefault | graphics/core/transform.py:179-187 | `Transform().translate(x, y, z)` holds the identity with (x, y, z) in the last column |
| Transforms.ScaleFromDefault | graphics/core/transform.py:189-197 | `Transform().scale(x, y, z)` holds diag(x, y, z, 1) |
| Transforms.RotationFixesAxis | graphics/core/transform.py:199-217 | a chained rotation about a unit axis leaves points on that axis where `t` put them |
| Transforms.RotationFixesAxisPoint | graphics/core/transform.py:211-216 | the rotation matrix fixes every homogeneous point on its axis |
| Transforms.Ortho | graphics/core/transform.py:152-160 | `ortho` pre-multiplies the `glOrtho` matrix; a zero width, height or depth raises `ZeroDivisionError` |
| Transforms.OrthoCorners | graphics/core/transform.py:154-159 | the `glOrtho` matrix sends the near-bottom-left corner to (-1, -1, -1) and the far-top-right corner to (1, 1, 1) |
| Transforms.Frustum | graphics/core/transform.py:138-150 | `frustum` pre-multiplies the `glFrustum` matrix; a zero extent raises `ZeroDivisionError` |
| Transforms.FrustumNearCorner | graphics/core/transform.py:140-149 | the `glFrustum` matrix sends the near-bottom-left corner (left, bottom, -near, 1) to the homogeneous point (-near, -near, -near, near) |
| Transforms.FrustumNearCornerDivided | graphics/core/transform.py:140-149 | when near is not 0, `frustum` maps the 3-element point (left, bottom, -near) to (-1, -1, -1) after the division by w |
| Transforms.Homogenize | graphics/core/transform.py:77-88 | 3 elements get `hom` appended, 4 elements are returned unchanged, any other length raises `ValueError` |
| Transforms.HomogenizeDrop | graphics/core/transform.py:77-79 | dropping the appended coordinate gives the 3-element point back |
| Transforms.PointTimes | graphics/core/transform.py:117-125 | `t * p` returns as many components as `p` has; a length other than 3 or 4 raises `ValueError`; only a 3-element point, divided by w, can meet w = 0 |
| Transforms.PointTimesValue | graphics/core/transform.py:117-125 | a 3-element point is promoted with w = 1 and gives the product's x, y and z divided by its w, failing to divide exactly when that w is 0; a 4-element point gives the raw product |
| Transforms.PointTimesAffine | graphics/core/transform.py:117-123 | when the resulting w is 1, a 3-element point maps to the first three coordinates of the product |
| Transforms.PointTimesDefault | graphics/core/transform.py:117-125 | the default transform maps every 3- or 4-element point to itself |
| Transforms.PointTimesTranslate | graphics/core/transform.py:117-125 | a translation moves a 3-element point by (x, y, z) |
| Transforms.PointTimesScale | graphics/core/transform.py:117-125 | a scaling multiplies each coordinate of a 3-element point by its factor |
| Transforms.PointTimesProduct | graphics/core/transform.py:113-125 | for 4-element points `(a * b) * p == a * (b * p)` |
| Wrappers.Slot | graphics/io/wavefront.py:76 | a Python index in range names one element: a non-negative index itself, a negative one counted from the end |
| Wrappers.PyIndex | graphics/io/wavefront.py:74 | `s[i]` succeeds exactly when `-len(s) <= i < len(s)`, giving that element, and raises `IndexError` otherwise |
| PyText.Split | graphics/io/wavefront.py:127 | `str.split(sep)` gives at least one field, none containing the separator, and joining the fields with it gives the string back |
| PyText.SplitJoin | graphics/io/wavefront.py:108 | splitting a join of separator-free fields gives the fields back |
| PyText.Words | graphics/io/wavefront.py:58 | `str.split()` yields non-empty fields without white space |
| PyText.WordsOfJoin | graphics/io/wavefront.py:58 | `split()` of words joined by spaces, plus trailing white space, gives the words back |
| PyText.Decimal | graphics/io/wavefront.py:169 | `str(n)` is a non-empty run of digits whose value is `n` |
| PyText.ParseIntDecimal | graphics/io/wavefront.py:125 | `int()` reads back `str(n)`, even with trailing white space |
| PyText.Dirname | graphics/io/wavefront.py:104 | `os.path.dirname` is a prefix of the path, and empty for a bare file name |
| PyText.SplitExtRoot | graphics/io/wavefront.py:147 | `os.path.splitext(p)[0]` is a prefix of `p`; what it cuts off starts with '.' and contains no '/' |
| Wavefront.Float | graphics/io/wavefront.py:55 | `float(tok)` succeeds exactly when the token parses, and raises `ValueError` otherwise |
| Wavefront.Int | graphics/io/wavefront.py:125 | `int(tok)` succeeds exactly when the token is an integer, and raises `ValueError` otherwise |
| Wavefront.FloatifyReads | graphics/io/wavefront.py:54-55 | `floatify` succeeds exactly when every token parses, giving the numbers in order |
| Wavefront.Shows | graphics/io/wavefront.py:25 | one text per item, each the item formatted with `'{}'` |
| Wavefront.KeyLine | graphics/io/wavefront.py:22-27 | `write_key` writes nothing for `None`, the key and the space-joined items for a list, and the key and the value otherwise |
| Wavefront.BlockHead | graphics/io/wavefront.py:30-34 | a saved material starts with `newmtl <name>`, then the colour and exponent lines |
| Wavefront.BlockMaps | graphics/io/wavefront.py:35-38 | at most one line per map |
| Wavefront.MtlBlock | graphics/io/wavefront.py:29-39 | each material is saved as between 5 and 10 lines, from `newmtl <name>` to a blank line |
| Wavefront.SaveMtl | graphics/io/wavefront.py:11-39 | `save_mtl_file` writes at least five lines per material, and the file opens with the first material's block |
| Wavefront.ReadColor | graphics/io/wavefront.py:67-72 | a colour read from a `Kd`, `Ka` or `Ks` line always has exactly three components |
| Wavefront.ReadColorReads | graphics/io/wavefront.py:54-72 | a colour line reads exactly when three numbers follow its key, giving those three numbers; numbers in another count raise the setter's `ValueError` |
| Wavefront.Directive | graphics/io/wavefront.py:66-82 | a colour key succeeds exactly when three numbers follow it, a wrong count of numbers raising the setter's `ValueError`; `Ns` succeeds exactly when a second token exists and is a number, raising `IndexError` or the `float()` error otherwise; map keys always succeed; on success only the key's own field changes (`Kd` diffuse, `Ks` specular, `Ns` the exponent, maps from the last token), and as written `Ka` sets diffuse and `map_Ka`/`map_Kd` are swapped; other keys change nothing |
| Wavefront.StepToks | graphics/io/wavefront.py:58-82 | blank lines and lines before the first `newmtl` change nothing; `newmtl` without a name raises `IndexError`, otherwise it finishes the current material and starts a new one with the defaults; any other line succeeds exactly when its directive does, keeps the finished materials and replaces the current one by the directive's result, and otherwise raises the directive's error |
| Wavefront.LoadMtlFile | graphics/io/wavefront.py:41-50 | a missing library raises `FileNotFoundError`; otherwise its lines are read |
| Wavefront.MtlLinesCount | graphics/io/wavefront.py:57-86 | the loop adds exactly one material per `newmtl` line |
| Wavefront.LoadMtlCount | graphics/io/wavefront.py:84-86 | `load_mtl_file` returns one material per `newmtl` line |
| Wavefront.MtlIgnoresBeforeNewmtl | graphics/io/wavefront.py:66 | any line before the first `newmtl` leaves the state as it was |
| Wavefront.KaSetsDiffuseAsWritten | graphics/io/wavefront.py:69-70 | as written a `Ka` line overwrites the diffuse colour; corrected it sets the ambient colour |
| Wavefront.BlockReads | graphics/io/wavefront.py:29-82 | the lines saved for one material read back as that material, or, as written, as its image under the `Ka` and map mix-up |
| Wavefront.SaveMtlReads | graphics/io/wavefront.py:11-86 | reading the saved lines of a material list adds those materials in order |
| Wavefront.MtlRoundTrip | graphics/io/wavefront.py:11-86 | corrected, `load_mtl_file` returns exactly the list `save_mtl_file` wrote |
| Wavefront.MtlRoundTripAsWritten | graphics/io/wavefront.py:67-78 | as written, every material comes back with its ambient colour as the diffuse one, a black ambient colour, and its diffuse and ambient maps swapped |
| Wavefront.AsWrittenImageDiffers | graphics/io/wavefront.py:69-70 | as written, any material whose diffuse and ambient colours differ does not survive the round trip |
| Wavefront.PathJoin | graphics/io/wavefront.py:113 | `os.path.join(dir, name)`: an absolute name wins, an empty directory adds nothing, a directory ending in '/' is followed directly by the name, otherwise one '/' goes between them |
| Wavefront.Tokens | graphics/io/wavefront.py:108 | as written, `line.split(' ')` never yields an empty list, so the `len(toks) == 0` branch cannot be taken |
| Wavefront.FaceTokenFields | graphics/io/wavefront.py:123-130 | a token without '/' gives vertex `int(tok)-1` and no texture index; a token with '/' gives vertex `int(part0)-1` and a texture index `int(part1)-1` exactly when part1 is not empty, so `1//3` has none; each fails exactly when a field it reads is not an integer |
| Wavefront.FaceCornersOfTokens | graphics/io/wavefront.py:121-130 | the corners of an `f` line read exactly when every token reads; vertex index i is token i's; the texture list is all tokens' indices when every token has one, and empty when none has |
| Wavefront.FloatAt | graphics/io/wavefront.py:117-119 | `float(toks[i])` raises `IndexError` past the end and is `float()` of the token otherwise |
| Wavefront.ObjStepToks | graphics/io/wavefront.py:107-131 | empty and unknown lines change nothing; as written every `v` line fails, and `TypeError` is raised once the first two coordinates read, so the vertex list never grows |
| Wavefront.ObjStepDirectives | graphics/io/wavefront.py:111-131 | `mtllib` records the name and loads the library, failing when the name or file is missing; `usemtl` interns the name with `add_material` and makes it the current material; `v` (corrected) and `vt` append one point, failing exactly when a coordinate is missing or does not parse; `f` adds the face through `add_face` with the current material |
| Wavefront.ObjLines | graphics/io/wavefront.py:107-131 | as written, reading lines never adds a vertex |
| Wavefront.LoadObj | graphics/io/wavefront.py:89-133 | a missing file raises `FileNotFoundError`; a loaded mesh has been finalized |
| Wavefront.ObjStepMaterials | graphics/io/wavefront.py:108-131 | a line that succeeds sets the material list when it is an `mtllib` line and leaves it unchanged otherwise |
| Wavefront.ObjLinesMaterials | graphics/io/wavefront.py:105-131 | after the line loop the material list is `None` exactly when it was `None` before and no line is an `mtllib` directive |
| Wavefront.LoadObjMaterials | graphics/io/wavefront.py:89-133 | a successful `load_obj` returns `None` for the materials exactly when the file has no `mtllib` line, that is when it references no material library |
| Wavefront.LoadObjAsWrittenFails | graphics/io/wavefront.py:113-117 | as written, `load_obj` never returns |
| Wavefront.FaceItems | graphics/io/wavefront.py:164-169 | the face section can be written exactly when every non-negative tag names a material; otherwise it raises `IndexError` |
| Wavefront.RenderItems | graphics/io/wavefront.py:164-169 | one line per item, in order |
| Wavefront.VertexLines | graphics/io/wavefront.py:160-163 | exactly one `v`, `vn`, `vt` triple per output vertex |
| Wavefront.SaveObj | graphics/io/wavefront.py:135-169 | `save_obj` of an unfinalized mesh raises `ValueError`; otherwise it writes the header, `mtllib` with the file stem plus `.mtl` unless `mat_file` is given, the vertex triples and the face section, failing only when a tag names no material |
| Wavefront.SplitSavedLine | graphics/io/wavefront.py:108 | as written, `split(' ')` of a saved line gives its words, the last still carrying the newline |
| Wavefront.SavedLineTokens | graphics/io/wavefront.py:108 | how a saved line tokenizes: as written with the newline on the last token, corrected as its words |
| Wavefront.FaceTokenReads | graphics/io/wavefront.py:126-130 | a saved corner `k/k/k` reads back as vertex and texture index k-1 |
| Wavefront.FaceCornersRead | graphics/io/wavefront.py:169 | a saved face line for triangle t reads back as corners 3t, 3t+1, 3t+2 with the same texture indices |
| Wavefront.FaceLineReads | graphics/io/wavefront.py:120-131 | reading a saved face line calls `add_face` with those indices and the current material |
| Wavefront.UseMtlLineReads | graphics/io/wavefront.py:114-115 | a saved `usemtl` line interns the material name, which as written keeps its trailing newline |
| Wavefront.MtllibLineAsWritten | graphics/io/wavefront.py:111-113 | as written, the library path read from a saved `mtllib` line ends in a newline, so no library is found |
| Wavefront.MtlPathOfBareName | graphics/io/wavefront.py:104-113 | as written, the library of `cube.obj` is looked up at `/cube.mtl`, in the root directory |
| Wavefront.MtlPathCorrected | graphics/io/wavefront.py:113 | corrected, the library sits next to the OBJ file; for a non-empty directory not ending in '/' it agrees with the written path, and for an empty directory or one ending in '/' (such as the root) it does not |
| Wavefront.VLineReads | graphics/io/wavefront.py:116-117 | corrected, a saved `v` line appends exactly its point |
| Wavefront.VLineAsWritten | graphics/io/wavefront.py:117 | as written, a saved `v` line raises `TypeError` |
| Wavefront.VnLineIgnored | graphics/io/wavefront.py:107-131 | a `vn` line changes nothing |
| Wavefront.VtLineReads | graphics/io/wavefront.py:118-119 | a saved `vt` line appends exactly its texture coordinate, as written and corrected |
| ObjRoundTrip.VertexSectionReads | graphics/io/wavefront.py:160-163 | the saved vertex section reads back as the output positions and texture coordinates, in order |
| ObjRoundTrip.VertexStep | graphics/io/wavefront.py:160-163 | one saved `v`, `vn`, `vt` triple appends exactly its position and texture coordinate |
| ObjRoundTrip.AddSavedFace | graphics/io/wavefront.py:169 | adding saved face t appends exactly triangle t with the current tag |
| ObjRoundTrip.FaceStep | graphics/io/wavefront.py:169 | reading saved face line t appends triangle t |
| ObjRoundTrip.FaceLinesUseMtl | graphics/io/wavefront.py:165-169 | a triangle whose tag differs from the last one written starts with a `usemtl` line |
| ObjRoundTrip.FaceLinesPlain | graphics/io/wavefront.py:165-169 | a triangle whose tag is negative or repeats the last one gets no `usemtl` line |
| ObjRoundTrip.FaceSectionReads | graphics/io/wavefront.py:155-169 | the saved face section reads back as the saved triangles, each tagged with the material it was saved with, with tags that never decrease |
| ObjRoundTrip.SavedPairsSorted | graphics/geometry/mesh.py:80 | the triangles read back, with non-decreasing tags, are already in `finalize` order |
| ObjRoundTrip.FinalizeSavedOrder | graphics/geometry/mesh.py:74-113 | finalizing the loaded mesh keeps its triangles and tags in place |
| ObjRoundTrip.FinalizeSavedOutput | graphics/geometry/mesh.py:82-111 | finalizing the loaded mesh reproduces the saved output positions and texture coordinates |
| ObjRoundTrip.HeaderIgnored | graphics/io/wavefront.py:152 | the header comment line changes nothing |
| ObjRoundTrip.MtllibLineReads | graphics/io/wavefront.py:111-113 | corrected, a saved `mtllib` line records the name and loads exactly the saved library |
| ObjRoundTrip.SavedFileShape | graphics/io/wavefront.py:152-169 | the saved file is the header, the `mtllib` line, the vertex section and the face section, in that order |
| ObjRoundTrip.LoadSavedLines | graphics/io/wavefront.py:107-131 | the corrected loop reads a saved file to the saved vertices and tagged triangles |
| ObjRoundTrip.UntaggedAll | graphics/io/wavefront.py:106 | when the saved tags never decrease and each untagged triangle reads back with the tag of the one before, every untagged triangle reads back with the initial current material |
| ObjRoundTrip.LoadSavedMesh | graphics/io/wavefront.py:102-131 | reading a saved file gives the saved library and a mesh ready to finalize into the saved one |
| ObjRoundTrip.FinalizeReadBack | graphics/io/wavefront.py:132 | finalizing what was read back reproduces the saved output and keeps the tags |
| ObjRoundTrip.LoadObjUnfold | graphics/io/wavefront.py:89-133 | `load_obj` is the loop followed by `finalize` |
| ObjRoundTrip.FinalizedRoundTripped | graphics/io/wavefront.py:132-133 | the finalized mesh agrees with the saved mesh |
| ObjRoundTrip.LoadSavedObj | graphics/io/wavefront.py:89-169 | corrected, `load_obj` of a file `save_obj` wrote, next to the library `save_mtl_file` wrote, returns the saved output positions and texture coordinates, the library name, each triangle's material name, and the saved material list |
| GeometryWavefront.StepToks | graphics/geometry/wavefront.py:11-30 | the older loader's line step never touches the material list: `mtllib` only records the name |
| GeometryWavefront.Lines | graphics/geometry/wavefront.py:7-30 | the older loader's loop never loads a material library |
| GeometryWavefront.LoadObj | graphics/geometry/wavefront.py:3-33 | a result exists only for the corrected code, and it is a finalized mesh |
| GeometryWavefront.LoadObjAsWrittenFails | graphics/geometry/wavefront.py:4-5 | as written, a missing file raises `FileNotFoundError` and an existing one `NameError`, before a line is read |
| GeometryWavefront.StepAgrees | graphics/geometry/wavefront.py:11-30 | each line the io loader reads is read to the same state, less the material list |
| GeometryWavefront.LinesAgree | graphics/geometry/wavefront.py:7-30 | the whole loop agrees with the io loop, less the material list |
| GeometryWavefront.LoadObjAgrees | graphics/geometry/wavefront.py:3-32 | whenever the io `load_obj` reads a file, this one returns the same mesh |
| GeometryWavefront.LoadSavedObj | graphics/geometry/wavefront.py:3-61 | corrected, this `load_obj` reads back what `save_obj` wrote, whether or not the library exists |
| SimpleShapes.AddVertices | graphics/geometry/simple_shapes.py:44-45 | the loop over `vtx` appends one vertex per point, in order, and changes nothing else |
| SimpleShapes.AddTexcoords | graphics/geometry/simple_shapes.py:46-47 | the loop over `tex` appends one texture coordinate per pair, in order |
| SimpleShapes.AddSides | graphics/geometry/simple_shapes.py:48-50 | the loop over sides interns each side's name before adding its quad as two triangles tagged with that side |
| SimpleShapes.CubeMaterials | graphics/geometry/simple_shapes.py:34-41 | one material per dictionary, with its name and diffuse colour over the defaults |
| SimpleShapes.CubePointsAdded | graphics/geometry/simple_shapes.py:12-20 | the cube gets 8 vertices, each a corner of the cube of side 1 about the origin, and 4 texture coordinates, each a corner of the unit square |
| SimpleShapes.CubeFacesInRange | graphics/geometry/simple_shapes.py:21-32 | every face has four vertex indices below 8 and `tc` has four indices below 4 |
| SimpleShapes.SidesInOrder | graphics/geometry/simple_shapes.py:48-50 | for distinct side names, the materials end as the side list, and triangle j carries tag j/2 |
| SimpleShapes.CubeSidesAdded | graphics/geometry/simple_shapes.py:29-50 | the six sides give 12 triangles, materials bottom, top, left, right, far, near, and tags 0,0,1,1,…,5,5 |
| SimpleShapes.CubeBuilt | graphics/geometry/simple_shapes.py:12-50 | before `finalize` the cube mesh has 8 vertices, 4 texture coordinates, 12 triangles whose corners all resolve with a texture slot of their own, and the six materials in order |
| SimpleShapes.FinalizedPoints | graphics/geometry/mesh.py:82-111 | finalizing copies only input points, so cube corners stay cube corners |
| SimpleShapes.FinalizeSucceeds | graphics/geometry/mesh.py:74-119 | the corrected `finalize` succeeds when there are triangles and all their corners resolve; when every corner also has a texture slot, the as-written `finalize` returns the same mesh |
| SimpleShapes.CubeMaterialsBuilt | graphics/geometry/simple_shapes.py:34-41 | `cube()` builds six materials named as listed |
| SimpleShapes.FinalizeCubeShaped | graphics/geometry/simple_shapes.py:51 | finalizing the cube mesh gives 36 output vertices on cube corners, 36 texture coordinates on square corners, and 12 non-decreasing tags; when every corner has a texture slot, the as-written `finalize` gives the same mesh |
| SimpleShapes.CubeFinalized | graphics/geometry/simple_shapes.py:4-53 | `cube()`, running `finalize` as written, succeeds and returns the finalized cube and six materials |
| SimpleShapes.CubeSteps | graphics/geometry/simple_shapes.py:43-53 | `cube()` is the built mesh, finalized as written, paired with the material list |
| SimpleShapes.CubeColorNames | graphics/geometry/simple_shapes.py:29-41 | the colour list names the sides in the side list's order, except that near and far are exchanged |
| SimpleShapes.CubeMaterialOrder | graphics/geometry/simple_shapes.py:29-53 | the returned materials follow the mesh's material list except that near comes before far |

## Left out

- Number formatting and `float()` parsing are the `Numerals` parameter. Round trips are
  claimed only for numbers that read back, as defined above.
- float32 rounding in `finalize`, `homogenize` and the transform matrices is not
  modelled; all arithmetic is exact over `real`.
- Normal computation in `finalize` (cross products and normalisation) is the `NormalRule`
  parameter. The division by a zero norm it can meet is not modelled.
- `Transform.rotate` takes the axis already normalised and the cosine and sine of the
  angle as parameters, because square roots and trigonometry are not modelled.
- `lookat` and `perspective` are not modelled, for the same reason; nor is `inverse`,
  which needs `numpy.linalg.inv`.
- `homogenize` and `*` are modelled for a single point given as a sequence. Sets of
  points stored as ndarray columns are not.
- `Transform(T)` accepts any `numpy.ndarray` without checking its shape. The model's
  `OfArray` holds only a 4x4 matrix, so arrays of other shapes are not represented.
- `isinstance(A, collections.Sequence)` is read as "A is a sequence". Python 3.10
  removed that name, so on current Pythons the call raises `AttributeError`.
- `Transforms.Ortho`, `Transforms.Frustum`: a zero extent raises `ZeroDivisionError` as it
  does for Python floats. numpy scalars would give infinities instead.
- The OpenGL and Qt modules, the apps, the tests other than the transform test's product
  claim, and the package's import glue are not part of this model.
- File I/O: files are a map from path to lines, and the save functions return the lines
  they would write. `with open(...)` for writing, directory creation, and I/O errors other
  than a missing file are not modelled.
- A Python method that raises part-way leaves earlier changes on the object. The model
  returns only the error.
- `PyText.ParseInt`: Python's `int()` also accepts underscores between digits ("1_0")
  and non-ASCII Unicode digits. The model accepts only ASCII digits and rejects both.
- Material numbers: Python's `int` and `float` are folded into the one number `Num`. The
  `{}` formatting tells them apart (`1` against `1.0`); `Numerals.show` is assumed to
  give the text the source would write for whichever the value was.
- Exception messages are kept only where the source fixes them: the accessor and setter
  messages, and `homogenize`'s. The text of `float()` and `int()` errors is approximate.
- Python 3 raises `TypeError` when `sorted` compares a `None` texture index with an
  integer. The model orders `None` before any integer, so `finalize` succeeds on meshes
  that mix corners with and without texture indices.
- The `material_file` property is a plain field (`matFile`). Its getter and setter have no
  logic.
- `Materials.ToDict`: the bound method `name.copy` that the source stores is represented
  by the value it would copy. The model cannot call it.
- `Wavefront.FaceCornersOfTokens`: nothing is stated about `f` lines where only some
  tokens carry a texture index. There `add_face` pairs the shorter texture list with the
  first corners.
- `Wavefront.MtlRoundTrip`: holds only for materials whose names and map values are single
  words and whose numbers read back; a name with a space does not survive `split()`.
- `ObjRoundTrip.LoadSavedObj`: requires a finalized, valid, non-empty mesh with
  non-decreasing tags (as `finalize` leaves them), material names that are single words,
  and numbers that read back. It also requires the library to be stored at the corrected
  path.
- `GeometryWavefront.LoadSavedObj`: also requires the library path to differ from the
  OBJ file's own path, since the proof places a saved library there.
- `SimpleShapes.AddSides`: stated for quads only, the only faces `cube()` adds.
- `SimpleShapes.CubeMaterialOrder`: the near/far order is stated as the source has it.
  Nothing in the library matches materials by position, so it is not a finding.

## Findings

| source | as written | input that shows it | evidently intended | confidence | as-written member | corrected member |
|---|---|---|---|---|---|---|
| graphics/io/wavefront.py:117 | `float(toks(3))` calls the token list, raising `TypeError` on every `v` line; the same line appears in graphics/geometry/wavefront.py:16 | the line `v 0.0 0.0 0.0\n` | `float(toks[3])`, appending the vertex | not executed | Wavefront.VLineAsWritten | Wavefront.VLineReads |
| graphics/geometry/wavefront.py:5 | `Mesh()` is used but never imported, so `load_obj` raises `NameError` on any existing file | any existing file | import `Mesh` and read the file | not executed | GeometryWavefront.LoadObjAsWrittenFails | GeometryWavefront.LoadObjAgrees |
| graphics/io/wavefront.py:69-78 | `Ka` assigns the diffuse colour; `map_Ka` sets `diffuse_map` and `map_Kd` sets `ambient_map` | a material with diffuse [1,1,1] and ambient [0,0,0], saved and loaded back | `Ka` sets ambient; each map key sets its own map, so the MTL file round-trips | not executed | Wavefront.MtlRoundTripAsWritten | Wavefront.MtlRoundTrip |
| graphics/appearance/materials.py:36 | `self.name.copy` raises `AttributeError` for a string name; for a list name it stores the bound method | `Material('red').to_dict()` | store the name itself, so `Material(mdict=m.to_dict())` rebuilds `m` | not executed | Materials.ToDictFailsForTextName | Materials.ToDictCorrectedRoundTrip |
| graphics/geometry/mesh.py:93-108 | `self.init_tex[f[k][1]]` indexes with `None` when a corner has no texture index, raising `TypeError` before the `(0.0, 0.0)` fallback can apply | one triangle added with `add_face([0,1,2])`, then `finalize()` | test the texture index for `None` and fall back to (0, 0) | not executed | Meshes.UntexturedTriangle | Meshes.FinalizeWithoutTexcoords |
| graphics/io/wavefront.py:108 | `line.split(' ')` keeps the trailing newline on the last token, so `mtllib` and `usemtl` names end in `"\n"` and the library is not found; the same line appears in graphics/geometry/wavefront.py:8 | the line `mtllib cube.mtl\n` as `save_obj` writes it | `line.split()`, as `load_mtl_file` uses | not executed | Wavefront.MtllibLineAsWritten | ObjRoundTrip.MtllibLineReads |
| graphics/io/wavefront.py:113 | `'{}/{}'.format(path, toks[1])` with an empty directory names a file in the root directory | `load_obj('cube.obj')` looks for `/cube.mtl` | `os.path.join(path, toks[1])`, the library next to the OBJ file | not executed | Wavefront.MtlPathOfBareName | Wavefront.MtlPathCorrected |

=== FILE: geometry_wavefront.dfy ===
/** The older OBJ reader and writer kept next to the mesh builder.

    Its `save_obj` writes exactly what the io module's `save_obj` writes, so the model of
    that function serves both. Its `load_obj` differs from the io one in three ways: an
    `mtllib` line only records the library name, the function returns the mesh alone, and
    the module never imports `Mesh`, so as written the call stops at `Mesh()` with a
    `NameError` before reading a line.
 */
module GeometryWavefront {
  import opened Wrappers
  import opened PyText
  import opened Meshes
  import Wavefront
  import ObjRoundTrip

  /** One line of this `load_obj`, split into tokens: `mtllib` records the name, and
      every other line is read as the corrected io loader reads it. */
  function StepToks(c: Numerals, st: Wavefront.ObjState, toks: seq<string>): (r: Result<Wavefront.ObjState>)
    ensures r.Ok? ==> r.value.materials == st.materials
  {
    if |toks| > 0 && toks[0] == "mtllib" then
      var name :- PyIndex(toks, 1);
      Ok(st.(mesh := st.mesh.(matFile := Some(name))))
    else Wavefront.ObjStepToks(map[], c, "", st, toks, false)
  }

  /** The `for line in f` loop of the corrected loader. The source splits each line with
      `line.split(' ')` and reads `toks(3)`, as graphics/io/wavefront.py does; the as-written
      loader raises `NameError` before it reads a line, so only the corrected reading is
      modelled here: `line.split()` and `toks[3]`, the fixes listed under Findings. */
  function Lines(c: Numerals, st: Wavefront.ObjState, lines: seq<string>): (r: Result<Wavefront.ObjState>)
    ensures r.Ok? ==> r.value.materials == st.materials
    decreases |lines|
  {
    if |lines| == 0 then Ok(st)
    else
      var st1 :- StepToks(c, st, Words(lines[0]));
      Lines(c, st1, lines[1..])
  }

  /** `load_obj(filename)`. As written, opening the file succeeds or raises
      `FileNotFoundError`, and then `Mesh()` raises `NameError`; corrected, the lines are
      read into a new mesh and the mesh is finalized. */
  function LoadObj(fs: Wavefront.FileSystem, c: Numerals, normal: NormalRule, filename: string, asWritten: bool)
    : (r: Result<Mesh>)
    ensures r.Ok? ==> !asWritten && r.value.output.Some?
  {
    if filename !in fs then Err(FileNotFound(filename))
    else if asWritten then Err(NameError)
    else
      var st :- Lines(c, Wavefront.ObjState(Empty(), None, -1), fs[filename]);
      FinalizeWith(st.mesh, normal, false)
  }

  /** As written, no file is ever loaded: a missing file raises `FileNotFoundError` and an
      existing one `NameError`. */
  lemma LoadObjAsWrittenFails(fs: Wavefront.FileSystem, c: Numerals, normal: NormalRule, filename: string)
    ensures filename !in fs ==> LoadObj(fs, c, normal, filename, true) == Err(FileNotFound(filename))
    ensures filename in fs ==> LoadObj(fs, c, normal, filename, true) == Err(NameError)
  {
  }

  /** Wherever the io loader reads a line, this one reads it to the same state, less the
      material library. */
  lemma StepAgrees(fs: Wavefront.FileSystem, c: Numerals, dir: string, st: Wavefront.ObjState, toks: seq<string>)
    requires Wavefront.ObjStepToks(fs, c, dir, st, toks, false).Ok?
    ensures StepToks(c, st.(materials := None), toks)
         == Ok(Wavefront.ObjStepToks(fs, c, dir, st, toks, false).value.(materials := None))
  {
  }

  lemma {:induction false} LinesAgree(fs: Wavefront.FileSystem, c: Numerals, dir: string, st: Wavefront.ObjState,
                                      lines: seq<string>)
    requires Wavefront.ObjLines(fs, c, dir, st, lines, false).Ok?
    ensures Lines(c, st.(materials := None), lines)
         == Ok(Wavefront.ObjLines(fs, c, dir, st, lines, false).value.(materials := None))
    decreases |lines|
  {
    if |lines| > 0 {
      var st1 := Wavefront.ObjStep(fs, c, dir, st, lines[0], false).value;
      StepAgrees(fs, c, dir, st, Words(lines[0]));
      LinesAgree(fs, c, dir, st1, lines[1..]);
    }
  }

  /** Whenever the corrected io `load_obj` reads a file, this one returns the same mesh. */
  lemma LoadObjAgrees(fs: Wavefront.FileSystem, c: Numerals, normal: NormalRule, filename: string)
    requires Wavefront.LoadObj(fs, c, normal, filename, false).Ok?
    ensures LoadObj(fs, c, normal, filename, false) == Ok(Wavefront.LoadObj(fs, c, normal, filename, false).value.0)
  {
    var st0 := Wavefront.ObjState(Empty(), None, -1);
    LinesAgree(fs, c, Dirname(filename), st0, fs[filename]);
  }

  /** This `load_obj` reads back what `save_obj` wrote, whether or not the library exists. */
  lemma LoadSavedObj(fs: Wavefront.FileSystem, c: Numerals, normal: NormalRule, m: Mesh,
                     filename: string, matFile: Option<string>)
    requires ObjRoundTrip.Saveable(c, m)
    requires Wavefront.SaveObj(c, m, filename, matFile).Ok?
    requires filename in fs && fs[filename] == Wavefront.SaveObj(c, m, filename, matFile).value
    requires IsWord(Wavefront.MtlName(filename, matFile))
    requires Wavefront.MtlPath(Dirname(filename), Wavefront.MtlName(filename, matFile), false) != filename
    ensures LoadObj(fs, c, normal, filename, false).Ok?
    ensures ObjRoundTrip.MeshRoundTripped(LoadObj(fs, c, normal, filename, false).value, m,
                                          Wavefront.MtlName(filename, matFile))
  {
    var lib := Wavefront.MtlPath(Dirname(filename), Wavefront.MtlName(filename, matFile), false);
    var fs2 := fs[lib := Wavefront.SaveMtl(c, [])];
    assert ObjRoundTrip.Stored(fs2, c, m, filename, matFile, []);
    ObjRoundTrip.LoadSavedObj(fs2, c, normal, m, filename, matFile, []);
    LoadObjAgrees(fs2, c, normal, filename);
    assert LoadObj(fs, c, normal, filename, false) == LoadObj(fs2, c, normal, filename, false);
  }
}

=== FILE: materials.dfy ===
/** The `Material` value object: colours, an exponent and optional texture maps.

    Python lets any object reach the attributes; the model keeps the shapes the
    code distinguishes: numbers, strings and `None` (`Scalar`), lists of those,
    and the bound method `list.copy` that `to_dict` stores under 'name'.
 */
module Materials {
  import opened Wrappers

  datatype Scalar = Num(x: real) | Text(s: string) | Nil

  datatype Value =
    | One(v: Scalar)
    | List(items: seq<Scalar>)
    /** The bound method `xs.copy` of a list `xs` (not a call of it). */
    | CopyOf(items: seq<Scalar>)

  /** Python's `None` as a value. */
  const NoneValue := One(Nil)

  /** `hasattr(type(v), '__iter__')`: lists and strings are iterable, numbers,
      `None` and methods are not. */
  predicate Iterable(v: Value) {
    v.List? || (v.One? && v.v.Text?)
  }

  /** Python's `len(v)`; objects without a length raise `TypeError`. */
  function Len(v: Value): (r: Result<nat>)
    ensures r.Ok? <==> Iterable(v)
    ensures r.Err? ==> r.error == TypeError
  {
    match v
    case List(xs) => Ok(|xs|)
    case One(Text(s)) => Ok(|s|)
    case _ => Err(TypeError)
  }

  /** `[e for e in v]`: the elements of a list, or the one-character strings of a string. */
  function Elements(v: Value): (r: seq<Scalar>)
    requires Iterable(v)
    ensures Len(v) == Ok(|r|)
    ensures v.List? ==> r == v.items
    ensures v.One? ==> forall i | 0 <= i < |r| :: r[i] == Text([v.v.s[i]])
  {
    if v.List? then v.items else seq(|v.v.s|, i requires 0 <= i < |v.v.s| => Text([v.v.s[i]]))
  }

  datatype Material = Material(
    name: Value,
    diffuse: seq<Scalar>,
    diffuseMap: Value,
    ambient: seq<Scalar>,
    ambientMap: Value,
    specular: seq<Scalar>,
    specularMap: Value,
    exponent: Value,
    bumpMap: Value)

  /** What the setters guarantee of every material they build. */
  predicate Valid(m: Material) {
    |m.diffuse| == 3 && |m.ambient| == 3 && |m.specular| == 3 && !Iterable(m.exponent)
  }

  function Rgb(r: real, g: real, b: real): seq<Scalar> {
    [Num(r), Num(g), Num(b)]
  }

  /** `Material(name)` before any dictionary is applied: white diffuse, black ambient
      and specular, exponent 1.0 and no maps. */
  function Defaults(name: Value): (m: Material)
    ensures Valid(m) && m.name == name
  {
    Material(name, Rgb(1.0, 1.0, 1.0), NoneValue, Rgb(0.0, 0.0, 0.0), NoneValue,
             Rgb(0.0, 0.0, 0.0), NoneValue, One(Num(1.0)), NoneValue)
  }

  const ColorMsg := "Expected 3-element array-like"
  const ExponentMsg := "Expected scalar for specular exponent"

  /** The check and copy shared by the `diffuse`, `ambient` and `specular` setters. */
  function ColorOf(val: Value): (r: Result<seq<Scalar>>)
    ensures r.Ok? <==> Len(val) == Ok(3)
    ensures r.Ok? ==> |r.value| == 3 && r.value == Elements(val)
    ensures Len(val).Err? ==> r == Err(TypeError)
    ensures Len(val).Ok? && Len(val).value != 3 ==> r == Err(ValueError(ColorMsg))
  {
    var n :- Len(val);
    if n != 3 then Err(ValueError(ColorMsg)) else Ok(Elements(val))
  }

  /** `m.diffuse = val`; on failure `m` is unchanged (the model returns the error instead). */
  function SetDiffuse(m: Material, val: Value): (r: Result<Material>)
    ensures r.Ok? <==> Len(val) == Ok(3)
    ensures r.Err? ==> r.error == ColorOf(val).error
    ensures r.Ok? ==> r.value == m.(diffuse := Elements(val))
  {
    var c :- ColorOf(val);
    Ok(m.(diffuse := c))
  }

  /** `m.ambient = val`. */
  function SetAmbient(m: Material, val: Value): (r: Result<Material>)
    ensures r.Ok? <==> Len(val) == Ok(3)
    ensures r.Err? ==> r.error == ColorOf(val).error
    ensures r.Ok? ==> r.value == m.(ambient := Elements(val))
  {
    var c :- ColorOf(val);
    Ok(m.(ambient := c))
  }

  /** `m.specular = val`. */
  function SetSpecular(m: Material, val: Value): (r: Result<Material>)
    ensures r.Ok? <==> Len(val) == Ok(3)
    ensures r.Err? ==> r.error == ColorOf(val).error
    ensures r.Ok? ==> r.value == m.(specular := Elements(val))
  {
    var c :- ColorOf(val);
    Ok(m.(specular := c))
  }

  /** `m.specular_exponent = val`: iterables are refused, anything else is stored as given. */
  function SetExponent(m: Material, val: Value): (r: Result<Material>)
    ensures r.Err? <==> Iterable(val)
    ensures r.Err? ==> r.error == ValueError(ExponentMsg)
    ensures r.Ok? ==> r.value == m.(exponent := val)
  {
    if Iterable(val) then Err(ValueError(ExponentMsg)) else Ok(m.(exponent := val))
  }

  /** A Python dictionary with string keys. */
  type Dict = map<string, Value>

  /** The colour a dictionary gives for `key`, or `default` when the key is absent. */
  function ColorOr(d: Dict, key: string, default: seq<Scalar>): seq<Scalar>
    requires key in d ==> Iterable(d[key])
  {
    if key in d then Elements(d[key]) else default
  }

  function ValueOr(d: Dict, key: string, default: Value): Value {
    if key in d then d[key] else default
  }

  /** The dictionary passes every check the setters make. */
  predicate Accepted(d: Dict) {
    && ("diffuse" in d ==> Len(d["diffuse"]) == Ok(3))
    && ("ambient" in d ==> Len(d["ambient"]) == Ok(3))
    && ("specular" in d ==> Len(d["specular"]) == Ok(3))
    && ("specular_exponent" in d ==> !Iterable(d["specular_exponent"]))
  }

  /** The colour and exponent keys of `mdict`, through the validating setters in the
      order diffuse, ambient, specular, specular_exponent. */
  function ApplyChecked(m: Material, d: Dict): (r: Result<Material>)
    ensures r.Ok? <==> Accepted(d)
    ensures r.Ok? ==> r.value == m.(diffuse := ColorOr(d, "diffuse", m.diffuse),
                                    ambient := ColorOr(d, "ambient", m.ambient),
                                    specular := ColorOr(d, "specular", m.specular),
                                    exponent := ValueOr(d, "specular_exponent", m.exponent))
    ensures r.Err? && "diffuse" in d && Len(d["diffuse"]) != Ok(3) ==>
      r.error == ColorOf(d["diffuse"]).error
  {
    var m1 :- if "diffuse" in d then SetDiffuse(m, d["diffuse"]) else Ok(m);
    var m2 :- if "ambient" in d then SetAmbient(m1, d["ambient"]) else Ok(m1);
    var m3 :- if "specular" in d then SetSpecular(m2, d["specular"]) else Ok(m2);
    if "specular_exponent" in d then SetExponent(m3, d["specular_exponent"]) else Ok(m3)
  }

  /** The four map keys of `mdict`, stored without any check. */
  function ApplyMaps(m: Material, d: Dict): (r: Material)
    ensures r == m.(diffuseMap := ValueOr(d, "diffuse_map", m.diffuseMap),
                    ambientMap := ValueOr(d, "ambient_map", m.ambientMap),
                    specularMap := ValueOr(d, "specular_map", m.specularMap),
                    bumpMap := ValueOr(d, "bump_map", m.bumpMap))
  {
    var m1 := if "diffuse_map" in d then m.(diffuseMap := d["diffuse_map"]) else m;
    var m2 := if "ambient_map" in d then m1.(ambientMap := d["ambient_map"]) else m1;
    var m3 := if "specular_map" in d then m2.(specularMap := d["specular_map"]) else m2;
    if "bump_map" in d then m3.(bumpMap := d["bump_map"]) else m3
  }

  /** `Material(name, mdict)`: the defaults, then each key of `mdict` that is present, in
      the order name, diffuse, ambient, specular, specular_exponent, then the four maps.
      Colours and the exponent go through their validating setters; the first refusal
      is the exception raised. */
  function New(name: Value, mdict: Option<Dict>): (r: Result<Material>)
    ensures mdict.None? ==> r == Ok(Defaults(name))
    ensures mdict.Some? ==> (r.Ok? <==> Accepted(mdict.value))
    ensures r.Ok? ==> Valid(r.value)
    ensures r.Ok? && mdict.Some? ==>
      var d, m := mdict.value, r.value;
      var base := Defaults(name);
      && m.name == ValueOr(d, "name", name)
      && m.diffuse == ColorOr(d, "diffuse", base.diffuse)
      && m.ambient == ColorOr(d, "ambient", base.ambient)
      && m.specular == ColorOr(d, "specular", base.specular)
      && m.exponent == ValueOr(d, "specular_exponent", base.exponent)
      && m.diffuseMap == ValueOr(d, "diffuse_map", NoneValue)
      && m.ambientMap == ValueOr(d, "ambient_map", NoneValue)
      && m.specularMap == ValueOr(d, "specular_map", NoneValue)
      && m.bumpMap == ValueOr(d, "bump_map", NoneValue)
    ensures r.Err? && "diffuse" in mdict.value && Len(mdict.value["diffuse"]) != Ok(3) ==>
      r.error == ColorOf(mdict.value["diffuse"]).error
  {
    var m0 := Defaults(name);
    if mdict.None? then Ok(m0)
    else
      var d := mdict.value;
      var m1 := m0.(name := ValueOr(d, "name", name));
      var m2 :- ApplyChecked(m1, d);
      Ok(ApplyMaps(m2, d))
  }

  /** Every key `to_dict` may write. */
  const DictKeys: set<string> := {"name", "diffuse", "ambient", "specular", "specular_exponent",
                                  "diffuse_map", "ambient_map", "specular_map", "bump_map"}

  /** The entries `to_dict` builds, with `nameEntry` stored under 'name'. */
  function Entries(m: Material, nameEntry: Value): (d: Dict)
    ensures "name" in d && "diffuse" in d && "ambient" in d && "specular" in d && "specular_exponent" in d
    ensures "diffuse_map" in d <==> m.diffuseMap != NoneValue
    ensures "ambient_map" in d <==> m.ambientMap != NoneValue
    ensures "specular_map" in d <==> m.specularMap != NoneValue
    ensures "bump_map" in d <==> m.bumpMap != NoneValue
    ensures d.Keys <= DictKeys
  {
    MapKeysDistinct();
    var base := map["name" := nameEntry, "diffuse" := List(m.diffuse), "ambient" := List(m.ambient),
                    "specular" := List(m.specular), "specular_exponent" := m.exponent];
    var d1 := if m.diffuseMap != NoneValue then base["diffuse_map" := m.diffuseMap] else base;
    var d2 := if m.ambientMap != NoneValue then d1["ambient_map" := m.ambientMap] else d1;
    var d3 := if m.specularMap != NoneValue then d2["specular_map" := m.specularMap] else d2;
    var d4 := if m.bumpMap != NoneValue then d3["bump_map" := m.bumpMap] else d3;
    d4
  }

  /** What each entry `to_dict` writes holds: the name entry, the three colours as lists,
      the exponent, and each map, `None` when its key was left out. */
  lemma EntriesRead(m: Material, nameEntry: Value)
    ensures var d := Entries(m, nameEntry);
      && d["name"] == nameEntry && d["diffuse"] == List(m.diffuse) && d["ambient"] == List(m.ambient)
      && d["specular"] == List(m.specular) && d["specular_exponent"] == m.exponent
      && ValueOr(d, "diffuse_map", NoneValue) == m.diffuseMap
      && ValueOr(d, "ambient_map", NoneValue) == m.ambientMap
      && ValueOr(d, "specular_map", NoneValue) == m.specularMap
      && ValueOr(d, "bump_map", NoneValue) == m.bumpMap
  {
    MapKeysDistinct();
  }

  /** Each map key differs from every other key `to_dict` writes. */
  lemma MapKeysDistinct()
    ensures "diffuse_map" !in {"name", "diffuse", "ambient", "specular", "specular_exponent", "ambient_map", "specular_map", "bump_map"}
    ensures "ambient_map" !in {"name", "diffuse", "ambient", "specular", "specular_exponent", "specular_map", "bump_map"}
    ensures "specular_map" !in {"name", "diffuse", "ambient", "specular", "specular_exponent", "bump_map"}
    ensures "bump_map" !in {"name", "diffuse", "ambient", "specular", "specular_exponent"}
  {
  }

  /** `m.to_dict()` as written: the 'name' entry reads the attribute `copy` of the name,
      which only lists have, and stores the bound method rather than a copy. */
  function ToDict(m: Material): (r: Result<Dict>)
    ensures r.Ok? <==> m.name.List?
    ensures r.Err? ==> r.error == AttributeError
    ensures r.Ok? ==> r.value == Entries(m, CopyOf(m.name.items))
  {
    if m.name.List? then Ok(Entries(m, CopyOf(m.name.items))) else Err(AttributeError)
  }

  /** `to_dict` with the name stored as it is. */
  function ToDictCorrected(m: Material): Dict
  {
    Entries(m, m.name)
  }

  /** A material built from the corrected dictionary of `m` is `m` again, whatever name
      the constructor is given: every field survives, and absent map keys restore `None`. */
  lemma ToDictCorrectedRoundTrip(m: Material, anyName: Value)
    requires Valid(m)
    ensures New(anyName, Some(ToDictCorrected(m))) == Ok(m)
  {
    var d := ToDictCorrected(m);
    EntriesRead(m, m.name);
    assert Accepted(d);
    var r := New(anyName, Some(d)).value;
    assert r.name == m.name && r.exponent == m.exponent;
    assert r.diffuse == Elements(List(m.diffuse)) == m.diffuse;
    assert r.ambient == Elements(List(m.ambient)) == m.ambient;
    assert r.specular == Elements(List(m.specular)) == m.specular;
    assert r.diffuseMap == m.diffuseMap && r.ambientMap == m.ambientMap;
    assert r.specularMap == m.specularMap && r.bumpMap == m.bumpMap;
  }

  /** The as-written `to_dict` fails for every material named by a string, such as each
      material the MTL loader creates. */
  lemma ToDictFailsForTextName(m: Material, s: string)
    requires m.name == One(Text(s))
    ensures ToDict(m) == Err(AttributeError)
  {
  }

  /** Even where the as-written `to_dict` succeeds, rebuilding from its result loses the
      name: it comes back as the bound method, not as the list. */
  lemma ToDictLosesListName(m: Material)
    requires Valid(m) && m.name.List?
    ensures var r := New(NoneValue, Some(ToDict(m).value));
      r.Ok? && r.value.name == CopyOf(m.name.items) && r.value.name != m.name
  {
    EntriesRead(m, CopyOf(m.name.items));
  }

  /** `Material(name)` with no dictionary: exactly the defaults. */
  lemma NewWithoutDict(name: Value)
    ensures New(name, None) == Ok(Defaults(name))
    ensures var m := New(name, None).value;
      && m.diffuse == Rgb(1.0, 1.0, 1.0) && m.ambient == Rgb(0.0, 0.0, 0.0)
      && m.specular == Rgb(0.0, 0.0, 0.0) && m.exponent == One(Num(1.0))
      && m.diffuseMap == NoneValue && m.ambientMap == NoneValue
      && m.specularMap == NoneValue && m.bumpMap == NoneValue
  {
  }
}

=== FILE: mesh.dfy ===
/** The mesh builder: faces are collected with material tags, then `finalize`
    sorts the triangles by material and expands them into three output vertices each.

    Every mutating method of the Python class is a function from the old mesh to the
    new one (and the method's return value). An exception is an `Err`; the partial
    updates Python makes before raising are not kept.
 */
module Meshes {
  import opened Wrappers
  import opened TriangleOrder

  datatype Vec3 = Vec3(x: real, y: real, z: real)
  datatype Vec2 = Vec2(u: real, v: real)

  /** The arrays `finalize` produces: positions, texture coordinates and normals per
      output vertex, and the sorted triangles. */
  datatype Output = Output(vtx: seq<Vec3>, tex: seq<Vec2>, nor: seq<Vec3>, tri: seq<Triangle>)

  /** `frozen` records that `finalize` has replaced `mat` and `init_tri` by tuples,
      which have no `append`. */
  datatype Mesh = Mesh(
    initVtx: seq<Vec3>,
    initTex: seq<Vec2>,
    initTri: seq<Triangle>,
    initMat: int,
    matFile: Option<string>,
    materials: seq<string>,
    mat: seq<int>,
    frozen: bool,
    output: Option<Output>)

  /** `Mesh()`. */
  function Empty(): Mesh {
    Mesh([], [], [], -1, None, [], [], false, None)
  }

  predicate NoDup<T(==)>(s: seq<T>) {
    forall i, j | 0 <= i < j < |s| :: s[i] != s[j]
  }

  /** What every operation keeps: one tag per triangle, each material name once,
      a current material that is -1 or a valid index, and output arrays of one
      entry per output vertex. */
  predicate Valid(m: Mesh) {
    && |m.mat| == |m.initTri|
    && NoDup(m.materials)
    && -1 <= m.initMat < |m.materials|
    && (m.output.Some? ==>
          var o := m.output.value;
          |o.vtx| == 3 * |o.tri| && |o.tex| == |o.vtx| && |o.nor| == |o.vtx|)
  }

  lemma EmptyValid()
    ensures Valid(Empty()) && Empty().output.None?
  {
  }

  const VerticesMsg := "Must load existing mesh or call finalize before accessing vertices"
  const TexMsg := "Must load existing mesh or call finalize before accessing texture coordinates"
  const NormalsMsg := "Must load existing mesh or call finalize before accessing normals"

  /** The `vertices` property. */
  function Vertices(m: Mesh): (r: Result<seq<Vec3>>)
    ensures r.Ok? <==> m.output.Some?
    ensures r.Ok? ==> r.value == m.output.value.vtx
    ensures r.Err? ==> r.error == ValueError(VerticesMsg)
  {
    if m.output.Some? then Ok(m.output.value.vtx) else Err(ValueError(VerticesMsg))
  }

  /** The `texture_coords` property. */
  function TextureCoords(m: Mesh): (r: Result<seq<Vec2>>)
    ensures r.Ok? <==> m.output.Some?
    ensures r.Ok? ==> r.value == m.output.value.tex
    ensures r.Err? ==> r.error == ValueError(TexMsg)
  {
    if m.output.Some? then Ok(m.output.value.tex) else Err(ValueError(TexMsg))
  }

  /** The `normals` property. */
  function Normals(m: Mesh): (r: Result<seq<Vec3>>)
    ensures r.Ok? <==> m.output.Some?
    ensures r.Ok? ==> r.value == m.output.value.nor
    ensures r.Err? ==> r.error == ValueError(NormalsMsg)
  {
    if m.output.Some? then Ok(m.output.value.nor) else Err(ValueError(NormalsMsg))
  }

  /** Python's `s.index(x)`: the first position holding `x`. */
  function IndexOf<T(==)>(s: seq<T>, x: T): (k: nat)
    requires x in s
    ensures k < |s| && s[k] == x
    ensures forall j | 0 <= j < k :: s[j] != x
  {
    if s[0] == x then 0 else 1 + IndexOf(s[1..], x)
  }

  /** `add_material(name)`: interns `name` and makes it the current material. */
  function AddMaterial(m: Mesh, name: string): (r: (Mesh, int))
    ensures 0 <= r.1 < |r.0.materials| && r.0.materials[r.1] == name
    ensures name !in m.materials ==> r.0.materials == m.materials + [name] && r.1 == |m.materials|
    ensures name in m.materials ==>
      r.0.materials == m.materials && forall j | 0 <= j < r.1 :: m.materials[j] != name
    ensures r.0 == m.(materials := r.0.materials, initMat := r.1)
  {
    if name !in m.materials then
      (m.(initMat := |m.materials|, materials := m.materials + [name]), |m.materials|)
    else
      var k := IndexOf(m.materials, name);
      (m.(initMat := k), k)
  }

  lemma AddMaterialValid(m: Mesh, name: string)
    requires Valid(m)
    ensures Valid(AddMaterial(m, name).0)
  {
    var ms := AddMaterial(m, name).0.materials;
    if name !in m.materials {
      forall i, j | 0 <= i < j < |ms| ensures ms[i] != ms[j] {
        if j == |m.materials| {
          assert ms[i] == m.materials[i];
        }
      }
    }
  }

  /** Interning the same name again returns the same index and leaves the list alone. */
  lemma AddMaterialTwice(m: Mesh, name: string)
    ensures var (m1, k1) := AddMaterial(m, name);
      var (m2, k2) := AddMaterial(m1, name);
      k2 == k1 && m2 == m1
  {
    var (m1, k1) := AddMaterial(m, name);
    if name !in m.materials {
      assert forall j | 0 <= j < k1 :: m1.materials[j] == m.materials[j];
    }
  }

  /** On a mesh whose names are distinct the index returned is the only position of the name. */
  lemma AddMaterialUnique(m: Mesh, name: string, j: int)
    requires Valid(m)
    requires 0 <= j < |AddMaterial(m, name).0.materials|
    requires AddMaterial(m, name).0.materials[j] == name
    ensures j == AddMaterial(m, name).1
  {
    AddMaterialValid(m, name);
  }

  /** `add_vertex(pos)`: appends `(pos[0], pos[1], pos[2])` and returns the new count. */
  function AddVertex(m: Mesh, pos: seq<real>): (r: Result<(Mesh, nat)>)
    ensures r.Ok? <==> |pos| >= 3
    ensures r.Err? ==> r.error == IndexError
    ensures r.Ok? ==> r.value.0 == m.(initVtx := m.initVtx + [Vec3(pos[0], pos[1], pos[2])])
    ensures r.Ok? ==> r.value.1 == |r.value.0.initVtx| == |m.initVtx| + 1
  {
    if |pos| < 3 then Err(IndexError)
    else Ok((m.(initVtx := m.initVtx + [Vec3(pos[0], pos[1], pos[2])]), |m.initVtx| + 1))
  }

  /** `add_texcoord(tx)`: appends `(tx[0], tx[1])` and returns the new count. */
  function AddTexcoord(m: Mesh, tx: seq<real>): (r: Result<(Mesh, nat)>)
    ensures r.Ok? <==> |tx| >= 2
    ensures r.Err? ==> r.error == IndexError
    ensures r.Ok? ==> r.value.0 == m.(initTex := m.initTex + [Vec2(tx[0], tx[1])])
    ensures r.Ok? ==> r.value.1 == |r.value.0.initTex| == |m.initTex| + 1
  {
    if |tx| < 2 then Err(IndexError)
    else Ok((m.(initTex := m.initTex + [Vec2(tx[0], tx[1])]), |m.initTex| + 1))
  }

  /** The number of triangles `range(1, n - 1)` produces for an n-gon. */
  function FanCount(n: nat): nat {
    if n >= 2 then n - 2 else 0
  }

  /** The texture slots of a face: `[None] * n` when `tc` is None or empty, else `tc`. */
  function Slots(tc: seq<int>, n: nat): (r: seq<Option<int>>)
    ensures |tc| == 0 ==> |r| == n && forall i | 0 <= i < n :: r[i] == None
    ensures |tc| > 0 ==> |r| == |tc| && forall i | 0 <= i < |tc| :: r[i] == Some(tc[i])
  {
    if |tc| == 0 then seq(n, _ => None) else seq(|tc|, i requires 0 <= i < |tc| => Some(tc[i]))
  }

  /** The fan of an n-gon: triangle j is (v0, v(j+1), v(j+2)), each corner with its slot. */
  function Fan(vtx: seq<int>, slots: seq<Option<int>>): (r: seq<Triangle>)
    requires |vtx| >= 1 && |slots| >= |vtx|
    ensures |r| == FanCount(|vtx|)
  {
    seq(FanCount(|vtx|), j requires 0 <= j < FanCount(|vtx|) =>
      Triangle(Corner(vtx[0], slots[0]), Corner(vtx[j + 1], slots[j + 1]), Corner(vtx[j + 2], slots[j + 2])))
  }

  /** The tag a face gets: `mat`, or the current material when `mat` is negative. */
  function FaceTag(m: Mesh, mat: int): int {
    if mat < 0 then m.initMat else mat
  }

  lemma AppendedTail<T>(s: seq<T>, t: seq<T>)
    ensures (s + t)[..|s|] == s
    ensures forall j | |s| <= j < |s + t| :: (s + t)[j] == t[j - |s|]
  {
    assert (s + t)[..|s|] == s;
  }

  /** `add_face(vtx, tc, mat)`: fan-triangulates the face, tags each triangle, and returns
      the new triangle count. An empty face raises `IndexError` (`vtx[0]`); a face that
      yields triangles raises `AttributeError` after `finalize` and `IndexError` when
      `tc` is non-empty but shorter than `vtx`. */
  function AddFace(m: Mesh, vtx: seq<int>, tc: seq<int>, mat: int): (r: Result<(Mesh, nat)>)
    ensures r.Ok? <==>
      |vtx| > 0 && (FanCount(|vtx|) > 0 ==> !m.frozen && (|tc| == 0 || |tc| >= |vtx|))
    ensures r.Err? && |vtx| > 0 && m.frozen ==> r.error == AttributeError
    ensures r.Err? && !(|vtx| > 0 && m.frozen) ==> r.error == IndexError
    ensures r.Ok? ==>
      var (m1, count) := r.value;
      var n := FanCount(|vtx|);
      && |m1.initTri| == |m.initTri| + n && count == |m1.initTri|
      && m1.initTri[..|m.initTri|] == m.initTri
      && (forall j | |m.initTri| <= j < |m1.initTri| ::
            var k := j - |m.initTri|;
            m1.initTri[j] ==
              Triangle(Corner(vtx[0], Slots(tc, |vtx|)[0]),
                       Corner(vtx[k + 1], Slots(tc, |vtx|)[k + 1]),
                       Corner(vtx[k + 2], Slots(tc, |vtx|)[k + 2])))
      && |m1.mat| == |m.mat| + n && m1.mat[..|m.mat|] == m.mat
      && (forall j | |m.mat| <= j < |m1.mat| :: m1.mat[j] == FaceTag(m, mat))
      && m1 == m.(initTri := m1.initTri, mat := m1.mat)
  {
    if |vtx| == 0 then Err(IndexError)
    else
      var n := FanCount(|vtx|);
      var slots := Slots(tc, |vtx|);
      if n == 0 then Ok((m, |m.initTri|))
      else if m.frozen then Err(AttributeError)
      else if |slots| < |vtx| then Err(IndexError)
      else
        var tris := Fan(vtx, slots);
        var tags := seq(n, _ => FaceTag(m, mat));
        AppendedTail(m.initTri, tris);
        AppendedTail(m.mat, tags);
        Ok((m.(initTri := m.initTri + tris, mat := m.mat + tags), |m.initTri| + n))
  }

  /** `add_face` keeps one tag per triangle and changes nothing else that `Valid` is about. */
  lemma AddFaceValid(m: Mesh, vtx: seq<int>, tc: seq<int>, mat: int)
    requires Valid(m)
    ensures AddFace(m, vtx, tc, mat).Ok? ==> Valid(AddFace(m, vtx, tc, mat).value.0)
  {
  }

  /** The polygon a fan was cut from: the first triangle's first two corners, then the
      third corner of every triangle. */
  function Outline(tris: seq<Triangle>): (r: seq<int>)
    requires |tris| > 0
    ensures |r| == |tris| + 2
  {
    [tris[0].a.vertex, tris[0].b.vertex] + seq(|tris|, j requires 0 <= j < |tris| => tris[j].c.vertex)
  }

  /** Fan triangulation loses no vertex: the outline of the fan is the face again. */
  lemma FanOutline(vtx: seq<int>, slots: seq<Option<int>>)
    requires |vtx| >= 3 && |slots| >= |vtx|
    ensures Outline(Fan(vtx, slots)) == vtx
  {
    var o := Outline(Fan(vtx, slots));
    forall i | 0 <= i < |vtx| ensures o[i] == vtx[i] {
      if i >= 2 {
        assert o[i] == Fan(vtx, slots)[i - 2].c.vertex;
      }
    }
  }

  /** Every boundary edge (v_i, v_(i+1)) of the face, and the closing edge (v_(n-1), v_0),
      is an edge of some fan triangle. */
  lemma FanBoundary(vtx: seq<int>, slots: seq<Option<int>>, i: int)
    requires |vtx| >= 3 && |slots| >= |vtx|
    requires 0 <= i < |vtx|
    ensures var f := Fan(vtx, slots);
      var u, w := vtx[i], vtx[(i + 1) % |vtx|];
      exists j | 0 <= j < |f| ::
        (f[j].a.vertex == u && f[j].b.vertex == w) ||
        (f[j].b.vertex == u && f[j].c.vertex == w) ||
        (f[j].c.vertex == u && f[j].a.vertex == w)
  {
    var f := Fan(vtx, slots);
    var n := |vtx|;
    var u, w := vtx[i], vtx[(i + 1) % n];
    if i == 0 {
      assert (i + 1) % n == 1;
      var t := f[0];
      assert t == Triangle(Corner(vtx[0], slots[0]), Corner(vtx[1], slots[1]), Corner(vtx[2], slots[2]));
      assert t.a.vertex == u && t.b.vertex == w;
    } else if i == n - 1 {
      assert (i + 1) % n == 0;
      var t := f[n - 3];
      assert t == Triangle(Corner(vtx[0], slots[0]), Corner(vtx[n - 2], slots[n - 2]), Corner(vtx[n - 1], slots[n - 1]));
      assert t.c.vertex == u && t.a.vertex == w;
    } else {
      assert (i + 1) % n == i + 1;
      var t := f[i - 1];
      assert t == Triangle(Corner(vtx[0], slots[0]), Corner(vtx[i], slots[i]), Corner(vtx[i + 1], slots[i + 1]));
      assert t.b.vertex == u && t.c.vertex == w;
    }
  }

  /** The i-th corner (0, 1 or 2) of a triangle. */
  function CornerAt(t: Triangle, k: int): Corner
    requires 0 <= k < 3
  {
    if k == 0 then t.a else if k == 1 then t.b else t.c
  }

  /** Whether the texture lookup of a corner succeeds: as written, a missing slot is
      `init_tex[None]` and raises; corrected, it stands for (0, 0). */
  predicate TexResolves(tex: seq<Vec2>, slot: Option<int>, asWritten: bool) {
    match slot
    case None => !asWritten
    case Some(k) => InRange(tex, k)
  }

  function TexValue(tex: seq<Vec2>, slot: Option<int>): Vec2
    requires slot.Some? ==> InRange(tex, slot.value)
  {
    match slot
    case None => Vec2(0.0, 0.0)
    case Some(k) => tex[Slot(tex, k)]
  }

  /** The texture coordinate `finalize` emits for one corner. */
  function CornerTex(tex: seq<Vec2>, slot: Option<int>, asWritten: bool): (r: Result<Vec2>)
    ensures r.Ok? <==> TexResolves(tex, slot, asWritten)
    ensures r.Ok? ==> r.value == TexValue(tex, slot)
    ensures r.Err? ==> r.error == (if slot.None? then TypeError else IndexError)
  {
    match slot
    case None => if asWritten then Err(TypeError) else Ok(Vec2(0.0, 0.0))
    case Some(k) => PyIndex(tex, k)
  }

  /** All six lookups of one triangle succeed. */
  predicate Resolves(vtx: seq<Vec3>, tex: seq<Vec2>, t: Triangle, asWritten: bool) {
    forall k | 0 <= k < 3 ::
      InRange(vtx, CornerAt(t, k).vertex) && TexResolves(tex, CornerAt(t, k).texcoord, asWritten)
  }

  function VtxAt(vtx: seq<Vec3>, t: Triangle, k: int): Vec3
    requires 0 <= k < 3 && InRange(vtx, CornerAt(t, k).vertex)
  {
    vtx[Slot(vtx, CornerAt(t, k).vertex)]
  }

  function TexAt(tex: seq<Vec2>, t: Triangle, k: int, asWritten: bool): Vec2
    requires 0 <= k < 3 && TexResolves(tex, CornerAt(t, k).texcoord, asWritten)
  {
    TexValue(tex, CornerAt(t, k).texcoord)
  }

  /** The six lookups of one triangle, in the order the `finalize` loop makes them:
      the three positions, then the three texture coordinates. */
  function ExpandOne(vtx: seq<Vec3>, tex: seq<Vec2>, t: Triangle, asWritten: bool)
    : (r: Result<(seq<Vec3>, seq<Vec2>)>)
    ensures r.Ok? <==> Resolves(vtx, tex, t, asWritten)
    ensures r.Ok? ==> r.value.0 == [VtxAt(vtx, t, 0), VtxAt(vtx, t, 1), VtxAt(vtx, t, 2)]
    ensures r.Ok? ==> r.value.1 == [TexAt(tex, t, 0, asWritten), TexAt(tex, t, 1, asWritten), TexAt(tex, t, 2, asWritten)]
    ensures r.Err? ==> r.error == IndexError || (asWritten && r.error == TypeError)
    ensures (exists k | 0 <= k < 3 :: !InRange(vtx, CornerAt(t, k).vertex)) ==> r == Err(IndexError)
    ensures r == Err(TypeError) <==>
      && asWritten && (forall k | 0 <= k < 3 :: InRange(vtx, CornerAt(t, k).vertex))
      && (exists k | 0 <= k < 3 :: CornerAt(t, k).texcoord.None?
            && forall j | 0 <= j < k :: TexResolves(tex, CornerAt(t, j).texcoord, asWritten))
  {
    assert CornerAt(t, 0) == t.a && CornerAt(t, 1) == t.b && CornerAt(t, 2) == t.c;
    var a :- PyIndex(vtx, t.a.vertex);
    var b :- PyIndex(vtx, t.b.vertex);
    var c :- PyIndex(vtx, t.c.vertex);
    var ta :- CornerTex(tex, t.a.texcoord, asWritten);
    var tb :- CornerTex(tex, t.b.texcoord, asWritten);
    var tc :- CornerTex(tex, t.c.texcoord, asWritten);
    Ok(([a, b, c], [ta, tb, tc]))
  }

  lemma AllResolveSplit(vtx: seq<Vec3>, tex: seq<Vec2>, tris: seq<Triangle>, asWritten: bool)
    requires |tris| > 0
    ensures (forall t | 0 <= t < |tris| :: Resolves(vtx, tex, tris[t], asWritten))
        <==> Resolves(vtx, tex, tris[0], asWritten)
             && forall t | 0 <= t < |tris[1..]| :: Resolves(vtx, tex, tris[1..][t], asWritten)
  {
    if forall t | 0 <= t < |tris[1..]| :: Resolves(vtx, tex, tris[1..][t], asWritten) {
      forall t | 1 <= t < |tris| ensures Resolves(vtx, tex, tris[t], asWritten) {
        assert tris[t] == tris[1..][t - 1];
      }
    }
  }

  /** The position and texture-coordinate lists of the `finalize` loop: three entries
      per triangle, in triangle order; the first failing lookup is the exception. */
  function Expand(vtx: seq<Vec3>, tex: seq<Vec2>, tris: seq<Triangle>, asWritten: bool)
    : (r: Result<(seq<Vec3>, seq<Vec2>)>)
    ensures r.Ok? <==> forall t | 0 <= t < |tris| :: Resolves(vtx, tex, tris[t], asWritten)
    ensures r.Ok? ==> |r.value.0| == 3 * |tris| && |r.value.1| == 3 * |tris|
    ensures r.Ok? ==> forall i | 0 <= i < |r.value.0| ::
      Resolves(vtx, tex, tris[i / 3], asWritten) && r.value.0[i] == VtxAt(vtx, tris[i / 3], i % 3)
    ensures r.Ok? ==> forall i | 0 <= i < |r.value.1| ::
      Resolves(vtx, tex, tris[i / 3], asWritten) && r.value.1[i] == TexAt(tex, tris[i / 3], i % 3, asWritten)
    ensures r.Err? ==> r.error == IndexError || (asWritten && r.error == TypeError)
    decreases |tris|
  {
    if |tris| == 0 then Ok(([], []))
    else
      AllResolveSplit(vtx, tex, tris, asWritten);
      var head :- ExpandOne(vtx, tex, tris[0], asWritten);
      var rest :- Expand(vtx, tex, tris[1..], asWritten);
      ExpandStep(vtx, tex, tris, asWritten, head.0, head.1, rest.0, rest.1);
      Ok((head.0 + rest.0, head.1 + rest.1))
  }

  /** The index arithmetic of one step of `Expand`: entry i of the rest is entry i + 3 of
      the whole, and (i + 3) / 3 - 1 == i / 3. */
  lemma ExpandStep(vtx: seq<Vec3>, tex: seq<Vec2>, tris: seq<Triangle>, asWritten: bool,
                   head: seq<Vec3>, headTex: seq<Vec2>, rest: seq<Vec3>, restTex: seq<Vec2>)
    requires |tris| > 0 && Resolves(vtx, tex, tris[0], asWritten)
    requires head == [VtxAt(vtx, tris[0], 0), VtxAt(vtx, tris[0], 1), VtxAt(vtx, tris[0], 2)]
    requires headTex == [TexAt(tex, tris[0], 0, asWritten), TexAt(tex, tris[0], 1, asWritten),
                         TexAt(tex, tris[0], 2, asWritten)]
    requires |rest| == 3 * (|tris| - 1) && |restTex| == |rest|
    requires forall i | 0 <= i < |rest| ::
      Resolves(vtx, tex, tris[1..][i / 3], asWritten) && rest[i] == VtxAt(vtx, tris[1..][i / 3], i % 3)
    requires forall i | 0 <= i < |restTex| ::
      Resolves(vtx, tex, tris[1..][i / 3], asWritten) && restTex[i] == TexAt(tex, tris[1..][i / 3], i % 3, asWritten)
    ensures forall i | 0 <= i < |head + rest| ::
      Resolves(vtx, tex, tris[i / 3], asWritten) && (head + rest)[i] == VtxAt(vtx, tris[i / 3], i % 3)
    ensures forall i | 0 <= i < |headTex + restTex| ::
      Resolves(vtx, tex, tris[i / 3], asWritten) && (headTex + restTex)[i] == TexAt(tex, tris[i / 3], i % 3, asWritten)
  {
    forall i | 3 <= i < |head + rest|
      ensures (head + rest)[i] == rest[i - 3] && (headTex + restTex)[i] == restTex[i - 3]
      ensures tris[1..][(i - 3) / 3] == tris[i / 3] && (i - 3) % 3 == i % 3
    {
    }
  }

  /** The normal of output vertex i, given the positions and the sorted triangles
      (the floating-point computation of `finalize` is not modelled). */
  type NormalRule = (seq<Vec3>, seq<Triangle>, nat) -> Vec3

  const UnpackMsg := "not enough values to unpack (expected 2, got 0)"

  /** `finalize()`, parameterised by how a corner without texture coordinates is read. */
  function FinalizeWith(m: Mesh, normal: NormalRule, asWritten: bool): (r: Result<Mesh>)
    ensures r.Ok? <==>
      |Zip(m.mat, m.initTri)| > 0 &&
      forall t | 0 <= t < |Zip(m.mat, m.initTri)| ::
        Resolves(m.initVtx, m.initTex, Zip(m.mat, m.initTri)[t].tri, asWritten)
    ensures |Zip(m.mat, m.initTri)| == 0 ==> r == Err(ValueError(UnpackMsg))
    ensures r.Err? && |Zip(m.mat, m.initTri)| > 0 ==>
      r.error == IndexError || (asWritten && r.error == TypeError)
    ensures r.Ok? ==>
      var m1 := r.value;
      && Sorted(Zip(m1.mat, m1.initTri))
      && multiset(Zip(m1.mat, m1.initTri)) == multiset(Zip(m.mat, m.initTri))
      && |m1.mat| == |m1.initTri| == |Zip(m.mat, m.initTri)|
      && m1.frozen
      && m1 == m.(mat := m1.mat, initTri := m1.initTri, frozen := true, output := m1.output)
      && m1.output.Some?
      && var o := m1.output.value;
      && o.tri == m1.initTri
      && |o.vtx| == 3 * |o.tri| && |o.tex| == |o.vtx| && |o.nor| == |o.vtx|
      && (forall i | 0 <= i < |o.vtx| ::
            Resolves(m.initVtx, m.initTex, o.tri[i / 3], asWritten)
            && o.vtx[i] == VtxAt(m.initVtx, o.tri[i / 3], i % 3)
            && o.tex[i] == TexAt(m.initTex, o.tri[i / 3], i % 3, asWritten)
            && o.nor[i] == normal(m.initVtx, o.tri, i))
  {
    var pairs := Zip(m.mat, m.initTri);
    if |pairs| == 0 then Err(ValueError(UnpackMsg))
    else
      var sorted := Sort(pairs);
      ZipUnzip(sorted);
      SortedResolves(m.initVtx, m.initTex, pairs, sorted, asWritten);
      Build(m, sorted, normal, asWritten)
  }

  /** The part of `finalize` after the sort: store the sorted tags and triangles and
      expand the triangles into the output arrays. */
  function Build(m: Mesh, sorted: seq<Tagged>, normal: NormalRule, asWritten: bool): Result<Mesh> {
    var tris := Tris(sorted);
    var e :- Expand(m.initVtx, m.initTex, tris, asWritten);
    var nor := seq(|e.0|, i requires 0 <= i < |e.0| => normal(m.initVtx, tris, i));
    Ok(m.(mat := Tags(sorted), initTri := tris, frozen := true,
          output := Some(Output(e.0, e.1, nor, tris))))
  }

  /** `Build` reads only the fields `finalize` does not overwrite. */
  lemma BuildIgnoresOverwritten(m: Mesh, m1: Mesh, sorted: seq<Tagged>, normal: NormalRule, asWritten: bool)
    requires m1 == m.(mat := m1.mat, initTri := m1.initTri, frozen := m1.frozen, output := m1.output)
    ensures Build(m1, sorted, normal, asWritten) == Build(m, sorted, normal, asWritten)
  {
  }

  /** Sorting neither adds nor removes triangles, so the same ones resolve. */
  lemma SortedResolves(vtx: seq<Vec3>, tex: seq<Vec2>, pairs: seq<Tagged>, sorted: seq<Tagged>, asWritten: bool)
    requires multiset(sorted) == multiset(pairs)
    ensures (forall t | 0 <= t < |pairs| :: Resolves(vtx, tex, pairs[t].tri, asWritten))
        <==> (forall t | 0 <= t < |Tris(sorted)| :: Resolves(vtx, tex, Tris(sorted)[t], asWritten))
  {
    var ts := Tris(sorted);
    if forall t | 0 <= t < |pairs| :: Resolves(vtx, tex, pairs[t].tri, asWritten) {
      forall t | 0 <= t < |ts| ensures Resolves(vtx, tex, ts[t], asWritten) {
        assert sorted[t] in multiset(pairs);
        var k :| 0 <= k < |pairs| && pairs[k] == sorted[t];
      }
    }
    if forall t | 0 <= t < |ts| :: Resolves(vtx, tex, ts[t], asWritten) {
      forall t | 0 <= t < |pairs| ensures Resolves(vtx, tex, pairs[t].tri, asWritten) {
        assert pairs[t] in multiset(sorted);
        var k :| 0 <= k < |sorted| && sorted[k] == pairs[t];
        assert ts[k] == pairs[t].tri;
      }
    }
  }

  /** `finalize()` as written: a corner without texture coordinates reaches
      `init_tex[None]`, which raises `TypeError`. */
  function FinalizeAsWritten(m: Mesh, normal: NormalRule): Result<Mesh> {
    FinalizeWith(m, normal, true)
  }

  /** `finalize()` with the evident intent: a corner without texture coordinates gets (0, 0). */
  function Finalize(m: Mesh, normal: NormalRule): Result<Mesh> {
    FinalizeWith(m, normal, false)
  }

  /** A triangle whose six lookups succeed as written also succeeds corrected. */
  lemma ResolvesCorrected(vtx: seq<Vec3>, tex: seq<Vec2>, t: Triangle)
    requires Resolves(vtx, tex, t, true)
    ensures Resolves(vtx, tex, t, false)
  {
    forall k | 0 <= k < 3 ensures TexResolves(tex, CornerAt(t, k).texcoord, false) {
      assert TexResolves(tex, CornerAt(t, k).texcoord, true);
    }
  }

  /** On a triangle whose corners all carry a texture slot in range, both readings of the
      lookups give the same entries. */
  lemma ExpandOneReadingsAgree(vtx: seq<Vec3>, tex: seq<Vec2>, t: Triangle)
    requires Resolves(vtx, tex, t, true)
    ensures ExpandOne(vtx, tex, t, true) == ExpandOne(vtx, tex, t, false)
  {
    assert CornerAt(t, 0) == t.a && CornerAt(t, 1) == t.b && CornerAt(t, 2) == t.c;
    assert t.a.texcoord.Some? && t.b.texcoord.Some? && t.c.texcoord.Some?;
  }

  /** Where every triangle resolves as written, both readings expand alike. */
  lemma {:induction false} ExpandReadingsAgree(vtx: seq<Vec3>, tex: seq<Vec2>, tris: seq<Triangle>)
    requires forall t | 0 <= t < |tris| :: Resolves(vtx, tex, tris[t], true)
    ensures Expand(vtx, tex, tris, true) == Expand(vtx, tex, tris, false)
    decreases |tris|
  {
    if |tris| > 0 {
      ExpandOneReadingsAgree(vtx, tex, tris[0]);
      forall t | 0 <= t < |tris[1..]| ensures Resolves(vtx, tex, tris[1..][t], true) {
        assert tris[1..][t] == tris[t + 1];
      }
      ExpandReadingsAgree(vtx, tex, tris[1..]);
    }
  }

  /** When every corner of every triangle has a texture coordinate in range, the
      as-written `finalize` and the corrected one return the same result. */
  lemma FinalizeReadingsAgree(m: Mesh, normal: NormalRule)
    requires forall t | 0 <= t < |m.initTri| :: Resolves(m.initVtx, m.initTex, m.initTri[t], true)
    ensures FinalizeAsWritten(m, normal) == Finalize(m, normal)
  {
    var pairs := Zip(m.mat, m.initTri);
    if |pairs| > 0 {
      var sorted := Sort(pairs);
      forall t | 0 <= t < |pairs| ensures Resolves(m.initVtx, m.initTex, pairs[t].tri, true) {
        assert pairs[t].tri == m.initTri[t];
      }
      SortedResolves(m.initVtx, m.initTex, pairs, sorted, true);
      ExpandReadingsAgree(m.initVtx, m.initTex, Tris(sorted));
      assert Build(m, sorted, normal, true) == Build(m, sorted, normal, false);
    }
  }

  /** As written, `finalize` succeeds only when every corner of every triangle has a
      texture coordinate. */
  lemma FinalizeAsWrittenNeedsTexcoords(m: Mesh, normal: NormalRule, t: int)
    requires FinalizeAsWritten(m, normal).Ok?
    requires 0 <= t < |m.initTri| && t < |m.mat|
    ensures m.initTri[t].a.texcoord.Some? && m.initTri[t].b.texcoord.Some? && m.initTri[t].c.texcoord.Some?
  {
    var z := Zip(m.mat, m.initTri);
    assert z[t].tri == m.initTri[t];
    assert Resolves(m.initVtx, m.initTex, z[t].tri, true);
    assert TexResolves(m.initTex, CornerAt(z[t].tri, 0).texcoord, true);
    assert TexResolves(m.initTex, CornerAt(z[t].tri, 1).texcoord, true);
    assert TexResolves(m.initTex, CornerAt(z[t].tri, 2).texcoord, true);
  }

  /** Faces given without texture coordinates: as written `finalize` fails on them,
      corrected it emits (0, 0) for every corner. */
  lemma FinalizeWithoutTexcoords(m: Mesh, normal: NormalRule)
    requires |m.mat| == |m.initTri| > 0
    requires forall t | 0 <= t < |m.initTri| :: forall k | 0 <= k < 3 ::
      InRange(m.initVtx, CornerAt(m.initTri[t], k).vertex) && CornerAt(m.initTri[t], k).texcoord.None?
    ensures FinalizeAsWritten(m, normal).Err?
    ensures Finalize(m, normal).Ok?
    ensures var o := Finalize(m, normal).value.output.value;
      |o.tex| == 3 * |m.initTri| && forall i | 0 <= i < |o.tex| :: o.tex[i] == Vec2(0.0, 0.0)
  {
    var z := Zip(m.mat, m.initTri);
    assert z[0].tri == m.initTri[0];
    assert !TexResolves(m.initTex, CornerAt(z[0].tri, 0).texcoord, true);
    forall t | 0 <= t < |z| ensures Resolves(m.initVtx, m.initTex, z[t].tri, false) {
      assert z[t].tri == m.initTri[t];
    }
    var m1 := Finalize(m, normal).value;
    var o := m1.output.value;
    forall i | 0 <= i < |o.tex| ensures o.tex[i] == Vec2(0.0, 0.0) {
      var t := i / 3;
      assert Zip(m1.mat, m1.initTri)[t] in multiset(z);
      var u :| 0 <= u < |z| && z[u] == Zip(m1.mat, m1.initTri)[t];
      assert z[u].tri == m.initTri[u];
      assert CornerAt(o.tri[t], i % 3).texcoord.None?;
    }
  }

  /** One triangle `add_face([0, 1, 2])` without texture coordinates. */
  lemma UntexturedTriangle(normal: NormalRule)
    ensures var m0 := Empty().(initVtx := [Vec3(0.0, 0.0, 0.0), Vec3(1.0, 0.0, 0.0), Vec3(0.0, 1.0, 0.0)]);
      && AddFace(m0, [0, 1, 2], [], -1).Ok?
      && var m1 := AddFace(m0, [0, 1, 2], [], -1).value.0;
      && FinalizeAsWritten(m1, normal) == Err(TypeError)
      && Finalize(m1, normal).Ok?
      && Finalize(m1, normal).value.output.value.tex == [Vec2(0.0, 0.0), Vec2(0.0, 0.0), Vec2(0.0, 0.0)]
  {
    var m0 := Empty().(initVtx := [Vec3(0.0, 0.0, 0.0), Vec3(1.0, 0.0, 0.0), Vec3(0.0, 1.0, 0.0)]);
    var tri := Triangle(Corner(0, None), Corner(1, None), Corner(2, None));
    var m1 := m0.(initTri := [tri], mat := [-1]);
    UntexturedFaceAdded(m0, tri);
    OneUntexturedAsWritten(m1, tri, normal);
    OneUntexturedCorrected(m1, normal);
  }

  lemma OneUntexturedCorrected(m1: Mesh, normal: NormalRule)
    requires |m1.initVtx| == 3 && m1.mat == [-1]
    requires m1.initTri == [Triangle(Corner(0, None), Corner(1, None), Corner(2, None))]
    ensures Finalize(m1, normal).Ok?
    ensures Finalize(m1, normal).value.output.value.tex == [Vec2(0.0, 0.0), Vec2(0.0, 0.0), Vec2(0.0, 0.0)]
  {
    assert forall k | 0 <= k < 3 :: CornerAt(m1.initTri[0], k) == Corner(k, None);
    FinalizeWithoutTexcoords(m1, normal);
    var tex := Finalize(m1, normal).value.output.value.tex;
    assert |tex| == 3 && tex[0] == tex[1] == tex[2] == Vec2(0.0, 0.0);
  }

  lemma UntexturedFaceAdded(m0: Mesh, tri: Triangle)
    requires m0 == Empty().(initVtx := m0.initVtx)
    requires tri == Triangle(Corner(0, None), Corner(1, None), Corner(2, None))
    ensures AddFace(m0, [0, 1, 2], [], -1) == Ok((m0.(initTri := [tri], mat := [-1]), 1))
  {
    var m1 := AddFace(m0, [0, 1, 2], [], -1).value.0;
    assert Slots([], 3) == [None, None, None];
    assert m1.initTri == [tri] && m1.mat == [-1];
  }

  /** As written, `finalize` of a single triangle whose first corner has no texture
      index raises `TypeError`. */
  lemma OneUntexturedAsWritten(m: Mesh, tri: Triangle, normal: NormalRule)
    requires m.mat == [-1] && m.initTri == [tri]
    requires tri.a.texcoord.None? && InRange(m.initVtx, tri.a.vertex)
    requires InRange(m.initVtx, tri.b.vertex) && InRange(m.initVtx, tri.c.vertex)
    ensures FinalizeAsWritten(m, normal) == Err(TypeError)
  {
    var p := Tagged(-1, tri);
    assert Zip(m.mat, m.initTri) == [p];
    assert Sorted([p]);
    SortOfSorted([p]);
    assert Tris([p]) == [tri];
    assert ExpandOne(m.initVtx, m.initTex, tri, true) == Err(TypeError);
    assert Expand(m.initVtx, m.initTex, [tri], true) == Err(TypeError);
  }

  /** After `finalize` the material tags never decrease. */
  lemma FinalizeTagsNonDecreasing(m: Mesh, normal: NormalRule, asWritten: bool, i: int, j: int)
    requires FinalizeWith(m, normal, asWritten).Ok?
    requires 0 <= i <= j < |FinalizeWith(m, normal, asWritten).value.mat|
    ensures FinalizeWith(m, normal, asWritten).value.mat[i] <= FinalizeWith(m, normal, asWritten).value.mat[j]
  {
    var m1 := FinalizeWith(m, normal, asWritten).value;
    var z := Zip(m1.mat, m1.initTri);
    SortedTags(z, i, j);
  }

  /** `finalize` keeps the mesh valid. */
  lemma FinalizeValid(m: Mesh, normal: NormalRule, asWritten: bool)
    requires Valid(m)
    ensures FinalizeWith(m, normal, asWritten).Ok? ==> Valid(FinalizeWith(m, normal, asWritten).value)
  {
  }

  /** A second `finalize` changes nothing: the pairs are already sorted. */
  lemma FinalizeIdempotent(m: Mesh, normal: NormalRule, asWritten: bool)
    requires FinalizeWith(m, normal, asWritten).Ok?
    ensures FinalizeWith(FinalizeWith(m, normal, asWritten).value, normal, asWritten)
         == FinalizeWith(m, normal, asWritten)
  {
    var sorted := Sort(Zip(m.mat, m.initTri));
    var m1 := FinalizeWith(m, normal, asWritten).value;
    assert Build(m, sorted, normal, asWritten) == Ok(m1);
    assert m1.mat == Tags(sorted) && m1.initTri == Tris(sorted);
    ZipUnzip(sorted);
    SortOfSorted(sorted);
    assert Sort(Zip(m1.mat, m1.initTri)) == sorted;
    BuildIgnoresOverwritten(m, m1, sorted, normal, asWritten);
  }

  /** Before `finalize` every accessor raises `ValueError`; after a successful one, all three succeed. */
  lemma AccessorsAfterFinalize(m: Mesh, normal: NormalRule)
    requires m.output.None?
    ensures Vertices(m).Err? && TextureCoords(m).Err? && Normals(m).Err?
    ensures Finalize(m, normal).Ok? ==>
      var m1 := Finalize(m, normal).value;
      Vertices(m1).Ok? && TextureCoords(m1).Ok? && Normals(m1).Ok?
      && |Vertices(m1).value| == 3 * |m1.initTri|
  {
  }
}

=== FILE: obj_roundtrip.dfy ===
/** What the corrected `load_obj` makes of a file written by `save_obj`: the output
    vertices, texture coordinates, material names and material library come back.

    The saved file lists every output vertex once (`v`, `vn`, `vt`) and every triangle
    as the three consecutive output vertices it was expanded into, so reading it back
    gives triangle `t` the corners `3t`, `3t + 1`, `3t + 2`.
 */
module ObjRoundTrip {
  import opened Wrappers
  import opened PyText
  import opened Materials
  import opened TriangleOrder
  import opened Meshes
  import opened Wavefront

  // ---------------------------------------------------------------------------
  // Vertex section

  predicate Vec3Reads(c: Numerals, p: Vec3) {
    Reads(c, p.x) && Reads(c, p.y) && Reads(c, p.z)
  }

  predicate Vec2Reads(c: Numerals, t: Vec2) {
    Reads(c, t.u) && Reads(c, t.v)
  }

  /** One loop iteration of `load_obj` that succeeds. */
  lemma ObjLinesCons(fs: FileSystem, c: Numerals, dir: string, st: ObjState, st1: ObjState,
                     lines: seq<string>, asWritten: bool)
    requires |lines| > 0 && ObjStep(fs, c, dir, st, lines[0], asWritten) == Ok(st1)
    ensures ObjLines(fs, c, dir, st, lines, asWritten) == ObjLines(fs, c, dir, st1, lines[1..], asWritten)
  {
  }

  /** The loader state with positions and texture coordinates appended. */
  function Extended(st: ObjState, vtx: seq<Vec3>, tex: seq<Vec2>): ObjState {
    st.(mesh := st.mesh.(initVtx := st.mesh.initVtx + vtx, initTex := st.mesh.initTex + tex))
  }

  lemma ExtendedTwice(st: ObjState, v: seq<Vec3>, t: seq<Vec2>, vs: seq<Vec3>, ts: seq<Vec2>)
    ensures Extended(Extended(st, v, t), vs, ts) == Extended(st, v + vs, t + ts)
  {
    ConcatAssoc(st.mesh.initVtx, v, vs);
    ConcatAssoc(st.mesh.initTex, t, ts);
  }

  /** The three lines of one output vertex. */
  lemma VertexStep(fs: FileSystem, c: Numerals, dir: string, st: ObjState,
                   p: Vec3, n: Vec3, t: Vec2, rest: seq<string>)
    requires Vec3Reads(c, p) && Vec3Reads(c, n) && Vec2Reads(c, t)
    ensures ObjLines(fs, c, dir, st, [VLine(c, p), VnLine(c, n), VtLine(c, t)] + rest, false)
         == ObjLines(fs, c, dir, Extended(st, [p], [t]), rest, false)
  {
    var lines := [VLine(c, p), VnLine(c, n), VtLine(c, t)] + rest;
    assert lines[1..] == [VnLine(c, n), VtLine(c, t)] + rest;
    assert lines[1..][1..] == [VtLine(c, t)] + rest;
    assert lines[1..][1..][1..] == rest;
    var st1 := st.(mesh := st.mesh.(initVtx := st.mesh.initVtx + [p]));
    VLineReads(fs, c, dir, st, p);
    ObjLinesCons(fs, c, dir, st, st1, lines, false);
    VnLineIgnored(fs, c, dir, st1, n, false);
    ObjLinesCons(fs, c, dir, st1, st1, lines[1..], false);
    VtLineReads(fs, c, dir, st1, t, false);
    assert st1.(mesh := st1.mesh.(initTex := st1.mesh.initTex + [t])) == Extended(st, [p], [t]);
    ObjLinesCons(fs, c, dir, st1, Extended(st, [p], [t]), lines[1..][1..], false);
  }

  /** The vertex section of `vtx` is one vertex followed by the section of the rest. */
  lemma VertexSectionCons(fs: FileSystem, c: Numerals, dir: string, st: ObjState,
                          vtx: seq<Vec3>, nor: seq<Vec3>, tex: seq<Vec2>)
    requires 0 < |vtx| <= |nor| && |vtx| <= |tex|
    requires Vec3Reads(c, vtx[0]) && Vec3Reads(c, nor[0]) && Vec2Reads(c, tex[0])
    requires var st1 := Extended(st, [vtx[0]], [tex[0]]);
      ObjLines(fs, c, dir, st1, VertexLines(c, vtx[1..], nor[1..], tex[1..]), false)
      == Ok(Extended(st1, vtx[1..], tex[1..][..|vtx| - 1]))
    ensures ObjLines(fs, c, dir, st, VertexLines(c, vtx, nor, tex), false) == Ok(Extended(st, vtx, tex[..|vtx|]))
  {
    var rest := VertexLines(c, vtx[1..], nor[1..], tex[1..]);
    assert VertexLines(c, vtx, nor, tex) == [VLine(c, vtx[0]), VnLine(c, nor[0]), VtLine(c, tex[0])] + rest;
    VertexStep(fs, c, dir, st, vtx[0], nor[0], tex[0], rest);
    ExtendedTwice(st, [vtx[0]], [tex[0]], vtx[1..], tex[1..][..|vtx| - 1]);
    assert [vtx[0]] + vtx[1..] == vtx;
    assert [tex[0]] + tex[1..][..|vtx| - 1] == tex[..|vtx|];
  }

  /** The corrected loader reads the vertex section of a saved file as the output
      positions and texture coordinates, in order; the normals are skipped. */
  lemma {:induction false} VertexSectionReads(fs: FileSystem, c: Numerals, dir: string, st: ObjState,
                                              vtx: seq<Vec3>, nor: seq<Vec3>, tex: seq<Vec2>)
    requires |nor| >= |vtx| && |tex| >= |vtx|
    requires forall i | 0 <= i < |vtx| :: Vec3Reads(c, vtx[i]) && Vec3Reads(c, nor[i]) && Vec2Reads(c, tex[i])
    ensures ObjLines(fs, c, dir, st, VertexLines(c, vtx, nor, tex), false) == Ok(Extended(st, vtx, tex[..|vtx|]))
    decreases |vtx|
  {
    if |vtx| == 0 {
      assert Extended(st, vtx, tex[..0]) == Extended(st, [], []);
      assert st.mesh.initVtx + [] == st.mesh.initVtx && st.mesh.initTex + [] == st.mesh.initTex;
    } else {
      assert forall i | 0 <= i < |vtx[1..]| :: vtx[1..][i] == vtx[i + 1] && nor[1..][i] == nor[i + 1] && tex[1..][i] == tex[i + 1];
      VertexSectionReads(fs, c, dir, Extended(st, [vtx[0]], [tex[0]]), vtx[1..], nor[1..], tex[1..]);
      VertexSectionCons(fs, c, dir, st, vtx, nor, tex);
    }
  }

  // ---------------------------------------------------------------------------
  // Face section

  /** Triangle `t` as the loader reads it back: output vertices `3t`, `3t + 1`, `3t + 2`,
      each with the texture coordinate of the same index. */
  function SavedTri(t: nat): Triangle {
    Triangle(Corner(3 * t, Some(3 * t)), Corner(3 * t + 1, Some(3 * t + 1)), Corner(3 * t + 2, Some(3 * t + 2)))
  }

  function SavedTris(j: nat, faces: nat): (r: seq<Triangle>)
    requires j <= faces
    ensures |r| == faces - j && forall k | 0 <= k < faces - j :: r[k] == SavedTri(j + k)
  {
    seq(faces - j, k requires 0 <= k < faces - j => SavedTri(j + k))
  }

  lemma RenderItemsAppend(a: seq<FaceItem>, b: seq<FaceItem>)
    ensures RenderItems(a + b) == RenderItems(a) + RenderItems(b)
  {
    assert forall k | 0 <= k < |a + b| :: (a + b)[k] == if k < |a| then a[k] else b[k - |a|];
  }

  /** `add_face` on the three corners of a saved face appends one triangle and one tag. */
  lemma AddSavedFace(m: Mesh, j: nat, tag: int)
    requires !m.frozen
    ensures var i := 3 * j;
      AddFace(m, [i, i + 1, i + 2], [i, i + 1, i + 2], tag)
      == Ok((m.(initTri := m.initTri + [SavedTri(j)], mat := m.mat + [FaceTag(m, tag)]), |m.initTri| + 1))
  {
    var i := 3 * j;
    var r := AddFace(m, [i, i + 1, i + 2], [i, i + 1, i + 2], tag);
    assert FanCount(3) == 1;
    assert r.Ok?;
    var m1 := r.value.0;
    var n := |m.initTri|;
    var slots := Slots([i, i + 1, i + 2], 3);
    assert slots[0] == Some(i) && slots[1] == Some(i + 1) && slots[2] == Some(i + 2);
    assert m1.initTri[n] == SavedTri(j);
    assert m1.initTri == m.initTri + [SavedTri(j)] by {
      assert m1.initTri[..n] == m.initTri;
    }
    assert m1.mat == m.mat + [FaceTag(m, tag)] by {
      assert m1.mat[..|m.mat|] == m.mat;
    }
  }

  /** The loader state after face `j`, and after `usemtl name`. */
  function FaceState(st: ObjState, j: nat): ObjState {
    st.(mesh := st.mesh.(initTri := st.mesh.initTri + [SavedTri(j)], mat := st.mesh.mat + [FaceTag(st.mesh, st.curMat)]))
  }

  function UseMtlState(st: ObjState, name: string): ObjState {
    st.(mesh := AddMaterial(st.mesh, name).0, curMat := AddMaterial(st.mesh, name).1)
  }

  /** A saved face line appends its triangle, tagged with the current material. */
  lemma FaceStep(fs: FileSystem, c: Numerals, dir: string, st: ObjState, j: nat)
    requires !st.mesh.frozen
    ensures ObjStep(fs, c, dir, st, RenderItem(Face(3 * j)), false) == Ok(FaceState(st, j))
  {
    var i := 3 * j;
    var m1 := st.mesh.(initTri := st.mesh.initTri + [SavedTri(j)], mat := st.mesh.mat + [FaceTag(st.mesh, st.curMat)]);
    var st2 := FaceState(st, j);
    assert st2 == st.(mesh := m1);
    FaceLineReads(fs, c, dir, st, i, false);
    AddSavedFace(st.mesh, j, st.curMat);
    var added := AddFace(st.mesh, [i, i + 1, i + 2], [i, i + 1, i + 2], st.curMat);
    assert added.Ok? && added.value.0 == m1;
    assert ObjStep(fs, c, dir, st, RenderItem(Face(i)), false) == Ok(st2);
  }

  /** What the loader keeps between face lines: a mutable mesh whose current material is
      the one `usemtl` named last, and which names the material last written. */
  predicate FaceInv(st: ObjState, materials: seq<string>, last: Option<int>) {
    && !st.mesh.frozen
    && st.mesh.initMat == st.curMat
    && -1 <= st.curMat < |st.mesh.materials|
    && (last.Some? ==>
          0 <= last.value < |materials| && 0 <= st.curMat && st.mesh.materials[st.curMat] == materials[last.value])
  }

  /** The saved tags from triangle `j` on never decrease and are at least the last one written. */
  predicate Ascending(mat: seq<int>, faces: nat, j: nat, last: Option<int>) {
    && (forall t, u | j <= t <= u < faces && u < |mat| :: mat[t] <= mat[u])
    && (last.Some? ==> forall t | j <= t < faces && t < |mat| :: last.value <= mat[t])
  }

  /** No material after the last one written is named yet. */
  predicate Fresh(st: ObjState, materials: seq<string>, last: Option<int>) {
    forall k | 0 <= k < |materials| && (last.None? || k > last.value) :: materials[k] !in st.mesh.materials
  }

  /** `r` is `st` after the faces `j` to `faces - 1` of a saved file: the triangles are
      appended in order, each with a tag that names the material it was saved with (or,
      untagged, the tag of the triangle before it), and the material names only grow. */
  predicate LoadedFaces(st: ObjState, r: ObjState, mat: seq<int>, materials: seq<string>, faces: nat, j: nat)
    requires j <= faces
  {
    var m0, m1 := st.mesh, r.mesh;
    var k0 := |m0.mat|;
    && r == st.(mesh := m1, curMat := r.curMat)
    && m1 == m0.(initTri := m1.initTri, mat := m1.mat, materials := m1.materials, initMat := m1.initMat)
    && m1.initTri == m0.initTri + SavedTris(j, faces)
    && |m1.mat| == k0 + faces - j && m1.mat[..k0] == m0.mat
    && |m0.materials| <= |m1.materials| && m1.materials[..|m0.materials|] == m0.materials
    && (forall t | j <= t < faces && t < |mat| && 0 <= mat[t] < |materials| ::
          0 <= m1.mat[k0 + t - j] < |m1.materials| && m1.materials[m1.mat[k0 + t - j]] == materials[mat[t]])
    && (forall t | j <= t < faces && t < |mat| && mat[t] < 0 ::
          m1.mat[k0 + t - j] == if t == j then st.curMat else m1.mat[k0 + t - j - 1])
  }

  /** The tags appended to `st` never decrease and start at or above its current material. */
  predicate LoadedAscending(st: ObjState, r: ObjState) {
    var k0 := |st.mesh.mat|;
    && (forall i | k0 <= i < |r.mesh.mat| :: st.curMat <= r.mesh.mat[i])
    && (forall i | k0 < i < |r.mesh.mat| :: r.mesh.mat[i - 1] <= r.mesh.mat[i])
  }

  lemma SavedTrisCons(j: nat, faces: nat)
    requires j < faces
    ensures [SavedTri(j)] + SavedTris(j + 1, faces) == SavedTris(j, faces)
  {
  }

  /** Facts about the triangle `j` step carry the facts about faces `j + 1` on back to `j`. */
  lemma LoadedFacesCons(st: ObjState, st2: ObjState, r: ObjState, mat: seq<int>, materials: seq<string>,
                        faces: nat, j: nat, g: int)
    requires j < faces && j < |mat|
    requires st2 == st.(mesh := st2.mesh, curMat := g)
    requires st2.mesh == st.mesh.(initTri := st.mesh.initTri + [SavedTri(j)], mat := st.mesh.mat + [g],
                                  materials := st2.mesh.materials, initMat := st2.mesh.initMat)
    requires |st.mesh.materials| <= |st2.mesh.materials|
    requires st2.mesh.materials[..|st.mesh.materials|] == st.mesh.materials
    requires 0 <= mat[j] < |materials| ==> 0 <= g < |st2.mesh.materials| && st2.mesh.materials[g] == materials[mat[j]]
    requires mat[j] < 0 ==> g == st.curMat
    requires LoadedFaces(st2, r, mat, materials, faces, j + 1)
    ensures LoadedFaces(st, r, mat, materials, faces, j)
  {
    var m0, m2, m1 := st.mesh, st2.mesh, r.mesh;
    var k0 := |m0.mat|;
    SavedTrisCons(j, faces);
    ConcatAssoc(m0.initTri, [SavedTri(j)], SavedTris(j + 1, faces));
    assert m1.mat[..k0 + 1] == m0.mat + [g];
    assert m1.mat[..k0] == m0.mat[..k0] + [g][..0] by {
      assert m1.mat[..k0] == m1.mat[..k0 + 1][..k0];
    }
    assert m1.mat[k0] == g by {
      assert m1.mat[k0] == m1.mat[..k0 + 1][k0];
    }
    assert m1.materials[..|m0.materials|] == m0.materials by {
      assert m1.materials[..|m0.materials|] == m1.materials[..|m2.materials|][..|m0.materials|];
    }
    if 0 <= mat[j] < |materials| {
      assert m1.materials[g] == m1.materials[..|m2.materials|][g];
    }
    TagsCons(m1.mat, m1.materials, k0, |m2.mat|, mat, materials, faces, j, g, st.curMat);
  }

  /** The tag facts of `LoadedFaces`, carried from triangle `j + 1` back to `j`. */
  lemma TagsCons(tags: seq<int>, names: seq<string>, k0: nat, k1: nat, mat: seq<int>, materials: seq<string>,
                 faces: nat, j: nat, g: int, cur: int)
    requires k1 == k0 + 1 && j < faces && j < |mat| && |tags| == k0 + faces - j && tags[k0] == g
    requires 0 <= mat[j] < |materials| ==> 0 <= g < |names| && names[g] == materials[mat[j]]
    requires mat[j] < 0 ==> g == cur
    requires forall t | j + 1 <= t < faces && t < |mat| && 0 <= mat[t] < |materials| ::
      0 <= tags[k1 + t - (j + 1)] < |names| && names[tags[k1 + t - (j + 1)]] == materials[mat[t]]
    requires forall t | j + 1 <= t < faces && t < |mat| && mat[t] < 0 ::
      tags[k1 + t - (j + 1)] == if t == j + 1 then g else tags[k1 + t - (j + 1) - 1]
    ensures forall t | j <= t < faces && t < |mat| && 0 <= mat[t] < |materials| ::
      0 <= tags[k0 + t - j] < |names| && names[tags[k0 + t - j]] == materials[mat[t]]
    ensures forall t | j <= t < faces && t < |mat| && mat[t] < 0 ::
      tags[k0 + t - j] == if t == j then cur else tags[k0 + t - j - 1]
  {
    forall t | j <= t < faces && t < |mat| && 0 <= mat[t] < |materials|
      ensures 0 <= tags[k0 + t - j] < |names| && names[tags[k0 + t - j]] == materials[mat[t]]
    {
      if t > j {
        assert k0 + t - j == k1 + t - (j + 1);
      }
    }
    forall t | j <= t < faces && t < |mat| && mat[t] < 0
      ensures tags[k0 + t - j] == if t == j then cur else tags[k0 + t - j - 1]
    {
      if t > j {
        assert k0 + t - j == k1 + t - (j + 1);
      }
    }
  }

  /** Tags that start at `g`, at or above the current material, keep `LoadedAscending`. */
  lemma LoadedAscendingCons(st: ObjState, st2: ObjState, r: ObjState, g: int)
    requires |st2.mesh.mat| == |st.mesh.mat| + 1 && st2.mesh.mat[|st.mesh.mat|] == g && st2.curMat == g
    requires st.curMat <= g
    requires |r.mesh.mat| >= |st2.mesh.mat| && r.mesh.mat[..|st2.mesh.mat|] == st2.mesh.mat
    requires LoadedAscending(st2, r)
    ensures LoadedAscending(st, r)
  {
    var k0 := |st.mesh.mat|;
    assert r.mesh.mat[k0] == g by {
      assert r.mesh.mat[k0] == r.mesh.mat[..|st2.mesh.mat|][k0];
    }
  }

  /** What reading the face section from triangle `j` on yields: the facts of `LoadedFaces`,
      and, when the saved tags never decrease and name distinct materials, tags that never
      decrease either. */
  predicate FacesRead(fs: FileSystem, c: Numerals, dir: string, st: ObjState,
                      mat: seq<int>, materials: seq<string>, faces: nat, j: nat, last: Option<int>)
    requires j <= faces && FaceItems(mat, materials, faces, j, last).Ok?
  {
    var r := ObjLines(fs, c, dir, st, RenderItems(FaceItems(mat, materials, faces, j, last).value), false);
    && r.Ok?
    && LoadedFaces(st, r.value, mat, materials, faces, j)
    && (NoDup(materials) && Ascending(mat, faces, j, last) && Fresh(st, materials, last) ==>
          LoadedAscending(st, r.value))
  }

  /** A triangle whose tag is a material other than the last one written: `usemtl`, then the face. */
  lemma FaceLinesUseMtl(fs: FileSystem, c: Numerals, dir: string, st: ObjState,
                        mat: seq<int>, materials: seq<string>, faces: nat, j: nat, last: Option<int>)
    requires j < faces && j < |mat| && 0 <= mat[j] < |materials| && last != Some(mat[j])
    requires IsWord(materials[mat[j]]) && !st.mesh.frozen
    requires FaceItems(mat, materials, faces, j, last).Ok?
    ensures FaceItems(mat, materials, faces, j + 1, Some(mat[j])).Ok?
    ensures ObjLines(fs, c, dir, st, RenderItems(FaceItems(mat, materials, faces, j, last).value), false)
         == ObjLines(fs, c, dir, FaceState(UseMtlState(st, materials[mat[j]]), j),
                     RenderItems(FaceItems(mat, materials, faces, j + 1, Some(mat[j])).value), false)
  {
    var name := materials[mat[j]];
    var rest := FaceItems(mat, materials, faces, j + 1, Some(mat[j]));
    assert rest.Ok? && FaceItems(mat, materials, faces, j, last).value == [UseMtl(name), Face(3 * j)] + rest.value;
    RenderItemsAppend([UseMtl(name), Face(3 * j)], rest.value);
    var lines := RenderItems([UseMtl(name), Face(3 * j)]) + RenderItems(rest.value);
    assert lines[0] == RenderItem(UseMtl(name)) && lines[1..][0] == RenderItem(Face(3 * j));
    assert lines[1..][1..] == RenderItems(rest.value);
    var st1 := UseMtlState(st, name);
    UseMtlLineReads(fs, c, dir, st, name, false);
    ObjLinesCons(fs, c, dir, st, st1, lines, false);
    FaceStep(fs, c, dir, st1, j);
    ObjLinesCons(fs, c, dir, st1, FaceState(st1, j), lines[1..], false);
  }

  /** A triangle whose tag is negative or the last one written: only the face. */
  lemma FaceLinesPlain(fs: FileSystem, c: Numerals, dir: string, st: ObjState,
                       mat: seq<int>, materials: seq<string>, faces: nat, j: nat, last: Option<int>)
    requires j < faces && j < |mat| && !(mat[j] >= 0 && last != Some(mat[j]))
    requires !st.mesh.frozen
    requires FaceItems(mat, materials, faces, j, last).Ok?
    ensures FaceItems(mat, materials, faces, j + 1, last).Ok?
    ensures ObjLines(fs, c, dir, st, RenderItems(FaceItems(mat, materials, faces, j, last).value), false)
         == ObjLines(fs, c, dir, FaceState(st, j), RenderItems(FaceItems(mat, materials, faces, j + 1, last).value), false)
  {
    var rest := FaceItems(mat, materials, faces, j + 1, last);
    assert rest.Ok? && FaceItems(mat, materials, faces, j, last).value == [Face(3 * j)] + rest.value;
    RenderItemsAppend([Face(3 * j)], rest.value);
    var lines := RenderItems([Face(3 * j)]) + RenderItems(rest.value);
    assert lines[0] == RenderItem(Face(3 * j)) && lines[1..] == RenderItems(rest.value);
    FaceStep(fs, c, dir, st, j);
    ObjLinesCons(fs, c, dir, st, FaceState(st, j), lines, false);
  }

  /** The state after `usemtl name` and face `j`, compared with the state before. */
  lemma UseMtlFaceState(st: ObjState, materials: seq<string>, j: nat, mid: int, last: Option<int>)
    requires FaceInv(st, materials, last) && 0 <= mid < |materials|
    ensures var st1 := UseMtlState(st, materials[mid]);
      var st2 := FaceState(st1, j);
      var g := st1.curMat;
      && st2 == st.(mesh := st2.mesh, curMat := g)
      && st2.mesh == st.mesh.(initTri := st.mesh.initTri + [SavedTri(j)], mat := st.mesh.mat + [g],
                              materials := st2.mesh.materials, initMat := st2.mesh.initMat)
      && |st.mesh.materials| <= |st2.mesh.materials|
      && st2.mesh.materials[..|st.mesh.materials|] == st.mesh.materials
      && 0 <= g < |st2.mesh.materials| && st2.mesh.materials[g] == materials[mid]
      && FaceInv(st2, materials, Some(mid))
      && (materials[mid] !in st.mesh.materials ==> st2.mesh.materials == st.mesh.materials + [materials[mid]])
      && (materials[mid] !in st.mesh.materials ==> g == |st.mesh.materials|)
  {
    var name := materials[mid];
    var (m1, g) := AddMaterial(st.mesh, name);
    assert FaceTag(m1, g) == g;
    if name !in st.mesh.materials {
      assert (st.mesh.materials + [name])[..|st.mesh.materials|] == st.mesh.materials;
    }
  }

  /** The state after face `j` alone, the tag being the current material. */
  lemma PlainFaceState(st: ObjState, materials: seq<string>, j: nat, last: Option<int>)
    requires FaceInv(st, materials, last)
    ensures var st2 := FaceState(st, j);
      && st2 == st.(mesh := st2.mesh, curMat := st.curMat)
      && st2.mesh == st.mesh.(initTri := st.mesh.initTri + [SavedTri(j)], mat := st.mesh.mat + [st.curMat],
                              materials := st2.mesh.materials, initMat := st2.mesh.initMat)
      && st2.mesh.materials == st.mesh.materials
      && FaceInv(st2, materials, last)
  {
    assert FaceTag(st.mesh, st.curMat) == st.curMat;
  }

  /** The corrected loader reads the face section of a saved file, from triangle `j` on. */
  lemma {:induction false} FaceSectionReads(fs: FileSystem, c: Numerals, dir: string, st: ObjState,
                                            mat: seq<int>, materials: seq<string>, faces: nat, j: nat, last: Option<int>)
    requires j <= faces && FaceItems(mat, materials, faces, j, last).Ok?
    requires forall k | 0 <= k < |materials| :: IsWord(materials[k])
    requires FaceInv(st, materials, last)
    ensures FacesRead(fs, c, dir, st, mat, materials, faces, j, last)
    decreases faces - j
  {
    var items := FaceItems(mat, materials, faces, j, last).value;
    if j == faces {
      assert items == [] && RenderItems(items) == [];
      assert SavedTris(j, faces) == [] && st.mesh.initTri + [] == st.mesh.initTri;
      assert st.mesh.mat[..|st.mesh.mat|] == st.mesh.mat;
      assert st.mesh.materials[..|st.mesh.materials|] == st.mesh.materials;
    } else {
      assert TagsWritable(mat, materials, faces, j);
      assert j < |mat|;
      var mid := mat[j];
      if mid >= 0 && last != Some(mid) {
        FaceLinesUseMtl(fs, c, dir, st, mat, materials, faces, j, last);
        UseMtlFaceState(st, materials, j, mid, last);
        var st1 := UseMtlState(st, materials[mid]);
        var st2 := FaceState(st1, j);
        FaceSectionReads(fs, c, dir, st2, mat, materials, faces, j + 1, Some(mid));
        UseMtlSectionCons(fs, c, dir, st, mat, materials, faces, j, last);
      } else {
        FaceLinesPlain(fs, c, dir, st, mat, materials, faces, j, last);
        PlainFaceState(st, materials, j, last);
        FaceSectionReads(fs, c, dir, FaceState(st, j), mat, materials, faces, j + 1, last);
        PlainSectionCons(fs, c, dir, st, mat, materials, faces, j, last);
      }
    }
  }

  lemma UseMtlSectionCons(fs: FileSystem, c: Numerals, dir: string, st: ObjState,
                          mat: seq<int>, materials: seq<string>, faces: nat, j: nat, last: Option<int>)
    requires j < faces && j < |mat| && 0 <= mat[j] < |materials| && last != Some(mat[j])
    requires FaceInv(st, materials, last)
    requires FaceItems(mat, materials, faces, j, last).Ok?
    requires FaceItems(mat, materials, faces, j + 1, Some(mat[j])).Ok?
    requires ObjLines(fs, c, dir, st, RenderItems(FaceItems(mat, materials, faces, j, last).value), false)
          == ObjLines(fs, c, dir, FaceState(UseMtlState(st, materials[mat[j]]), j),
                      RenderItems(FaceItems(mat, materials, faces, j + 1, Some(mat[j])).value), false)
    requires FacesRead(fs, c, dir, FaceState(UseMtlState(st, materials[mat[j]]), j), mat, materials, faces, j + 1, Some(mat[j]))
    ensures FacesRead(fs, c, dir, st, mat, materials, faces, j, last)
  {
    var mid := mat[j];
    UseMtlFaceState(st, materials, j, mid, last);
    var st1 := UseMtlState(st, materials[mid]);
    var st2 := FaceState(st1, j);
    var g := st1.curMat;
    var r := ObjLines(fs, c, dir, st2, RenderItems(FaceItems(mat, materials, faces, j + 1, Some(mid)).value), false);
    assert r.Ok? && LoadedFaces(st2, r.value, mat, materials, faces, j + 1);
    LoadedFacesCons(st, st2, r.value, mat, materials, faces, j, g);
    if NoDup(materials) && Ascending(mat, faces, j, last) && Fresh(st, materials, last) {
      UseMtlAscending(st, st2, r.value, mat, materials, faces, j, last);
    }
  }

  /** The ascending half of `UseMtlSectionCons`. */
  lemma UseMtlAscending(st: ObjState, st2: ObjState, r: ObjState,
                        mat: seq<int>, materials: seq<string>, faces: nat, j: nat, last: Option<int>)
    requires j < faces && j < |mat| && 0 <= mat[j] < |materials| && last != Some(mat[j])
    requires FaceInv(st, materials, last)
    requires st2 == FaceState(UseMtlState(st, materials[mat[j]]), j)
    requires LoadedFaces(st2, r, mat, materials, faces, j + 1)
    requires NoDup(materials) && Ascending(mat, faces, j, last) && Fresh(st, materials, last)
    requires Ascending(mat, faces, j + 1, Some(mat[j])) && Fresh(st2, materials, Some(mat[j])) ==>
               LoadedAscending(st2, r)
    ensures LoadedAscending(st, r)
  {
    var mid := mat[j];
    UseMtlFaceState(st, materials, j, mid, last);
    var g := UseMtlState(st, materials[mid]).curMat;
    assert last.Some? ==> last.value < mid;
    assert materials[mid] !in st.mesh.materials;
    assert Ascending(mat, faces, j + 1, Some(mid));
    assert Fresh(st2, materials, Some(mid)) by {
      forall k | 0 <= k < |materials| && k > mid ensures materials[k] !in st2.mesh.materials {
        assert materials[k] != materials[mid];
      }
    }
    assert r.mesh.mat[..|st2.mesh.mat|] == st2.mesh.mat;
    LoadedAscendingCons(st, st2, r, g);
  }

  lemma PlainSectionCons(fs: FileSystem, c: Numerals, dir: string, st: ObjState,
                         mat: seq<int>, materials: seq<string>, faces: nat, j: nat, last: Option<int>)
    requires j < faces && j < |mat| && !(mat[j] >= 0 && last != Some(mat[j]))
    requires FaceInv(st, materials, last)
    requires FaceItems(mat, materials, faces, j, last).Ok?
    requires FaceItems(mat, materials, faces, j + 1, last).Ok?
    requires ObjLines(fs, c, dir, st, RenderItems(FaceItems(mat, materials, faces, j, last).value), false)
          == ObjLines(fs, c, dir, FaceState(st, j), RenderItems(FaceItems(mat, materials, faces, j + 1, last).value), false)
    requires FacesRead(fs, c, dir, FaceState(st, j), mat, materials, faces, j + 1, last)
    ensures FacesRead(fs, c, dir, st, mat, materials, faces, j, last)
  {
    PlainFaceState(st, materials, j, last);
    var st2 := FaceState(st, j);
    var r := ObjLines(fs, c, dir, st2, RenderItems(FaceItems(mat, materials, faces, j + 1, last).value), false);
    assert r.Ok? && LoadedFaces(st2, r.value, mat, materials, faces, j + 1);
    assert st2.mesh.materials[..|st.mesh.materials|] == st.mesh.materials;
    LoadedFacesCons(st, st2, r.value, mat, materials, faces, j, st.curMat);
    if NoDup(materials) && Ascending(mat, faces, j, last) && Fresh(st, materials, last) {
      assert Ascending(mat, faces, j + 1, last);
      assert LoadedAscending(st2, r.value);
      assert r.value.mesh.mat[..|st2.mesh.mat|] == st2.mesh.mat;
      LoadedAscendingCons(st, st2, r.value, st.curMat);
    }
  }

  // ---------------------------------------------------------------------------
  // Finalizing the reloaded mesh

  lemma CornerOfSaved(t: nat, k: int)
    requires 0 <= k < 3
    ensures CornerAt(SavedTri(t), k) == Corner(3 * t + k, Some(3 * t + k))
  {
  }

  lemma {:induction false} ChainLeq(s: seq<int>, i: int, j: int)
    requires forall k | 0 < k < |s| :: s[k - 1] <= s[k]
    requires 0 <= i <= j < |s|
    ensures s[i] <= s[j]
    decreases j - i
  {
    if i < j {
      ChainLeq(s, i, j - 1);
    }
  }

  /** Saved triangles with tags that never decrease are already in `sorted()` order: the
      tag decides, and for equal tags the first vertex index does. */
  lemma SavedPairsSorted(tags: seq<int>, faces: nat)
    requires |tags| == faces
    requires forall k | 0 < k < |tags| :: tags[k - 1] <= tags[k]
    ensures Sorted(Zip(tags, SavedTris(0, faces)))
  {
    var z := Zip(tags, SavedTris(0, faces));
    forall a, b | 0 <= a < b < |z| ensures Leq(z[a], z[b]) {
      ChainLeq(tags, a, b);
      var ka, kb := Key(z[a]), Key(z[b]);
      assert z[a] == Tagged(tags[a], SavedTri(a)) && z[b] == Tagged(tags[b], SavedTri(b));
      assert ka[0] == tags[a] && kb[0] == tags[b];
      assert ka[1..][0] == 3 * a && kb[1..][0] == 3 * b;
    }
  }

  lemma UnzipZip(tags: seq<int>, tris: seq<Triangle>)
    requires |tags| == |tris|
    ensures Tags(Zip(tags, tris)) == tags && Tris(Zip(tags, tris)) == tris
  {
  }

  /** `finalize` on the reloaded mesh succeeds and keeps the triangles in order. */
  lemma FinalizeSavedOrder(ml: Mesh, normal: NormalRule, faces: nat)
    requires faces > 0
    requires ml.initTri == SavedTris(0, faces) && |ml.mat| == faces
    requires |ml.initVtx| == 3 * faces && |ml.initTex| == 3 * faces
    requires forall k | 0 < k < |ml.mat| :: ml.mat[k - 1] <= ml.mat[k]
    ensures var r := FinalizeWith(ml, normal, false);
      r.Ok? && r.value.mat == ml.mat && r.value.initTri == ml.initTri
  {
    var pairs := Zip(ml.mat, ml.initTri);
    assert |pairs| == faces;
    forall t | 0 <= t < |pairs| ensures Resolves(ml.initVtx, ml.initTex, pairs[t].tri, false) {
      assert pairs[t].tri == SavedTri(t);
      CornerOfSaved(t, 0);
      CornerOfSaved(t, 1);
      CornerOfSaved(t, 2);
    }
    var m1 := FinalizeWith(ml, normal, false).value;
    SavedPairsSorted(ml.mat, faces);
    SortedUnique(Zip(m1.mat, m1.initTri), pairs);
    UnzipZip(m1.mat, m1.initTri);
    UnzipZip(ml.mat, ml.initTri);
  }

  /** The output arrays of the reloaded mesh are the loaded vertices, in order. */
  lemma FinalizeSavedOutput(ml: Mesh, normal: NormalRule, faces: nat)
    requires FinalizeWith(ml, normal, false).Ok?
    requires FinalizeWith(ml, normal, false).value.initTri == SavedTris(0, faces)
    requires |ml.initVtx| == 3 * faces && |ml.initTex| == 3 * faces
    ensures var o := FinalizeWith(ml, normal, false).value.output.value;
      o.vtx == ml.initVtx && o.tex == ml.initTex
  {
    var o := FinalizeWith(ml, normal, false).value.output.value;
    SavedCornersRead(o, ml.initVtx, ml.initTex, faces);
  }

  /** Output vertex i of the saved triangles is corner i of the input arrays. */
  lemma SavedCornersRead(o: Output, vtx: seq<Vec3>, tex: seq<Vec2>, faces: nat)
    requires o.tri == SavedTris(0, faces) && |vtx| == 3 * faces && |tex| == 3 * faces
    requires |o.vtx| == 3 * |o.tri| && |o.tex| == |o.vtx|
    requires forall i | 0 <= i < |o.vtx| ::
      Resolves(vtx, tex, o.tri[i / 3], false)
      && o.vtx[i] == VtxAt(vtx, o.tri[i / 3], i % 3)
      && o.tex[i] == TexAt(tex, o.tri[i / 3], i % 3, false)
    ensures o.vtx == vtx && o.tex == tex
  {
    forall i | 0 <= i < |o.vtx| ensures o.vtx[i] == vtx[i] && o.tex[i] == tex[i] {
      var t, k := i / 3, i % 3;
      assert 3 * t + k == i;
      assert o.tri[t] == SavedTri(t);
      CornerOfSaved(t, k);
    }
  }

  // ---------------------------------------------------------------------------
  // The whole file

  lemma HeaderWords()
    ensures |Words(Header)| > 0 && Words(Header)[0] == "#"
  {
    var t := " Mesh file output by mesh.py\n";
    assert Header == "#" + t;
    assert IsWord("#") && IsSpace(t[0]);
    WordsAfterWord("#", t);
  }

  /** The comment line `save_obj` writes first is skipped. */
  lemma HeaderIgnored(fs: FileSystem, c: Numerals, dir: string, st: ObjState)
    ensures ObjStep(fs, c, dir, st, Header, false) == Ok(st)
  {
    HeaderWords();
    var toks := Tokens(Header, false);
    assert ObjStepToks(fs, c, dir, st, toks, false) == Ok(st);
  }

  lemma MtllibWords(name: string)
    requires IsWord(name)
    ensures Words(Join(["mtllib", name], " ") + "\n") == ["mtllib", name]
  {
    assert IsWord("mtllib");
    SavedLineWords(["mtllib", name]);
  }

  /** The `mtllib` line loads the library next to the OBJ file, here one `save_mtl_file`
      wrote, and records its name. */
  lemma MtllibLineReads(fs: FileSystem, c: Numerals, dir: string, st: ObjState, name: string, ms: seq<Material>)
    requires IsWord(name)
    requires MtlPath(dir, name, false) in fs && fs[MtlPath(dir, name, false)] == SaveMtl(c, ms)
    requires forall i | 0 <= i < |ms| :: Writable(c, ms[i])
    ensures ObjStep(fs, c, dir, st, Join(["mtllib", name], " ") + "\n", false)
         == Ok(st.(mesh := st.mesh.(matFile := Some(name)), materials := Some(ms)))
  {
    MtllibWords(name);
    MtlRoundTrip(c, ms);
    var toks := ["mtllib", name];
    assert LoadMtlFile(fs, c, MtlPath(dir, name, false), false) == Ok(ms);
    assert ObjStepToks(fs, c, dir, st, toks, false)
        == Ok(st.(mesh := st.mesh.(matFile := Some(name)), materials := Some(ms)));
  }

  /** A mesh `save_obj` can write and the corrected `load_obj` can read back: finalized,
      valid, non-empty, tags in `finalize` order, material names and numbers that print
      as single words. */
  predicate Saveable(c: Numerals, m: Mesh) {
    && m.output.Some? && Meshes.Valid(m)
    && var o := m.output.value;
    && |o.tri| > 0 && |m.mat| == |o.tri|
    && (forall t, u | 0 <= t <= u < |m.mat| :: m.mat[t] <= m.mat[u])
    && (forall k | 0 <= k < |m.materials| :: IsWord(m.materials[k]))
    && (forall i | 0 <= i < |o.vtx| :: Vec3Reads(c, o.vtx[i]) && Vec3Reads(c, o.nor[i]) && Vec2Reads(c, o.tex[i]))
  }

  /** `filename` holds what `save_obj(m, filename, matFile)` wrote, and the library it names
      holds what `save_mtl_file(ms)` wrote. */
  predicate Stored(fs: FileSystem, c: Numerals, m: Mesh, filename: string, matFile: Option<string>, ms: seq<Material>) {
    && SaveObj(c, m, filename, matFile).Ok?
    && filename in fs && fs[filename] == SaveObj(c, m, filename, matFile).value
    && IsWord(MtlName(filename, matFile))
    && MtlPath(Dirname(filename), MtlName(filename, matFile), false) in fs
    && fs[MtlPath(Dirname(filename), MtlName(filename, matFile), false)] == SaveMtl(c, ms)
    && (forall i | 0 <= i < |ms| :: Writable(c, ms[i]))
  }

  /** The state after the header, the `mtllib` line and the vertex section. */
  function VerticesLoaded(m: Mesh, filename: string, matFile: Option<string>, ms: seq<Material>): ObjState
    requires m.output.Some?
  {
    Extended(ObjState(Empty().(matFile := Some(MtlName(filename, matFile))), Some(ms), -1),
             m.output.value.vtx, m.output.value.tex)
  }

  /** The lines `save_obj` wrote: the header, `mtllib`, the vertex section, the face section. */
  lemma SavedFileShape(c: Numerals, m: Mesh, filename: string, matFile: Option<string>)
    requires Saveable(c, m) && SaveObj(c, m, filename, matFile).Ok?
    ensures var lines := SaveObj(c, m, filename, matFile).value;
      var o := m.output.value;
      && (|o.vtx| + 2) / 3 == |o.tri|
      && |lines| >= 2 && lines[0] == Header
      && lines[1..][0] == Join(["mtllib", MtlName(filename, matFile)], " ") + "\n"
      && FaceItems(m.mat, m.materials, |o.tri|, 0, None).Ok?
      && lines[1..][1..] == VertexLines(c, o.vtx, o.nor, o.tex) + RenderItems(FaceItems(m.mat, m.materials, |o.tri|, 0, None).value)
  {
    SavedLinesShape(c, m, filename, matFile);
  }

  lemma SavedLinesShape(c: Numerals, m: Mesh, filename: string, matFile: Option<string>)
    requires m.output.Some? && |m.output.value.vtx| == 3 * |m.output.value.tri|
    requires SaveObj(c, m, filename, matFile).Ok?
    ensures var lines := SaveObj(c, m, filename, matFile).value;
      var o := m.output.value;
      && (|o.vtx| + 2) / 3 == |o.tri|
      && |lines| >= 2 && lines[0] == Header
      && lines[1..][0] == Join(["mtllib", MtlName(filename, matFile)], " ") + "\n"
      && FaceItems(m.mat, m.materials, |o.tri|, 0, None).Ok?
      && lines[1..][1..] == VertexLines(c, o.vtx, o.nor, o.tex) + RenderItems(FaceItems(m.mat, m.materials, |o.tri|, 0, None).value)
  {
    DivThree(|m.output.value.vtx|, |m.output.value.tri|);
  }

  lemma DivThree(nv: nat, nt: nat)
    requires nv == 3 * nt
    ensures (nv + 2) / 3 == nt
  {
  }

  /** The header is skipped and the `mtllib` line loads the library. */
  lemma LoadSavedHead(fs: FileSystem, c: Numerals, m: Mesh, filename: string, matFile: Option<string>, ms: seq<Material>)
    requires Saveable(c, m) && Stored(fs, c, m, filename, matFile, ms)
    ensures var lines := fs[filename];
      var dir := Dirname(filename);
      var stm := ObjState(Empty().(matFile := Some(MtlName(filename, matFile))), Some(ms), -1);
      |lines| >= 2 && ObjLines(fs, c, dir, ObjState(Empty(), None, -1), lines, false) == ObjLines(fs, c, dir, stm, lines[1..][1..], false)
  {
    var dir, name := Dirname(filename), MtlName(filename, matFile);
    var lines := fs[filename];
    var st0 := ObjState(Empty(), None, -1);
    var stm := ObjState(Empty().(matFile := Some(name)), Some(ms), -1);
    SavedFileShape(c, m, filename, matFile);
    HeaderIgnored(fs, c, dir, st0);
    ObjLinesCons(fs, c, dir, st0, st0, lines, false);
    MtllibLineReads(fs, c, dir, st0, name, ms);
    assert st0.(mesh := st0.mesh.(matFile := Some(name)), materials := Some(ms)) == stm;
    ObjLinesCons(fs, c, dir, st0, stm, lines[1..], false);
  }

  /** The vertex section, then the face section. */
  lemma LoadSavedSections(fs: FileSystem, c: Numerals, m: Mesh, filename: string, matFile: Option<string>, ms: seq<Material>)
    requires Saveable(c, m)
    requires FaceItems(m.mat, m.materials, |m.output.value.tri|, 0, None).Ok?
    ensures var o := m.output.value;
      var items := FaceItems(m.mat, m.materials, |o.tri|, 0, None).value;
      var stm := ObjState(Empty().(matFile := Some(MtlName(filename, matFile))), Some(ms), -1);
      var r := ObjLines(fs, c, Dirname(filename), stm, VertexLines(c, o.vtx, o.nor, o.tex) + RenderItems(items), false);
      var stv := VerticesLoaded(m, filename, matFile, ms);
      && r.Ok?
      && LoadedFaces(stv, r.value, m.mat, m.materials, |o.tri|, 0)
      && LoadedAscending(stv, r.value)
  {
    var o := m.output.value;
    var faces := |o.tri|;
    var dir := Dirname(filename);
    var items := FaceItems(m.mat, m.materials, faces, 0, None).value;
    var stm := ObjState(Empty().(matFile := Some(MtlName(filename, matFile))), Some(ms), -1);
    var stv := VerticesLoaded(m, filename, matFile, ms);
    VertexSectionReads(fs, c, dir, stm, o.vtx, o.nor, o.tex);
    assert o.tex[..|o.vtx|] == o.tex;
    ObjLinesAppend(fs, c, dir, stm, VertexLines(c, o.vtx, o.nor, o.tex), RenderItems(items), false);
    FaceSectionReads(fs, c, dir, stv, m.mat, m.materials, faces, 0, None);
    assert Fresh(stv, m.materials, None);
    assert Ascending(m.mat, faces, 0, None);
  }

  /** The corrected loader's loop over a saved file. */
  lemma LoadSavedLines(fs: FileSystem, c: Numerals, m: Mesh, filename: string, matFile: Option<string>, ms: seq<Material>)
    requires Saveable(c, m) && Stored(fs, c, m, filename, matFile, ms)
    ensures var r := ObjLines(fs, c, Dirname(filename), ObjState(Empty(), None, -1), fs[filename], false);
      var stv := VerticesLoaded(m, filename, matFile, ms);
      && r.Ok?
      && LoadedFaces(stv, r.value, m.mat, m.materials, |m.output.value.tri|, 0)
      && LoadedAscending(stv, r.value)
  {
    SavedFileShape(c, m, filename, matFile);
    LoadSavedHead(fs, c, m, filename, matFile, ms);
    LoadSavedSections(fs, c, m, filename, matFile, ms);
  }

  /** Untagged triangles come first in `finalize` order, and each takes the tag of the one
      before it, so all of them keep the loader's initial tag. */
  lemma {:induction false} UntaggedPrefix(tags: seq<int>, mat: seq<int>, t: int, g0: int)
    requires |tags| == |mat|
    requires forall s, u | 0 <= s <= u < |mat| :: mat[s] <= mat[u]
    requires forall s | 0 < s < |mat| && mat[s] < 0 :: tags[s] == tags[s - 1]
    requires 0 < |mat| && mat[0] < 0 ==> tags[0] == g0
    requires 0 <= t < |mat| && mat[t] < 0
    ensures tags[t] == g0
    decreases t
  {
    if t > 0 {
      assert mat[t - 1] <= mat[t];
      assert tags[t] == tags[t - 1];
      UntaggedPrefix(tags, mat, t - 1, g0);
    }
  }

  /** With sorted tags, every untagged triangle comes first, so each inherits the first
      one's material. */
  lemma UntaggedAll(tags: seq<int>, mat: seq<int>, g0: int)
    requires |tags| == |mat|
    requires forall s, u | 0 <= s <= u < |mat| :: mat[s] <= mat[u]
    requires forall s | 0 < s < |mat| && mat[s] < 0 :: tags[s] == tags[s - 1]
    requires 0 < |mat| && mat[0] < 0 ==> tags[0] == g0
    ensures forall t | 0 <= t < |mat| && mat[t] < 0 :: tags[t] == g0
  {
    forall t | 0 <= t < |mat| && mat[t] < 0 ensures tags[t] == g0 {
      UntaggedPrefix(tags, mat, t, g0);
    }
  }

  /** What the loader leaves for `finalize` after reading a file saved from `m`. */
  predicate ReadBack(ml: Mesh, m: Mesh, name: string)
    requires m.output.Some?
  {
    var o := m.output.value;
    var faces := |o.tri|;
    && ml.matFile == Some(name)
    && ml.initVtx == o.vtx && ml.initTex == o.tex
    && ml.initTri == SavedTris(0, faces) && |ml.mat| == faces
    && (forall k | 0 < k < |ml.mat| :: ml.mat[k - 1] <= ml.mat[k])
    && (forall t | 0 <= t < faces && t < |m.mat| && 0 <= m.mat[t] < |m.materials| ::
          0 <= ml.mat[t] < |ml.materials| && ml.materials[ml.mat[t]] == m.materials[m.mat[t]])
    && (forall t | 0 < t < faces && t < |m.mat| && m.mat[t] < 0 :: ml.mat[t] == ml.mat[t - 1])
    && (0 < faces && 0 < |m.mat| && m.mat[0] < 0 ==> ml.mat[0] == -1)
  }

  /** The face lines and the `usemtl` lines, read back after the vertex lines, give the
      saved triangles with their materials. */
  lemma LoadedReadBack(m: Mesh, filename: string, matFile: Option<string>, ms: seq<Material>, r: ObjState)
    requires m.output.Some?
    requires var stv := VerticesLoaded(m, filename, matFile, ms);
      LoadedFaces(stv, r, m.mat, m.materials, |m.output.value.tri|, 0) && LoadedAscending(stv, r)
    ensures r.materials == Some(ms) && ReadBack(r.mesh, m, MtlName(filename, matFile))
  {
    var o := m.output.value;
    var stv := VerticesLoaded(m, filename, matFile, ms);
    assert stv.mesh.initVtx == o.vtx && stv.mesh.initTex == o.tex && stv.mesh.mat == [];
    assert r.mesh.initTri == SavedTris(0, |o.tri|);
  }

  lemma LoadSavedMesh(fs: FileSystem, c: Numerals, m: Mesh, filename: string, matFile: Option<string>, ms: seq<Material>)
    requires Saveable(c, m) && Stored(fs, c, m, filename, matFile, ms)
    ensures var r := ObjLines(fs, c, Dirname(filename), ObjState(Empty(), None, -1), fs[filename], false);
      r.Ok? && r.value.materials == Some(ms) && ReadBack(r.value.mesh, m, MtlName(filename, matFile))
  {
    LoadSavedLines(fs, c, m, filename, matFile, ms);
    var r0 := ObjLines(fs, c, Dirname(filename), ObjState(Empty(), None, -1), fs[filename], false).value;
    LoadedReadBack(m, filename, matFile, ms, r0);
  }

  /** `finalize` keeps the saved order of a mesh read back from a saved file. */
  lemma FinalizeReadBack(ml: Mesh, normal: NormalRule, m: Mesh, name: string)
    requires m.output.Some? && Meshes.Valid(m) && |m.output.value.tri| > 0 && ReadBack(ml, m, name)
    ensures var r := FinalizeWith(ml, normal, false);
      var o := m.output.value;
      && r.Ok? && r.value.matFile == Some(name)
      && r.value.output.value.vtx == o.vtx && r.value.output.value.tex == o.tex
      && r.value.mat == ml.mat && r.value.materials == ml.materials
  {
    var faces := |m.output.value.tri|;
    FinalizeSavedOrder(ml, normal, faces);
    FinalizeSavedOutput(ml, normal, faces);
  }

  /** `load_obj` returns the finalized mesh of its line loop and the materials read. */
  lemma LoadObjUnfold(fs: FileSystem, c: Numerals, normal: NormalRule, filename: string)
    requires filename in fs
    requires ObjLines(fs, c, Dirname(filename), ObjState(Empty(), None, -1), fs[filename], false).Ok?
    requires FinalizeWith(ObjLines(fs, c, Dirname(filename), ObjState(Empty(), None, -1), fs[filename], false).value.mesh, normal, false).Ok?
    ensures var st := ObjLines(fs, c, Dirname(filename), ObjState(Empty(), None, -1), fs[filename], false).value;
      LoadObj(fs, c, normal, filename, false) == Ok((FinalizeWith(st.mesh, normal, false).value, st.materials))
  {
  }

  /** A mesh loaded back agrees with the mesh `m` that was saved: the same output positions
      and texture coordinates, the library name, and for every triangle a tag naming the
      material it was saved with, or -1 for the untagged ones. */
  predicate MeshRoundTripped(m1: Mesh, m: Mesh, name: string)
    requires m.output.Some?
  {
    var o := m.output.value;
    && m1.matFile == Some(name)
    && m1.output.Some? && m1.output.value.vtx == o.vtx && m1.output.value.tex == o.tex
    && |m1.mat| == |m.mat|
    && (forall t | 0 <= t < |m.mat| && 0 <= m.mat[t] < |m.materials| ::
          0 <= m1.mat[t] < |m1.materials| && m1.materials[m1.mat[t]] == m.materials[m.mat[t]])
    && (forall t | 0 <= t < |m.mat| && m.mat[t] < 0 :: m1.mat[t] == -1)
  }

  /** ... and the material library comes back as it was saved. */
  predicate RoundTripped(r: (Mesh, Option<seq<Material>>), m: Mesh, ms: seq<Material>, name: string)
    requires m.output.Some?
  {
    r.1 == Some(ms) && MeshRoundTripped(r.0, m, name)
  }

  lemma FinalizedRoundTripped(ml: Mesh, normal: NormalRule, m: Mesh, name: string)
    requires m.output.Some? && Meshes.Valid(m) && |m.output.value.tri| > 0 && |m.mat| == |m.output.value.tri|
    requires forall t, u | 0 <= t <= u < |m.mat| :: m.mat[t] <= m.mat[u]
    requires ReadBack(ml, m, name)
    ensures FinalizeWith(ml, normal, false).Ok?
    ensures MeshRoundTripped(FinalizeWith(ml, normal, false).value, m, name)
  {
    UntaggedAll(ml.mat, m.mat, -1);
    FinalizeReadBack(ml, normal, m, name);
  }

  /** Saving a finalized mesh and its materials and loading the file with the corrected
      `load_obj` gives back the output positions and texture coordinates in order, the
      material library, and for every triangle a tag naming the material it was saved
      with (-1 for the untagged ones). */
  lemma LoadSavedObj(fs: FileSystem, c: Numerals, normal: NormalRule, m: Mesh,
                     filename: string, matFile: Option<string>, ms: seq<Material>)
    requires Saveable(c, m) && Stored(fs, c, m, filename, matFile, ms)
    ensures var r := LoadObj(fs, c, normal, filename, false);
      r.Ok? && RoundTripped(r.value, m, ms, MtlName(filename, matFile))
  {
    var name := MtlName(filename, matFile);
    LoadSavedMesh(fs, c, m, filename, matFile, ms);
    var st := ObjLines(fs, c, Dirname(filename), ObjState(Empty(), None, -1), fs[filename], false).value;
    FinalizedRoundTripped(st.mesh, normal, m, name);
    LoadObjUnfold(fs, c, normal, filename);
  }
}

=== FILE: pytext.dfy ===
/** The parts of Python's string semantics that the Wavefront reader and
    writer depend on: `str.isspace`, `str.strip`, `str.split(sep)`,
    `str.split()`, `sep.join`, `int(...)`, `str(n)` for naturals,
    `os.path.dirname` and `os.path.splitext` (POSIX flavour).

    Floating-point text conversion is not modelled: `float(tok)` and
    `'{}'.format(x)` are supplied by a `Numerals` value.
 */
module PyText {
  import opened Wrappers

  /** Python's `str.isspace()` for one character. */
  predicate IsSpace(c: char) {
    || ('\U{9}' <= c <= '\U{D}')
    || ('\U{1C}' <= c <= '\U{20}')
    || c == '\U{85}' || c == '\U{A0}' || c == '\U{1680}'
    || ('\U{2000}' <= c <= '\U{200A}')
    || c == '\U{2028}' || c == '\U{2029}' || c == '\U{202F}' || c == '\U{205F}' || c == '\U{3000}'
  }

  /** A non-empty string without whitespace: what `str.split()` produces. */
  predicate IsWord(s: string) {
    |s| > 0 && forall i | 0 <= i < |s| :: !IsSpace(s[i])
  }

  /** Python's `sep.join(parts)`. */
  function Join(parts: seq<string>, sep: string): string
    decreases |parts|
  {
    if |parts| == 0 then ""
    else if |parts| == 1 then parts[0]
    else parts[0] + sep + Join(parts[1..], sep)
  }

  /** Python's `s.split(sep)` for a one-character separator: empty fields are kept. */
  function Split(s: string, sep: char): (r: seq<string>)
    ensures |r| >= 1
    ensures forall i | 0 <= i < |r| :: sep !in r[i]
    ensures Join(r, [sep]) == s
    decreases |s|
  {
    if |s| == 0 then [""]
    else
      var rest := Split(s[1..], sep);
      if s[0] == sep then
        assert ([""] + rest)[1..] == rest;
        [""] + rest
      else
        var r := [[s[0]] + rest[0]] + rest[1..];
        assert r[1..] == rest[1..];
        assert s == [s[0]] + s[1..];
        r
  }

  lemma {:induction false} SplitNoSep(p: string, sep: char)
    requires sep !in p
    ensures Split(p, sep) == [p]
    decreases |p|
  {
    if |p| > 0 {
      assert sep !in p[1..];
      SplitNoSep(p[1..], sep);
      assert [p[0]] + p[1..] == p;
    }
  }

  lemma {:induction false} SplitAfterField(p: string, sep: char, t: string)
    requires sep !in p
    ensures Split(p + [sep] + t, sep) == [p] + Split(t, sep)
    decreases |p|
  {
    var s := p + [sep] + t;
    if |p| == 0 {
      assert s[0] == sep && s[1..] == t;
    } else {
      assert s[0] == p[0] && s[1..] == p[1..] + [sep] + t;
      assert sep !in p[1..];
      SplitAfterField(p[1..], sep, t);
      assert [p[0]] + p[1..] == p;
    }
  }

  /** `Split` undoes `Join`: splitting the joined fields gives the fields back. */
  lemma {:induction false} SplitJoin(parts: seq<string>, sep: char)
    requires |parts| >= 1
    requires forall i | 0 <= i < |parts| :: sep !in parts[i]
    ensures Split(Join(parts, [sep]), sep) == parts
    decreases |parts|
  {
    if |parts| == 1 {
      SplitNoSep(parts[0], sep);
    } else {
      SplitJoin(parts[1..], sep);
      SplitAfterField(parts[0], sep, Join(parts[1..], [sep]));
      assert [parts[0]] + parts[1..] == parts;
    }
  }

  /** Length of the leading run of non-whitespace characters. */
  function WordLen(s: string): (n: nat)
    ensures n <= |s|
    ensures forall i | 0 <= i < n :: !IsSpace(s[i])
    ensures n < |s| ==> IsSpace(s[n])
    decreases |s|
  {
    if |s| == 0 || IsSpace(s[0]) then 0 else 1 + WordLen(s[1..])
  }

  /** Python's `s.split()`: the maximal runs of non-whitespace, in order. */
  function Words(s: string): (r: seq<string>)
    ensures forall i | 0 <= i < |r| :: IsWord(r[i])
    decreases |s|
  {
    if |s| == 0 then []
    else if IsSpace(s[0]) then Words(s[1..])
    else
      var n := WordLen(s);
      [s[..n]] + Words(s[n..])
  }

  /** True when every character of `s` is whitespace. */
  predicate AllSpace(s: string) {
    forall i | 0 <= i < |s| :: IsSpace(s[i])
  }

  lemma {:induction false} WordsOfSpace(s: string)
    requires AllSpace(s)
    ensures Words(s) == []
    decreases |s|
  {
    if |s| > 0 {
      WordsOfSpace(s[1..]);
    }
  }

  lemma {:induction false} WordLenOfWord(w: string, t: string)
    requires IsWord(w)
    requires |t| == 0 || IsSpace(t[0])
    ensures WordLen(w + t) == |w|
    decreases |w|
  {
    var s := w + t;
    if |w| > 1 {
      assert s[1..] == w[1..] + t;
      WordLenOfWord(w[1..], t);
    } else {
      assert s[1..] == t;
    }
  }

  lemma WordsAfterWord(w: string, t: string)
    requires IsWord(w)
    requires |t| == 0 || IsSpace(t[0])
    ensures Words(w + t) == [w] + Words(t)
  {
    WordLenOfWord(w, t);
    var s := w + t;
    assert s[..|w|] == w && s[|w|..] == t;
  }

  /** `Words` undoes joining words with single spaces, whatever whitespace ends the line. */
  lemma {:induction false} WordsOfJoin(ws: seq<string>, tail: string)
    requires forall i | 0 <= i < |ws| :: IsWord(ws[i])
    requires AllSpace(tail)
    ensures Words(Join(ws, " ") + tail) == ws
    decreases |ws|
  {
    if |ws| == 0 {
      assert Join(ws, " ") + tail == tail;
      WordsOfSpace(tail);
    } else if |ws| == 1 {
      WordsAfterWord(ws[0], tail);
      WordsOfSpace(tail);
    } else {
      var rest := Join(ws[1..], " ") + tail;
      assert Join(ws, " ") + tail == ws[0] + (" " + rest);
      WordsAfterWord(ws[0], " " + rest);
      assert (" " + rest)[1..] == rest;
      WordsOfJoin(ws[1..], tail);
      assert [ws[0]] + ws[1..] == ws;
    }
  }

  /** Python's `s.lstrip()`. */
  function LStrip(s: string): (r: string)
    ensures |r| <= |s| && r == s[|s| - |r|..]
    ensures AllSpace(s[..|s| - |r|])
    ensures |r| > 0 ==> !IsSpace(r[0])
    decreases |s|
  {
    if |s| > 0 && IsSpace(s[0]) then LStrip(s[1..]) else s
  }

  /** Python's `s.rstrip()`. */
  function RStrip(s: string): (r: string)
    ensures |r| <= |s| && r == s[..|r|]
    ensures AllSpace(s[|r|..])
    ensures |r| > 0 ==> !IsSpace(r[|r| - 1])
    decreases |s|
  {
    if |s| > 0 && IsSpace(s[|s| - 1]) then RStrip(s[..|s| - 1]) else s
  }

  /** Python's `s.strip()`, which `int()` and `float()` apply to their argument. */
  function Strip(s: string): string {
    RStrip(LStrip(s))
  }

  /** Stripping a word followed by whitespace gives the word back. */
  lemma StripWord(w: string, tail: string)
    requires IsWord(w)
    requires AllSpace(tail)
    ensures Strip(w + tail) == w
  {
    var s := w + tail;
    assert LStrip(s) == s;
    var r := RStrip(s);
    forall i | |r| <= i < |s|
      ensures IsSpace(s[i])
    {
      assert s[|r|..][i - |r|] == s[i];
    }
    assert !IsSpace(s[|w| - 1]);
    assert |r| <= |w|;
    assert r == s[..|w|] == w;
  }

  predicate IsDigit(c: char) {
    '0' <= c <= '9'
  }

  predicate AllDigits(s: string) {
    forall i | 0 <= i < |s| :: IsDigit(s[i])
  }

  function DigitValue(c: char): nat
    requires IsDigit(c)
  {
    (c as int) - ('0' as int)
  }

  /** The value of a string of decimal digits, most significant first. */
  function DigitsValue(s: string): nat
    requires AllDigits(s)
    decreases |s|
  {
    if |s| == 0 then 0 else 10 * DigitsValue(s[..|s| - 1]) + DigitValue(s[|s| - 1])
  }

  /** Python's `int(s)` in base 10: surrounding whitespace, an optional sign and at least one digit.
      `None` stands for the `ValueError` Python raises. */
  function ParseInt(s: string): Option<int> {
    var t := Strip(s);
    if |t| > 0 && (t[0] == '+' || t[0] == '-') then
      var d := t[1..];
      if |d| > 0 && AllDigits(d) then
        var v: int := DigitsValue(d);
        Some(if t[0] == '-' then -v else v)
      else None
    else if |t| > 0 && AllDigits(t) then Some(DigitsValue(t))
    else None
  }

  function DigitChar(d: nat): (c: char)
    requires d < 10
    ensures IsDigit(c) && DigitValue(c) == d
  {
    (('0' as int) + d) as char
  }

  /** Python's `str(n)` / `'{}'.format(n)` for a natural number. */
  function Decimal(n: nat): (r: string)
    ensures |r| > 0 && AllDigits(r)
    ensures DigitsValue(r) == n
    decreases n
  {
    if n < 10 then [DigitChar(n)]
    else
      var r := Decimal(n / 10) + [DigitChar(n % 10)];
      assert r[..|r| - 1] == Decimal(n / 10);
      r
  }

  lemma DigitsAreWord(s: string)
    requires |s| > 0 && AllDigits(s)
    ensures IsWord(s)
  {
  }

  /** `int()` reads back what `str()` writes for a natural number. */
  lemma ParseIntDecimal(n: nat, tail: string)
    requires AllSpace(tail)
    ensures ParseInt(Decimal(n) + tail) == Some(n)
  {
    var d := Decimal(n);
    DigitsAreWord(d);
    StripWord(d, tail);
  }

  /** Index of the last occurrence of `c` in `s`, or -1: Python's `s.rfind(c)`. */
  function RFind(s: string, c: char): (r: int)
    ensures -1 <= r < |s|
    ensures 0 <= r ==> s[r] == c
    ensures forall i | r < i < |s| :: s[i] != c
    decreases |s|
  {
    if |s| == 0 then -1
    else if s[|s| - 1] == c then |s| - 1
    else RFind(s[..|s| - 1], c)
  }

  /** Python's `s.rstrip(c)` for one character `c`. */
  function RStripChar(s: string, c: char): (r: string)
    ensures |r| <= |s| && r == s[..|r|]
    ensures forall i | |r| <= i < |s| :: s[i] == c
    ensures |r| > 0 ==> r[|r| - 1] != c
    decreases |s|
  {
    if |s| > 0 && s[|s| - 1] == c then RStripChar(s[..|s| - 1], c) else s
  }

  /** POSIX `os.path.dirname(p)`: everything before the last '/', with trailing
      slashes removed unless the head consists of slashes only. */
  function Dirname(p: string): (r: string)
    ensures |r| <= |p| && r == p[..|r|]
    ensures '/' !in p ==> r == ""
  {
    var i := RFind(p, '/') + 1;
    var head := p[..i];
    if |head| > 0 && exists k | 0 <= k < |head| :: head[k] != '/' then RStripChar(head, '/')
    else head
  }

  /** The first component of POSIX `os.path.splitext(p)`: `p` without its extension.
      The extension starts at the last '.' of the last path component, unless
      only dots precede it in that component. */
  function SplitExtRoot(p: string): (r: string)
    ensures |r| <= |p| && r == p[..|r|]
    ensures |r| < |p| ==> p[|r|] == '.' && '/' !in p[|r|..]
  {
    var sep := RFind(p, '/');
    var dot := RFind(p, '.');
    if dot > sep && exists k | sep + 1 <= k < dot :: p[k] != '.' then p[..dot] else p
  }

  /** Text conversion of floating-point numbers, which the model does not define:
      `show` is `'{}'.format(x)` and `parse` is `float(s)` on already-stripped text
      (`None` for the `ValueError`). */
  datatype Numerals = Numerals(show: real -> string, parse: string -> Option<real>)

  /** Python's `float(tok)`, which ignores surrounding whitespace. */
  function ParseFloat(c: Numerals, tok: string): Option<real> {
    c.parse(Strip(tok))
  }

  /** `x` is printed as one word that `float()` reads back as `x`. */
  predicate Reads(c: Numerals, x: real) {
    IsWord(c.show(x)) && c.parse(c.show(x)) == Some(x)
  }

  lemma ParseFloatShow(c: Numerals, x: real, tail: string)
    requires Reads(c, x)
    requires AllSpace(tail)
    ensures ParseFloat(c, c.show(x) + tail) == Some(x)
  {
    StripWord(c.show(x), tail);
  }
}

=== FILE: simple_shapes.dfy ===
/** `cube()`: a unit cube centred on the origin, built through the mesh builder.

    Eight corners, four texture coordinates shared by every side, and six quads, each
    preceded by the material named after its side. The function also returns one
    `Material` per side, built from a dictionary holding the name and a diffuse colour.
 */
module SimpleShapes {
  import opened Wrappers
  import opened Materials
  import opened TriangleOrder
  import opened Meshes

  const Lo := -0.5
  const Hi := 0.5

  const CubeVertices: seq<seq<real>> := [
    [Lo, Lo, Lo], [Hi, Lo, Lo], [Hi, Lo, Hi], [Lo, Lo, Hi],
    [Lo, Hi, Lo], [Hi, Hi, Lo], [Hi, Hi, Hi], [Lo, Hi, Hi]]

  const CubeTexcoords: seq<seq<real>> := [[0.0, 0.0], [1.0, 0.0], [1.0, 1.0], [0.0, 1.0]]

  const CubeFaces: seq<seq<int>> := [
    [0, 3, 2, 1], [4, 5, 6, 7], [0, 4, 7, 3], [1, 2, 6, 5], [2, 3, 7, 6], [0, 1, 5, 4]]

  const CubeSides: seq<string> := ["bottom", "top", "left", "right", "far", "near"]

  /** The texture index list passed with every face. */
  const CubeTc: seq<int> := [0, 1, 2, 3]

  /** The material dictionaries, in their own order: "near" comes before "far". */
  const CubeColors: seq<(string, seq<Scalar>)> := [
    ("bottom", Rgb(0.25, 0.50, 0.25)), ("top", Rgb(0.50, 1.00, 0.50)),
    ("left", Rgb(0.50, 0.25, 0.25)), ("right", Rgb(1.00, 0.50, 0.50)),
    ("near", Rgb(0.25, 0.25, 0.50)), ("far", Rgb(0.50, 0.50, 1.00))]

  /** `for v in vtx: m.add_vertex(v)`. */
  function AddVertices(m: Mesh, ps: seq<seq<real>>): (r: Result<Mesh>)
    ensures r.Ok? <==> forall i | 0 <= i < |ps| :: |ps[i]| >= 3
    ensures r.Ok? ==> r.value == m.(initVtx := r.value.initVtx)
    ensures r.Ok? ==> |r.value.initVtx| == |m.initVtx| + |ps| && r.value.initVtx[..|m.initVtx|] == m.initVtx
    ensures r.Ok? ==> forall i | 0 <= i < |ps| ::
      r.value.initVtx[|m.initVtx| + i] == Vec3(ps[i][0], ps[i][1], ps[i][2])
    decreases |ps|
  {
    if |ps| == 0 then Ok(m)
    else
      var added :- AddVertex(m, ps[0]);
      var r := AddVertices(added.0, ps[1..]);
      assert r.Ok? ==> forall i | 1 <= i < |ps| :: ps[1..][i - 1] == ps[i];
      r
  }

  /** `for t in tex: m.add_texcoord(t)`. */
  function AddTexcoords(m: Mesh, ts: seq<seq<real>>): (r: Result<Mesh>)
    ensures r.Ok? <==> forall i | 0 <= i < |ts| :: |ts[i]| >= 2
    ensures r.Ok? ==> r.value == m.(initTex := r.value.initTex)
    ensures r.Ok? ==> |r.value.initTex| == |m.initTex| + |ts| && r.value.initTex[..|m.initTex|] == m.initTex
    ensures r.Ok? ==> forall i | 0 <= i < |ts| :: r.value.initTex[|m.initTex| + i] == Vec2(ts[i][0], ts[i][1])
    decreases |ts|
  {
    if |ts| == 0 then Ok(m)
    else
      var added :- AddTexcoord(m, ts[0]);
      var r := AddTexcoords(added.0, ts[1..]);
      assert r.Ok? ==> forall i | 1 <= i < |ts| :: ts[1..][i - 1] == ts[i];
      r
  }

  /** Triangle `k` (0 or 1) of the fan of a quad. */
  function QuadTriangle(f: seq<int>, tc: seq<int>, k: int): Triangle
    requires |f| == 4 && (|tc| == 0 || |tc| >= 4) && 0 <= k < 2
  {
    var s := Slots(tc, 4);
    Triangle(Corner(f[0], s[0]), Corner(f[k + 1], s[k + 1]), Corner(f[k + 2], s[k + 2]))
  }

  /** `m1` is `m` with the quads `faces` added, each after interning its side's name:
      two triangles per quad, both tagged with an index naming that side, and nothing else
      changed except the material list, which only grows, and the current material. */
  predicate SidesAdded(m: Mesh, sides: seq<string>, faces: seq<seq<int>>, tc: seq<int>, m1: Mesh)
    requires |sides| == |faces| && (|tc| == 0 || |tc| >= 4)
    requires forall i | 0 <= i < |faces| :: |faces[i]| == 4
  {
    var k0 := |m.initTri|;
    && (|faces| == 0 ==> m1 == m)
    && m1 == m.(initTri := m1.initTri, mat := m1.mat, materials := m1.materials, initMat := m1.initMat)
    && |m1.initTri| == k0 + 2 * |faces| && m1.initTri[..k0] == m.initTri
    && |m1.mat| == |m.mat| + 2 * |faces| && m1.mat[..|m.mat|] == m.mat
    && |m.materials| <= |m1.materials| && m1.materials[..|m.materials|] == m.materials
    && QuadsTagged(m, sides, faces, tc, m1)
  }

  /** Every quad of `faces` was added to `m` as `QuadTagged` describes. */
  predicate QuadsTagged(m: Mesh, sides: seq<string>, faces: seq<seq<int>>, tc: seq<int>, m1: Mesh)
    requires |sides| == |faces| && (|tc| == 0 || |tc| >= 4)
    requires forall i | 0 <= i < |faces| :: |faces[i]| == 4
  {
    && |m1.initTri| == |m.initTri| + 2 * |faces| && |m1.mat| == |m.mat| + 2 * |faces|
    && forall i | 0 <= i < |faces| :: QuadTagged(m, sides, faces, tc, m1, i)
  }

  /** Quad `i` became triangles `2i` and `2i + 1` after those already in `m`, both tagged
      with an index naming side `i`. */
  predicate QuadTagged(m: Mesh, sides: seq<string>, faces: seq<seq<int>>, tc: seq<int>, m1: Mesh, i: int)
    requires |sides| == |faces| && (|tc| == 0 || |tc| >= 4)
    requires forall i | 0 <= i < |faces| :: |faces[i]| == 4
    requires |m1.initTri| == |m.initTri| + 2 * |faces| && |m1.mat| == |m.mat| + 2 * |faces|
    requires 0 <= i < |faces|
  {
    && m1.initTri[|m.initTri| + 2 * i] == QuadTriangle(faces[i], tc, 0)
    && m1.initTri[|m.initTri| + 2 * i + 1] == QuadTriangle(faces[i], tc, 1)
    && m1.mat[|m.mat| + 2 * i + 1] == m1.mat[|m.mat| + 2 * i]
    && 0 <= m1.mat[|m.mat| + 2 * i] < |m1.materials|
    && m1.materials[m1.mat[|m.mat| + 2 * i]] == sides[i]
  }

  /** Distinct new names are appended in order, and the last one is current. */
  predicate SidesInterned(m: Mesh, sides: seq<string>, m1: Mesh) {
    NoDup(sides) && (forall i | 0 <= i < |sides| :: sides[i] !in m.materials) ==>
      && m1.materials == m.materials + sides
      && (|sides| > 0 ==> m1.initMat == |m.materials| + |sides| - 1)
  }

  /** `for side, f in zip(mat, face): m.add_material(side); m.add_face(f, tc)`, for quads. */
  function AddSides(m: Mesh, sides: seq<string>, faces: seq<seq<int>>, tc: seq<int>): (r: Result<Mesh>)
    requires |sides| == |faces|
    requires forall i | 0 <= i < |faces| :: |faces[i]| == 4
    ensures r.Ok? <==> |faces| == 0 || (!m.frozen && (|tc| == 0 || |tc| >= 4))
    ensures r.Ok? && (|tc| == 0 || |tc| >= 4) ==> SidesAdded(m, sides, faces, tc, r.value)
    ensures r.Ok? ==> SidesInterned(m, sides, r.value)
    decreases |sides|
  {
    if |sides| == 0 then Ok(m)
    else
      var ma := AddMaterial(m, sides[0]).0;
      var added :- AddFace(ma, faces[0], tc, -1);
      var r := AddSides(added.0, sides[1..], faces[1..], tc);
      if r.Ok? then
        AddSidesCons(m, sides, faces, tc, added.0, r.value);
        r
      else r
  }

  /** One side, then the rest. */
  lemma AddSidesCons(m: Mesh, sides: seq<string>, faces: seq<seq<int>>, tc: seq<int>, mb: Mesh, m1: Mesh)
    requires |sides| == |faces| > 0 && (|tc| == 0 || |tc| >= 4)
    requires forall i | 0 <= i < |faces| :: |faces[i]| == 4
    requires AddFace(AddMaterial(m, sides[0]).0, faces[0], tc, -1) == Ok((mb, |mb.initTri|))
    requires SidesAdded(mb, sides[1..], faces[1..], tc, m1)
    requires SidesInterned(mb, sides[1..], m1)
    ensures SidesAdded(m, sides, faces, tc, m1)
    ensures SidesInterned(m, sides, m1)
  {
    AddSidesConsShape(m, sides, faces, tc, mb, m1);
    assert |sides| == 1 ==> m1 == mb;
    AddSidesConsTags(m, sides, faces, tc, mb, m1);
    AddSidesConsNames(m, sides, faces, tc, mb, m1);
  }

  lemma AddSidesConsShape(m: Mesh, sides: seq<string>, faces: seq<seq<int>>, tc: seq<int>, mb: Mesh, m1: Mesh)
    requires |sides| == |faces| > 0 && (|tc| == 0 || |tc| >= 4)
    requires forall i | 0 <= i < |faces| :: |faces[i]| == 4
    requires AddFace(AddMaterial(m, sides[0]).0, faces[0], tc, -1) == Ok((mb, |mb.initTri|))
    requires SidesAdded(mb, sides[1..], faces[1..], tc, m1)
    ensures m1 == m.(initTri := m1.initTri, mat := m1.mat, materials := m1.materials, initMat := m1.initMat)
    ensures |m1.initTri| == |m.initTri| + 2 * |faces| && m1.initTri[..|m.initTri|] == m.initTri
    ensures |m1.mat| == |m.mat| + 2 * |faces| && m1.mat[..|m.mat|] == m.mat
    ensures |m.materials| <= |m1.materials| && m1.materials[..|m.materials|] == m.materials
    ensures mb.initTri[..|m.initTri|] == m.initTri && mb.mat[..|m.mat|] == m.mat
    ensures mb.materials[..|m.materials|] == m.materials
  {
    assert mb.initTri[..|m.initTri|] == m.initTri;
    assert mb.mat[..|m.mat|] == m.mat;
    assert mb.materials[..|m.materials|] == m.materials;
    assert m1.initTri[..|mb.initTri|][..|m.initTri|] == m1.initTri[..|m.initTri|];
    assert m1.mat[..|mb.mat|][..|m.mat|] == m1.mat[..|m.mat|];
    assert m1.materials[..|mb.materials|][..|m.materials|] == m1.materials[..|m.materials|];
  }

  lemma AddSidesConsTags(m: Mesh, sides: seq<string>, faces: seq<seq<int>>, tc: seq<int>, mb: Mesh, m1: Mesh)
    requires |sides| == |faces| > 0 && (|tc| == 0 || |tc| >= 4)
    requires forall i | 0 <= i < |faces| :: |faces[i]| == 4
    requires AddFace(AddMaterial(m, sides[0]).0, faces[0], tc, -1) == Ok((mb, |mb.initTri|))
    requires SidesAdded(mb, sides[1..], faces[1..], tc, m1)
    ensures |m1.initTri| == |m.initTri| + 2 * |faces| && |m1.mat| == |m.mat| + 2 * |faces|
    ensures QuadsTagged(m, sides, faces, tc, m1)
  {
    FirstQuadTagged(m, sides, faces, tc, mb, m1);
    forall i | 0 < i < |faces| ensures QuadTagged(m, sides, faces, tc, m1, i) {
      LaterQuadTagged(m, sides, faces, tc, mb, m1, i);
    }
  }

  /** The first quad's triangles come straight from `add_face`, tagged with the material
      just interned, and survive the later sides unchanged. */
  lemma FirstQuadTagged(m: Mesh, sides: seq<string>, faces: seq<seq<int>>, tc: seq<int>, mb: Mesh, m1: Mesh)
    requires |sides| == |faces| > 0 && (|tc| == 0 || |tc| >= 4)
    requires forall i | 0 <= i < |faces| :: |faces[i]| == 4
    requires AddFace(AddMaterial(m, sides[0]).0, faces[0], tc, -1) == Ok((mb, |mb.initTri|))
    requires SidesAdded(mb, sides[1..], faces[1..], tc, m1)
    ensures |m1.initTri| == |m.initTri| + 2 * |faces| && |m1.mat| == |m.mat| + 2 * |faces|
    ensures QuadTagged(m, sides, faces, tc, m1, 0)
  {
    var ma := AddMaterial(m, sides[0]).0;
    var k0, t0 := |m.initTri|, |m.mat|;
    assert mb.initTri[k0] == QuadTriangle(faces[0], tc, 0);
    assert mb.initTri[k0 + 1] == QuadTriangle(faces[0], tc, 1);
    assert m1.initTri[k0] == m1.initTri[..|mb.initTri|][k0];
    assert m1.initTri[k0 + 1] == m1.initTri[..|mb.initTri|][k0 + 1];
    assert m1.mat[t0] == m1.mat[..|mb.mat|][t0] == ma.initMat;
    assert m1.mat[t0 + 1] == m1.mat[..|mb.mat|][t0 + 1] == ma.initMat;
    assert m1.materials[ma.initMat] == m1.materials[..|mb.materials|][ma.initMat];
  }

  /** Quad `i > 0` is quad `i - 1` of the rest, shifted by the first quad's two triangles. */
  lemma LaterQuadTagged(m: Mesh, sides: seq<string>, faces: seq<seq<int>>, tc: seq<int>, mb: Mesh, m1: Mesh,
                        i: int)
    requires |sides| == |faces| > 0 && (|tc| == 0 || |tc| >= 4)
    requires forall i | 0 <= i < |faces| :: |faces[i]| == 4
    requires AddFace(AddMaterial(m, sides[0]).0, faces[0], tc, -1) == Ok((mb, |mb.initTri|))
    requires SidesAdded(mb, sides[1..], faces[1..], tc, m1)
    requires 0 < i < |faces|
    ensures |m1.initTri| == |m.initTri| + 2 * |faces| && |m1.mat| == |m.mat| + 2 * |faces|
    ensures QuadTagged(m, sides, faces, tc, m1, i)
  {
    assert QuadTagged(mb, sides[1..], faces[1..], tc, m1, i - 1);
    assert faces[1..][i - 1] == faces[i] && sides[1..][i - 1] == sides[i];
    assert |mb.initTri| + 2 * (i - 1) == |m.initTri| + 2 * i;
    assert |mb.mat| + 2 * (i - 1) == |m.mat| + 2 * i;
  }

  lemma AddSidesConsNames(m: Mesh, sides: seq<string>, faces: seq<seq<int>>, tc: seq<int>, mb: Mesh, m1: Mesh)
    requires |sides| == |faces| > 0 && (|tc| == 0 || |tc| >= 4)
    requires forall i | 0 <= i < |faces| :: |faces[i]| == 4
    requires AddFace(AddMaterial(m, sides[0]).0, faces[0], tc, -1) == Ok((mb, |mb.initTri|))
    requires SidesInterned(mb, sides[1..], m1)
    requires |sides| == 1 ==> m1 == mb
    ensures SidesInterned(m, sides, m1)
  {
    var ma := AddMaterial(m, sides[0]).0;
    if NoDup(sides) && (forall i | 0 <= i < |sides| :: sides[i] !in m.materials) {
      assert ma.materials == m.materials + [sides[0]];
      forall i | 0 <= i < |sides[1..]| ensures sides[1..][i] !in mb.materials {
        assert sides[1..][i] == sides[i + 1] != sides[0];
      }
      assert m.materials + [sides[0]] + sides[1..] == m.materials + sides;
    }
  }

  /** The building part of `cube()` for given corners, texture coordinates, side names
      and quads. */
  function BuildShape(vs: seq<seq<real>>, ts: seq<seq<real>>, sides: seq<string>, faces: seq<seq<int>>,
                      tc: seq<int>): (r: Result<Mesh>)
    requires |sides| == |faces|
    requires forall i | 0 <= i < |faces| :: |faces[i]| == 4
  {
    var m1 :- AddVertices(Empty(), vs);
    var m2 :- AddTexcoords(m1, ts);
    AddSides(m2, sides, faces, tc)
  }

  /** The mesh of `cube()` before `finalize`. */
  function CubeMesh(): Result<Mesh> {
    BuildShape(CubeVertices, CubeTexcoords, CubeSides, CubeFaces, CubeTc)
  }

  /** `Material(mdict={'name': name, 'diffuse': colour})` for every dictionary. */
  function CubeMaterials(colors: seq<(string, seq<Scalar>)>): (r: Result<seq<Material>>)
    ensures r.Ok? <==> forall i | 0 <= i < |colors| :: |colors[i].1| == 3
    ensures r.Ok? ==> |r.value| == |colors| && forall i | 0 <= i < |colors| ::
      r.value[i] == Defaults(One(Text(colors[i].0))).(diffuse := colors[i].1)
    decreases |colors|
  {
    if |colors| == 0 then Ok([])
    else
      var d := map["name" := One(Text(colors[0].0)), "diffuse" := List(colors[0].1)];
      var first :- New(NoneValue, Some(d));
      var rest :- CubeMaterials(colors[1..]);
      Ok([first] + rest)
  }

  /** `cube()`: the finalized mesh and its materials. */
  function Cube(normal: NormalRule): Result<(Mesh, seq<Material>)> {
    var m :- CubeMesh();
    var m1 :- FinalizeAsWritten(m, normal);
    var ms :- CubeMaterials(CubeColors);
    Ok((m1, ms))
  }

  // ---------------------------------------------------------------------------
  // The scenario

  /** A point whose coordinates are all `l` or `h`: a corner of the cube. */
  predicate OnCubeCorner(p: Vec3) {
    p.x in {Lo, Hi} && p.y in {Lo, Hi} && p.z in {Lo, Hi}
  }

  /** A texture coordinate at a corner of the unit square. */
  predicate OnSquareCorner(t: Vec2) {
    t.u in {0.0, 1.0} && t.v in {0.0, 1.0}
  }

  /** The corner and texture loops succeed on the fresh mesh and change nothing else. */
  lemma CubePointsAdded()
    ensures AddVertices(Empty(), CubeVertices).Ok?
    ensures var m1 := AddVertices(Empty(), CubeVertices).value;
      && |m1.initVtx| == 8 && m1 == Empty().(initVtx := m1.initVtx)
      && (forall k | 0 <= k < |m1.initVtx| :: OnCubeCorner(m1.initVtx[k]))
      && AddTexcoords(m1, CubeTexcoords).Ok?
      && var m2 := AddTexcoords(m1, CubeTexcoords).value;
         && |m2.initTex| == 4 && m2 == m1.(initTex := m2.initTex)
         && forall k | 0 <= k < |m2.initTex| :: OnSquareCorner(m2.initTex[k])
  {
    assert forall i | 0 <= i < |CubeVertices| :: |CubeVertices[i]| >= 3;
    assert forall i | 0 <= i < |CubeTexcoords| :: |CubeTexcoords[i]| >= 2;
    var m1 := AddVertices(Empty(), CubeVertices).value;
    forall k | 0 <= k < 8 ensures OnCubeCorner(m1.initVtx[k]) {
      CubeCornerCoordinates(k);
    }
    var m2 := AddTexcoords(m1, CubeTexcoords).value;
    forall k | 0 <= k < 4 ensures OnSquareCorner(m2.initTex[k]) {
      SquareCornerCoordinates(k);
    }
  }

  lemma CubeCornerCoordinates(k: int)
    requires 0 <= k < |CubeVertices|
    ensures |CubeVertices[k]| == 3
    ensures OnCubeCorner(Vec3(CubeVertices[k][0], CubeVertices[k][1], CubeVertices[k][2]))
  {
    if k < 4 {
      if k < 2 {
        if k == 0 {} else {}
      } else {
        if k == 2 {} else {}
      }
    } else {
      if k < 6 {
        if k == 4 {} else {}
      } else {
        if k == 6 {} else {}
      }
    }
  }

  lemma SquareCornerCoordinates(k: int)
    requires 0 <= k < |CubeTexcoords|
    ensures |CubeTexcoords[k]| == 2
    ensures OnSquareCorner(Vec2(CubeTexcoords[k][0], CubeTexcoords[k][1]))
  {
    if k < 2 {
      if k == 0 {} else {}
    } else {
      if k == 2 {} else {}
    }
  }

  /** Every corner index of every side names one of the eight corners, and every texture
      index one of the four texture coordinates. */
  lemma CubeFacesInRange()
    ensures forall i, j | 0 <= i < |CubeFaces| && 0 <= j < 4 :: |CubeFaces[i]| == 4 && 0 <= CubeFaces[i][j] < 8
    ensures |CubeTc| == 4 && forall j | 0 <= j < 4 :: 0 <= CubeTc[j] < 4
  {
    forall j | 0 <= j < 4 ensures 0 <= CubeTc[j] < 4 {
      if j < 2 {
        if j == 0 {} else {}
      } else {
        if j == 2 {} else {}
      }
    }
    forall i, j | 0 <= i < |CubeFaces| && 0 <= j < 4 ensures |CubeFaces[i]| == 4 && 0 <= CubeFaces[i][j] < 8 {
      if i < 3 {
        if i == 0 {} else if i == 1 {} else {}
      } else {
        if i == 3 {} else if i == 4 {} else {}
      }
    }
  }

  /** Distinct side names added to a mesh with no triangles and no materials yet: the
      names become the material list in order, and triangles `2i` and `2i + 1` are tagged
      `i`, the index of side `i`. */
  lemma SidesInOrder(m0: Mesh, sides: seq<string>, faces: seq<seq<int>>, tc: seq<int>)
    requires |sides| == |faces| > 0 && NoDup(sides)
    requires forall i | 0 <= i < |faces| :: |faces[i]| == 4
    requires |tc| == 0 || |tc| >= 4
    requires m0.initTri == [] && m0.mat == [] && m0.materials == [] && !m0.frozen
    ensures AddSides(m0, sides, faces, tc).Ok?
    ensures var m := AddSides(m0, sides, faces, tc).value;
      && m == m0.(initTri := m.initTri, mat := m.mat, materials := m.materials, initMat := m.initMat)
      && |m.initTri| == 2 * |faces| && m.materials == sides && m.initMat == |sides| - 1
      && |m.mat| == 2 * |faces| && forall j | 0 <= j < |m.mat| :: m.mat[j] == j / 2
  {
    var m := AddSides(m0, sides, faces, tc).value;
    assert SidesAdded(m0, sides, faces, tc, m);
    TagsInOrder(m0, sides, faces, tc, m);
  }

  /** When the material list is exactly the distinct side names, the tag naming side `i`
      is `i` itself. */
  lemma TagsInOrder(m0: Mesh, sides: seq<string>, faces: seq<seq<int>>, tc: seq<int>, m: Mesh)
    requires |sides| == |faces| && (|tc| == 0 || |tc| >= 4)
    requires forall i | 0 <= i < |faces| :: |faces[i]| == 4
    requires QuadsTagged(m0, sides, faces, tc, m)
    requires m0.mat == [] && m.materials == sides && NoDup(sides)
    ensures forall j | 0 <= j < |m.mat| :: m.mat[j] == j / 2
  {
    forall j | 0 <= j < |m.mat| ensures m.mat[j] == j / 2 {
      var i := j / 2;
      assert j == 2 * i || j == 2 * i + 1;
      assert QuadTagged(m0, sides, faces, tc, m, i);
      NoDupIndex(sides, m.mat[2 * i], i);
    }
  }

  /** When every corner index names a stored position and every texture index a stored
      texture coordinate, every triangle the side loop adds can be looked up. */
  lemma QuadsResolve(m0: Mesh, sides: seq<string>, faces: seq<seq<int>>, tc: seq<int>, m: Mesh,
                     vtx: seq<Vec3>, tex: seq<Vec2>)
    requires |sides| == |faces| && |tc| >= 4
    requires forall i | 0 <= i < |faces| :: |faces[i]| == 4
    requires QuadsTagged(m0, sides, faces, tc, m) && m0.initTri == []
    requires forall i, j | 0 <= i < |faces| && 0 <= j < 4 :: 0 <= faces[i][j] < |vtx|
    requires forall j | 0 <= j < 4 :: 0 <= tc[j] < |tex|
    ensures forall t | 0 <= t < |m.initTri| :: Resolves(vtx, tex, m.initTri[t], true)
    ensures forall t | 0 <= t < |m.initTri| :: Resolves(vtx, tex, m.initTri[t], false)
  {
    forall t | 0 <= t < |m.initTri|
      ensures Resolves(vtx, tex, m.initTri[t], true) && Resolves(vtx, tex, m.initTri[t], false)
    {
      var i := t / 2;
      assert t == 2 * i || t == 2 * i + 1;
      assert QuadTagged(m0, sides, faces, tc, m, i);
      var s := Slots(tc, 4);
      assert s[0] == Some(tc[0]) && s[1] == Some(tc[1]) && s[2] == Some(tc[2]) && s[3] == Some(tc[3]);
      assert 0 <= faces[i][0] < |vtx| && 0 <= faces[i][1] < |vtx|;
      assert 0 <= faces[i][2] < |vtx| && 0 <= faces[i][3] < |vtx|;
    }
  }

  /** In a list without repeats, equal entries sit at the same index. */
  lemma NoDupIndex<T>(s: seq<T>, a: int, b: int)
    requires NoDup(s) && 0 <= a < |s| && 0 <= b < |s| && s[a] == s[b]
    ensures a == b
  {
  }

  /** The side loop of `cube()`. */
  lemma CubeSidesAdded(m2: Mesh)
    requires m2.initTri == [] && m2.mat == [] && m2.materials == [] && !m2.frozen
    requires |m2.initVtx| == 8 && |m2.initTex| == 4
    ensures AddSides(m2, CubeSides, CubeFaces, CubeTc).Ok?
    ensures var m := AddSides(m2, CubeSides, CubeFaces, CubeTc).value;
      && m == m2.(initTri := m.initTri, mat := m.mat, materials := m.materials, initMat := m.initMat)
      && |m.initTri| == 12 && m.materials == CubeSides && m.initMat == 5
      && m.mat == [0, 0, 1, 1, 2, 2, 3, 3, 4, 4, 5, 5]
      && forall t | 0 <= t < |m.initTri| :: Resolves(m.initVtx, m.initTex, m.initTri[t], true)
  {
    assert NoDup(CubeSides);
    SidesInOrder(m2, CubeSides, CubeFaces, CubeTc);
    var m := AddSides(m2, CubeSides, CubeFaces, CubeTc).value;
    CubeTags(m.mat);
    assert SidesAdded(m2, CubeSides, CubeFaces, CubeTc, m);
    CubeFacesInRange();
    QuadsResolve(m2, CubeSides, CubeFaces, CubeTc, m, m2.initVtx, m2.initTex);
  }

  /** Six sides, two triangles each. */
  lemma CubeTags(tags: seq<int>)
    requires |tags| == 12 && forall j | 0 <= j < |tags| :: tags[j] == j / 2
    ensures tags == [0, 0, 1, 1, 2, 2, 3, 3, 4, 4, 5, 5]
  {
  }

  /** Before `finalize`: 8 vertices, 4 texture coordinates, 12 triangles, and each pair of
      triangles tagged with its side, in the order the sides were interned. */
  lemma CubeBuilt()
    ensures CubeMesh().Ok?
    ensures var m := CubeMesh().value;
      && |m.initVtx| == 8 && |m.initTex| == 4 && |m.initTri| == 12
      && m.materials == CubeSides && m.initMat == 5
      && m.mat == [0, 0, 1, 1, 2, 2, 3, 3, 4, 4, 5, 5]
      && !m.frozen && m.output.None?
      && (forall k | 0 <= k < |m.initVtx| :: OnCubeCorner(m.initVtx[k]))
      && (forall k | 0 <= k < |m.initTex| :: OnSquareCorner(m.initTex[k]))
      && forall t | 0 <= t < |m.initTri| :: Resolves(m.initVtx, m.initTex, m.initTri[t], true)
  {
    CubePointsAdded();
    var m1 := AddVertices(Empty(), CubeVertices).value;
    var m2 := AddTexcoords(m1, CubeTexcoords).value;
    CubeSidesAdded(m2);
  }

  /** `finalize` emits only positions and texture coordinates the mesh holds. */
  lemma FinalizedPoints(m: Mesh, normal: NormalRule)
    requires Finalize(m, normal).Ok?
    requires forall k | 0 <= k < |m.initVtx| :: OnCubeCorner(m.initVtx[k])
    requires forall k | 0 <= k < |m.initTex| :: OnSquareCorner(m.initTex[k])
    ensures var o := Finalize(m, normal).value.output.value;
      && (forall i | 0 <= i < |o.vtx| :: OnCubeCorner(o.vtx[i]))
      && (forall i | 0 <= i < |o.tex| :: OnSquareCorner(o.tex[i]))
  {
    var o := Finalize(m, normal).value.output.value;
    forall i | 0 <= i < |o.vtx|
      ensures OnCubeCorner(o.vtx[i]) && OnSquareCorner(o.tex[i])
    {
      var t, k := o.tri[i / 3], i % 3;
      assert o.vtx[i] == m.initVtx[Slot(m.initVtx, CornerAt(t, k).vertex)];
      var slot := CornerAt(t, k).texcoord;
      if slot.Some? {
        assert o.tex[i] == m.initTex[Slot(m.initTex, slot.value)];
      }
    }
  }

  /** The corrected `finalize` succeeds on a mesh with one tag per triangle, at least one
      triangle, and every lookup in range; when every corner also has a texture slot, the
      `finalize` as written gives the same mesh. */
  lemma FinalizeSucceeds(m: Mesh, normal: NormalRule)
    requires |m.mat| == |m.initTri| > 0
    requires forall t | 0 <= t < |m.initTri| :: Resolves(m.initVtx, m.initTex, m.initTri[t], false)
    ensures Finalize(m, normal).Ok?
    ensures (forall t | 0 <= t < |m.initTri| :: Resolves(m.initVtx, m.initTex, m.initTri[t], true))
            ==> FinalizeAsWritten(m, normal) == Finalize(m, normal)
  {
    var z := Zip(m.mat, m.initTri);
    assert forall t | 0 <= t < |z| :: z[t].tri == m.initTri[t];
    if forall t | 0 <= t < |m.initTri| :: Resolves(m.initVtx, m.initTex, m.initTri[t], true) {
      FinalizeReadingsAgree(m, normal);
    }
  }

  /** The six dictionaries of `cube()` each give a material with that name and colour. */
  lemma CubeMaterialsBuilt()
    ensures CubeMaterials(CubeColors).Ok?
    ensures var ms := CubeMaterials(CubeColors).value;
      |ms| == 6 && forall i | 0 <= i < 6 :: ms[i].name == One(Text(CubeColors[i].0))
  {
    assert forall i | 0 <= i < |CubeColors| :: |CubeColors[i].1| == 3;
  }

  /** A finalized cube: 12 triangles, 36 output corners, each at a corner of the cube
      with a texture coordinate at a corner of the unit square, the six side names as
      materials, and tags that never decrease. */
  predicate FinalCube(m1: Mesh) {
    && m1.frozen && m1.output.Some? && m1.materials == CubeSides
    && |m1.initTri| == |m1.mat| == 12
    && (forall i, j | 0 <= i <= j < |m1.mat| :: m1.mat[i] <= m1.mat[j])
    && var o := m1.output.value;
    && |o.vtx| == |o.tex| == |o.nor| == 36
    && (forall i | 0 <= i < |o.vtx| :: OnCubeCorner(o.vtx[i]))
    && (forall i | 0 <= i < |o.tex| :: OnSquareCorner(o.tex[i]))
  }

  /** `finalize` on any mesh shaped like the built cube gives a finalized cube. */
  lemma FinalizeCubeShaped(m: Mesh, normal: NormalRule)
    requires |m.initTri| == |m.mat| == 12 && m.materials == CubeSides
    requires forall k | 0 <= k < |m.initVtx| :: OnCubeCorner(m.initVtx[k])
    requires forall k | 0 <= k < |m.initTex| :: OnSquareCorner(m.initTex[k])
    requires forall t | 0 <= t < |m.initTri| :: Resolves(m.initVtx, m.initTex, m.initTri[t], false)
    ensures Finalize(m, normal).Ok? && FinalCube(Finalize(m, normal).value)
    ensures (forall t | 0 <= t < |m.initTri| :: Resolves(m.initVtx, m.initTex, m.initTri[t], true))
            ==> FinalizeAsWritten(m, normal) == Finalize(m, normal)
  {
    FinalizeSucceeds(m, normal);
    FinalizedPoints(m, normal);
    var m1 := Finalize(m, normal).value;
    forall i, j | 0 <= i <= j < |m1.mat| ensures m1.mat[i] <= m1.mat[j] {
      FinalizeTagsNonDecreasing(m, normal, false, i, j);
    }
  }

  /** `cube()` returns a finalized cube and six `Material`s named after its sides. */
  lemma CubeFinalized(normal: NormalRule)
    ensures Cube(normal).Ok?
    ensures var (m1, ms) := Cube(normal).value;
      && FinalCube(m1)
      && |ms| == 6 && forall i | 0 <= i < 6 :: ms[i].name == One(Text(CubeColors[i].0))
  {
    CubeBuilt();
    var m := CubeMesh().value;
    forall t | 0 <= t < |m.initTri| ensures Resolves(m.initVtx, m.initTex, m.initTri[t], false) {
      ResolvesCorrected(m.initVtx, m.initTex, m.initTri[t]);
    }
    FinalizeCubeShaped(m, normal);
    CubeMaterialsBuilt();
    CubeSteps(normal);
  }

  /** `cube()` returns what its three steps return once all three succeed. */
  lemma CubeSteps(normal: NormalRule)
    requires CubeMesh().Ok? && FinalizeAsWritten(CubeMesh().value, normal).Ok? && CubeMaterials(CubeColors).Ok?
    ensures Cube(normal) == Ok((FinalizeAsWritten(CubeMesh().value, normal).value, CubeMaterials(CubeColors).value))
  {
  }

  /** The mesh interns "far" before "near", but the returned materials list "near" first:
      the two lists agree position by position except at those two sides, so a material
      is found by its name, not by the mesh's tag. */
  lemma CubeMaterialOrder(normal: NormalRule)
    ensures Cube(normal).Ok?
    ensures var (m1, ms) := Cube(normal).value;
      && |ms| == |m1.materials| == 6
      && (forall i | 0 <= i < 4 :: ms[i].name == One(Text(m1.materials[i])))
      && ms[4].name == One(Text(m1.materials[5])) && ms[5].name == One(Text(m1.materials[4]))
  {
    CubeFinalized(normal);
    CubeColorNames();
  }

  lemma CubeColorNames()
    ensures forall i | 0 <= i < 4 :: CubeColors[i].0 == CubeSides[i]
    ensures CubeColors[4].0 == CubeSides[5] && CubeColors[5].0 == CubeSides[4]
  {
  }
}

=== FILE: transform.dfy ===
/** 4x4 homogeneous transforms in the style of the legacy OpenGL matrix calls.

    Matrices are row-major and act on column vectors, as in the Python class.
    A chained call `t.translate(...)` PRE-multiplies: it returns `Op * t.M`,
    so a chain read left to right is the matrix product read right to left.
    Transforms are immutable values here, so "returns a new transform and
    leaves `self` unchanged" and "`matrix()` returns a copy" hold by construction.
 */
module Transforms {
  import opened Wrappers

  datatype Vec4 = Vec4(x: real, y: real, z: real, w: real) {
    function AsSeq(): seq<real> {
      [x, y, z, w]
    }
  }

  /** A 4x4 matrix given by its rows. */
  datatype Mat4 = Mat4(r0: Vec4, r1: Vec4, r2: Vec4, r3: Vec4)

  function Dot(a: Vec4, b: Vec4): real {
    a.x * b.x + a.y * b.y + a.z * b.z + a.w * b.w
  }

  function Col0(m: Mat4): Vec4 { Vec4(m.r0.x, m.r1.x, m.r2.x, m.r3.x) }
  function Col1(m: Mat4): Vec4 { Vec4(m.r0.y, m.r1.y, m.r2.y, m.r3.y) }
  function Col2(m: Mat4): Vec4 { Vec4(m.r0.z, m.r1.z, m.r2.z, m.r3.z) }
  function Col3(m: Mat4): Vec4 { Vec4(m.r0.w, m.r1.w, m.r2.w, m.r3.w) }

  /** `numpy.dot(M, v)` for a column vector `v`. */
  function Apply(m: Mat4, v: Vec4): Vec4 {
    Vec4(Dot(m.r0, v), Dot(m.r1, v), Dot(m.r2, v), Dot(m.r3, v))
  }

  /** Row vector times matrix: one row of a product. */
  function RowTimes(v: Vec4, m: Mat4): Vec4 {
    Vec4(Dot(v, Col0(m)), Dot(v, Col1(m)), Dot(v, Col2(m)), Dot(v, Col3(m)))
  }

  /** `numpy.dot(A, B)` for 4x4 matrices. */
  function Mul(a: Mat4, b: Mat4): Mat4 {
    Mat4(RowTimes(a.r0, b), RowTimes(a.r1, b), RowTimes(a.r2, b), RowTimes(a.r3, b))
  }

  /** `numpy.eye(4)`. */
  function Identity(): Mat4 {
    Mat4(Vec4(1.0, 0.0, 0.0, 0.0), Vec4(0.0, 1.0, 0.0, 0.0),
         Vec4(0.0, 0.0, 1.0, 0.0), Vec4(0.0, 0.0, 0.0, 1.0))
  }

  lemma MulIdentity(m: Mat4)
    ensures Mul(Identity(), m) == m
    ensures Mul(m, Identity()) == m
  {
  }

  lemma ApplyIdentity(v: Vec4)
    ensures Apply(Identity(), v) == v
  {
  }

  /** The sixteen products v_i * b_ij * u_j summed over all rows i and columns j. */
  function BilinearSum(v: Vec4, b: Mat4, u: Vec4): real {
    v.x * b.r0.x * u.x + v.y * b.r1.x * u.x + v.z * b.r2.x * u.x + v.w * b.r3.x * u.x
    + v.x * b.r0.y * u.y + v.y * b.r1.y * u.y + v.z * b.r2.y * u.y + v.w * b.r3.y * u.y
    + v.x * b.r0.z * u.z + v.y * b.r1.z * u.z + v.z * b.r2.z * u.z + v.w * b.r3.z * u.z
    + v.x * b.r0.w * u.w + v.y * b.r1.w * u.w + v.z * b.r2.w * u.w + v.w * b.r3.w * u.w
  }

  lemma BilinearLeft(v: Vec4, b: Mat4, u: Vec4)
    ensures Dot(RowTimes(v, b), u) == BilinearSum(v, b, u)
  {
    var p := RowTimes(v, b);
    assert p.x * u.x == v.x * b.r0.x * u.x + v.y * b.r1.x * u.x + v.z * b.r2.x * u.x + v.w * b.r3.x * u.x;
    assert p.y * u.y == v.x * b.r0.y * u.y + v.y * b.r1.y * u.y + v.z * b.r2.y * u.y + v.w * b.r3.y * u.y;
    assert p.z * u.z == v.x * b.r0.z * u.z + v.y * b.r1.z * u.z + v.z * b.r2.z * u.z + v.w * b.r3.z * u.z;
    assert p.w * u.w == v.x * b.r0.w * u.w + v.y * b.r1.w * u.w + v.z * b.r2.w * u.w + v.w * b.r3.w * u.w;
  }

  lemma BilinearRight(v: Vec4, b: Mat4, u: Vec4)
    ensures Dot(v, Apply(b, u)) == BilinearSum(v, b, u)
  {
    var q := Apply(b, u);
    assert v.x * q.x == v.x * b.r0.x * u.x + v.x * b.r0.y * u.y + v.x * b.r0.z * u.z + v.x * b.r0.w * u.w;
    assert v.y * q.y == v.y * b.r1.x * u.x + v.y * b.r1.y * u.y + v.y * b.r1.z * u.z + v.y * b.r1.w * u.w;
    assert v.z * q.z == v.z * b.r2.x * u.x + v.z * b.r2.y * u.y + v.z * b.r2.z * u.z + v.z * b.r2.w * u.w;
    assert v.w * q.w == v.w * b.r3.x * u.x + v.w * b.r3.y * u.y + v.w * b.r3.z * u.z + v.w * b.r3.w * u.w;
  }

  /** The one bilinear identity behind associativity: (v B) . u == v . (B u). */
  lemma Bilinear(v: Vec4, b: Mat4, u: Vec4)
    ensures Dot(RowTimes(v, b), u) == Dot(v, Apply(b, u))
  {
    BilinearLeft(v, b, u);
    BilinearRight(v, b, u);
  }

  lemma RowTimesAssoc(v: Vec4, b: Mat4, c: Mat4)
    ensures RowTimes(RowTimes(v, b), c) == RowTimes(v, Mul(b, c))
  {
    Bilinear(v, b, Col0(c));
    Bilinear(v, b, Col1(c));
    Bilinear(v, b, Col2(c));
    Bilinear(v, b, Col3(c));
    assert Col0(Mul(b, c)) == Apply(b, Col0(c));
    assert Col1(Mul(b, c)) == Apply(b, Col1(c));
    assert Col2(Mul(b, c)) == Apply(b, Col2(c));
    assert Col3(Mul(b, c)) == Apply(b, Col3(c));
  }

  /** Matrix multiplication is associative. */
  lemma MulAssoc(a: Mat4, b: Mat4, c: Mat4)
    ensures Mul(Mul(a, b), c) == Mul(a, Mul(b, c))
  {
    RowTimesAssoc(a.r0, b, c);
    RowTimesAssoc(a.r1, b, c);
    RowTimesAssoc(a.r2, b, c);
    RowTimesAssoc(a.r3, b, c);
  }

  /** Applying a product applies the right factor first. */
  lemma ApplyMul(a: Mat4, b: Mat4, v: Vec4)
    ensures Apply(Mul(a, b), v) == Apply(a, Apply(b, v))
  {
    Bilinear(a.r0, b, v);
    Bilinear(a.r1, b, v);
    Bilinear(a.r2, b, v);
    Bilinear(a.r3, b, v);
  }

  datatype Transform = Transform(M: Mat4)

  /** What `Transform(T)` may be given. */
  datatype InitArg = NoArg | OfTransform(t: Transform) | OfArray(a: Mat4) | OfOther

  const InitMsg := "Expected a transform or 4x4 numpy.ndarray"

  /** `Transform(T)`: the identity by default, a copy of another transform or of a
      4x4 array, and a `ValueError` for anything else. */
  function New(arg: InitArg): (r: Result<Transform>)
    ensures r.Err? <==> arg.OfOther?
    ensures r.Err? ==> r.error == ValueError(InitMsg)
    ensures arg.NoArg? ==> r.Ok? && forall v :: Apply(r.value.M, v) == v
    ensures arg.OfTransform? ==> r == Ok(arg.t)
  {
    match arg
    case NoArg =>
      assert forall v :: Apply(Identity(), v) == v by {
        forall v { ApplyIdentity(v); }
      }
      Ok(Transform(Identity()))
    case OfTransform(t) => Ok(t)
    case OfArray(a) => Ok(Transform(a))
    case OfOther => Err(ValueError(InitMsg))
  }

  /** `Transform()`. */
  function Default(): Transform {
    Transform(Identity())
  }

  /** `t.matrix()`: rebuilding a transform from the returned matrix gives `t` back. */
  function Matrix(t: Transform): (m: Mat4)
    ensures New(OfArray(m)) == Ok(t)
  {
    t.M
  }

  /** `a * b` for two transforms: `Transform(numpy.dot(a.M, b.M))`. */
  function Times(a: Transform, b: Transform): Transform {
    Transform(Mul(a.M, b.M))
  }

  /** The step shared by every chained call: `Transform(numpy.dot(op, self.M))`. */
  function Then(t: Transform, op: Mat4): Transform {
    Transform(Mul(op, t.M))
  }

  /** `a * b` applies `b` first and `a` after it. */
  lemma TimesApplies(a: Transform, b: Transform, v: Vec4)
    ensures Apply(Times(a, b).M, v) == Apply(a.M, Apply(b.M, v))
  {
    ApplyMul(a.M, b.M, v);
  }

  /** A chained call applies `self` first and the new operation after it. */
  lemma ThenApplies(t: Transform, op: Mat4, v: Vec4)
    ensures Apply(Then(t, op).M, v) == Apply(op, Apply(t.M, v))
  {
    ApplyMul(op, t.M, v);
  }

  /** A chain read left to right equals the product of the single steps read right to left:
      `t.A().B() == B * A * t`. */
  lemma ChainIsProductReversed(t: Transform, a: Mat4, b: Mat4)
    ensures Then(Then(t, a), b) == Times(Times(Transform(b), Transform(a)), t)
  {
    MulAssoc(b, a, t.M);
  }

  /** A chain started from the identity: `Transform().A().B() == Transform().B() * Transform().A()`. */
  lemma ChainFromDefault(a: Mat4, b: Mat4)
    ensures Then(Then(Default(), a), b) == Times(Then(Default(), b), Then(Default(), a))
  {
    MulIdentity(a);
    MulIdentity(b);
  }

  function TranslationMatrix(x: real, y: real, z: real): Mat4 {
    Mat4(Vec4(1.0, 0.0, 0.0, x), Vec4(0.0, 1.0, 0.0, y),
         Vec4(0.0, 0.0, 1.0, z), Vec4(0.0, 0.0, 0.0, 1.0))
  }

  function ScaleMatrix(x: real, y: real, z: real): Mat4 {
    Mat4(Vec4(x, 0.0, 0.0, 0.0), Vec4(0.0, y, 0.0, 0.0),
         Vec4(0.0, 0.0, z, 0.0), Vec4(0.0, 0.0, 0.0, 1.0))
  }

  /** `t.translate(x, y, z)`. */
  function Translate(t: Transform, x: real, y: real, z: real): Transform {
    Then(t, TranslationMatrix(x, y, z))
  }

  /** `t.scale(x, y, z)`. */
  function Scale(t: Transform, x: real, y: real, z: real): Transform {
    Then(t, ScaleMatrix(x, y, z))
  }

  /** After `t`, `translate` moves points by (x, y, z); vectors (w = 0) do not move. */
  lemma TranslateMoves(t: Transform, x: real, y: real, z: real, v: Vec4)
    ensures var p := Apply(t.M, v);
      Apply(Translate(t, x, y, z).M, v) == Vec4(p.x + x * p.w, p.y + y * p.w, p.z + z * p.w, p.w)
  {
    ThenApplies(t, TranslationMatrix(x, y, z), v);
  }

  /** After `t`, `scale` stretches each axis by its own factor. */
  lemma ScaleStretches(t: Transform, x: real, y: real, z: real, v: Vec4)
    ensures var p := Apply(t.M, v);
      Apply(Scale(t, x, y, z).M, v) == Vec4(x * p.x, y * p.y, z * p.z, p.w)
  {
    ThenApplies(t, ScaleMatrix(x, y, z), v);
  }

  /** Two chained translations are one translation by the sum. */
  lemma TranslateTwice(t: Transform, a: Vec4, b: Vec4)
    ensures Translate(Translate(t, a.x, a.y, a.z), b.x, b.y, b.z)
         == Translate(t, a.x + b.x, a.y + b.y, a.z + b.z)
  {
    MulAssoc(TranslationMatrix(b.x, b.y, b.z), TranslationMatrix(a.x, a.y, a.z), t.M);
    TranslationCompose(a, b);
  }

  lemma TranslationCompose(a: Vec4, b: Vec4)
    ensures Mul(TranslationMatrix(b.x, b.y, b.z), TranslationMatrix(a.x, a.y, a.z))
         == TranslationMatrix(a.x + b.x, a.y + b.y, a.z + b.z)
  {
    var B := TranslationMatrix(b.x, b.y, b.z);
    var A := TranslationMatrix(a.x, a.y, a.z);
    assert RowTimes(B.r0, A) == Vec4(1.0, 0.0, 0.0, a.x + b.x);
    assert RowTimes(B.r1, A) == Vec4(0.0, 1.0, 0.0, a.y + b.y);
    assert RowTimes(B.r2, A) == Vec4(0.0, 0.0, 1.0, a.z + b.z);
    assert RowTimes(B.r3, A) == Vec4(0.0, 0.0, 0.0, 1.0);
  }

  /** Two chained scalings are one scaling by the product. */
  lemma ScaleTwice(t: Transform, a: Vec4, b: Vec4)
    ensures Scale(Scale(t, a.x, a.y, a.z), b.x, b.y, b.z)
         == Scale(t, a.x * b.x, a.y * b.y, a.z * b.z)
  {
    MulAssoc(ScaleMatrix(b.x, b.y, b.z), ScaleMatrix(a.x, a.y, a.z), t.M);
    ScaleCompose(a, b);
  }

  lemma ScaleCompose(a: Vec4, b: Vec4)
    ensures Mul(ScaleMatrix(b.x, b.y, b.z), ScaleMatrix(a.x, a.y, a.z))
         == ScaleMatrix(a.x * b.x, a.y * b.y, a.z * b.z)
  {
  }

  /** The `glRotate` matrix for the normalised axis (x, y, z) and an angle with cosine `c`
      and sine `s`. */
  function RotationMatrix(x: real, y: real, z: real, c: real, s: real): Mat4 {
    var C := 1.0 - c;
    Mat4(Vec4(x * x * C + c, x * y * C - z * s, x * z * C + y * s, 0.0),
         Vec4(y * x * C + z * s, y * y * C + c, y * z * C - x * s, 0.0),
         Vec4(z * x * C - y * s, z * y * C + x * s, z * z * C + c, 0.0),
         Vec4(0.0, 0.0, 0.0, 1.0))
  }

  /** `t.rotate(deg, ax, ay, az)`, given the axis already divided by its length and the
      cosine and sine of the angle. */
  function Rotate(t: Transform, x: real, y: real, z: real, c: real, s: real): Transform {
    Then(t, RotationMatrix(x, y, z, c, s))
  }

  /** Row 0 of the rotation matrix, dotted with the unit axis, gives x back. */
  lemma AxisRow0(x: real, y: real, z: real, c: real, s: real, a: real, b: real, d: real)
    requires x * x + y * y + z * z == 1.0
    requires a == x * x * (1.0 - c) + c && b == x * y * (1.0 - c) - z * s && d == x * z * (1.0 - c) + y * s
    ensures a * x + b * y + d * z == x
  {
    var C := 1.0 - c;
    assert (x * x * C + c) * x == (x * x * C) * x + c * x;
    assert (x * x * C) * x == (x * C) * (x * x);
    assert (x * y * C - z * s) * y == (x * y * C) * y - (z * s) * y;
    assert (x * y * C) * y == (x * C) * (y * y);
    assert (x * z * C + y * s) * z == (x * z * C) * z + (y * s) * z;
    assert (x * z * C) * z == (x * C) * (z * z);
    assert (z * s) * y == (y * s) * z;
    assert (x * C) * (x * x) + (x * C) * (y * y) + (x * C) * (z * z) == (x * C) * (x * x + y * y + z * z);
    assert (x * C) * 1.0 + c * x == x;
  }

  /** Row 1 of the rotation matrix, dotted with the unit axis, gives y back. */
  lemma AxisRow1(x: real, y: real, z: real, c: real, s: real, a: real, b: real, d: real)
    requires x * x + y * y + z * z == 1.0
    requires a == y * x * (1.0 - c) + z * s && b == y * y * (1.0 - c) + c && d == y * z * (1.0 - c) - x * s
    ensures a * x + b * y + d * z == y
  {
    var C := 1.0 - c;
    assert (y * x * C + z * s) * x == (y * x * C) * x + (z * s) * x;
    assert (y * x * C) * x == (y * C) * (x * x);
    assert (y * y * C + c) * y == (y * y * C) * y + c * y;
    assert (y * y * C) * y == (y * C) * (y * y);
    assert (y * z * C - x * s) * z == (y * z * C) * z - (x * s) * z;
    assert (y * z * C) * z == (y * C) * (z * z);
    assert (z * s) * x == (x * s) * z;
    assert (y * C) * (x * x) + (y * C) * (y * y) + (y * C) * (z * z) == (y * C) * (x * x + y * y + z * z);
    assert (y * C) * 1.0 + c * y == y;
  }

  /** Row 2 of the rotation matrix, dotted with the unit axis, gives z back. */
  lemma AxisRow2(x: real, y: real, z: real, c: real, s: real, a: real, b: real, d: real)
    requires x * x + y * y + z * z == 1.0
    requires a == z * x * (1.0 - c) - y * s && b == z * y * (1.0 - c) + x * s && d == z * z * (1.0 - c) + c
    ensures a * x + b * y + d * z == z
  {
    var C := 1.0 - c;
    assert (z * x * C - y * s) * x == (z * x * C) * x - (y * s) * x;
    assert (z * x * C) * x == (z * C) * (x * x);
    assert (z * y * C + x * s) * y == (z * y * C) * y + (x * s) * y;
    assert (z * y * C) * y == (z * C) * (y * y);
    assert (z * z * C + c) * z == (z * z * C) * z + c * z;
    assert (z * z * C) * z == (z * C) * (z * z);
    assert (y * s) * x == (x * s) * y;
    assert (z * C) * (x * x) + (z * C) * (y * y) + (z * C) * (z * z) == (z * C) * (x * x + y * y + z * z);
    assert (z * C) * 1.0 + c * z == z;
  }

  /** A row with no w part, applied to a point on the line through the origin and (x, y, z). */
  lemma DotScaled(v: Vec4, x: real, y: real, z: real, k: real, sum: real)
    requires v.w == 0.0 && v.x * x + v.y * y + v.z * z == sum
    ensures Dot(v, Vec4(x * k, y * k, z * k, k)) == sum * k
  {
    assert v.x * (x * k) == (v.x * x) * k;
    assert v.y * (y * k) == (v.y * y) * k;
    assert v.z * (z * k) == (v.z * z) * k;
    assert (v.x * x) * k + (v.y * y) * k + (v.z * z) * k == (v.x * x + v.y * y + v.z * z) * k;
  }

  lemma RotationRow0(x: real, y: real, z: real, c: real, s: real, k: real)
    requires x * x + y * y + z * z == 1.0
    ensures Dot(RotationMatrix(x, y, z, c, s).r0, Vec4(x * k, y * k, z * k, k)) == x * k
  {
    var row := Vec4(x * x * (1.0 - c) + c, x * y * (1.0 - c) - z * s, x * z * (1.0 - c) + y * s, 0.0);
    assert RotationMatrix(x, y, z, c, s).r0 == row;
    AxisRow0(x, y, z, c, s, row.x, row.y, row.z);
    DotScaled(row, x, y, z, k, x);
  }

  lemma RotationRow1(x: real, y: real, z: real, c: real, s: real, k: real)
    requires x * x + y * y + z * z == 1.0
    ensures Dot(RotationMatrix(x, y, z, c, s).r1, Vec4(x * k, y * k, z * k, k)) == y * k
  {
    var row := Vec4(y * x * (1.0 - c) + z * s, y * y * (1.0 - c) + c, y * z * (1.0 - c) - x * s, 0.0);
    assert RotationMatrix(x, y, z, c, s).r1 == row;
    AxisRow1(x, y, z, c, s, row.x, row.y, row.z);
    DotScaled(row, x, y, z, k, y);
  }

  lemma RotationRow2(x: real, y: real, z: real, c: real, s: real, k: real)
    requires x * x + y * y + z * z == 1.0
    ensures Dot(RotationMatrix(x, y, z, c, s).r2, Vec4(x * k, y * k, z * k, k)) == z * k
  {
    var row := Vec4(z * x * (1.0 - c) - y * s, z * y * (1.0 - c) + x * s, z * z * (1.0 - c) + c, 0.0);
    assert RotationMatrix(x, y, z, c, s).r2 == row;
    AxisRow2(x, y, z, c, s, row.x, row.y, row.z);
    DotScaled(row, x, y, z, k, z);
  }

  /** A rotation about a unit axis leaves the points on that axis where they are. */
  lemma RotationFixesAxis(t: Transform, x: real, y: real, z: real, c: real, s: real, v: Vec4)
    requires x * x + y * y + z * z == 1.0
    requires var p := Apply(t.M, v); p.x == x * p.w && p.y == y * p.w && p.z == z * p.w
    ensures Apply(Rotate(t, x, y, z, c, s).M, v) == Apply(t.M, v)
  {
    var p := Apply(t.M, v);
    var k := p.w;
    ThenApplies(t, RotationMatrix(x, y, z, c, s), v);
    assert p == Vec4(x * k, y * k, z * k, k);
    RotationFixesAxisPoint(x, y, z, c, s, k);
  }

  lemma RotationFixesAxisPoint(x: real, y: real, z: real, c: real, s: real, k: real)
    requires x * x + y * y + z * z == 1.0
    ensures Apply(RotationMatrix(x, y, z, c, s), Vec4(x * k, y * k, z * k, k)) == Vec4(x * k, y * k, z * k, k)
  {
    RotationRow0(x, y, z, c, s, k);
    RotationRow1(x, y, z, c, s, k);
    RotationRow2(x, y, z, c, s, k);
  }

  /** The `glOrtho` matrix for non-degenerate extents. */
  function OrthoMatrix(l: real, r: real, b: real, t: real, n: real, f: real): Mat4
    requires r != l && t != b && f != n
  {
    Mat4(Vec4(2.0 / (r - l), 0.0, 0.0, -(r + l) / (r - l)),
         Vec4(0.0, 2.0 / (t - b), 0.0, -(t + b) / (t - b)),
         Vec4(0.0, 0.0, -2.0 / (f - n), -(f + n) / (f - n)),
         Vec4(0.0, 0.0, 0.0, 1.0))
  }

  /** `t.ortho(left, right, bottom, top, near, far)`: a zero extent makes Python's float
      division raise `ZeroDivisionError`; otherwise the ortho matrix is chained after `t`. */
  function Ortho(t: Transform, l: real, r: real, b: real, tp: real, n: real, f: real): (res: Result<Transform>)
    ensures res.Err? <==> r == l || tp == b || f == n
    ensures res.Err? ==> res.error == ZeroDivisionError
    ensures res.Ok? ==> res.value == Then(t, OrthoMatrix(l, r, b, tp, n, f))
  {
    if r == l || tp == b || f == n then Err(ZeroDivisionError)
    else Ok(Then(t, OrthoMatrix(l, r, b, tp, n, f)))
  }

  /** `ortho` maps its viewing box onto the cube [-1, 1]^3: the near-bottom-left corner
      (left, bottom, -near) to (-1, -1, -1) and the far-top-right corner to (1, 1, 1). */
  lemma OrthoCorners(l: real, r: real, b: real, t: real, n: real, f: real)
    requires r != l && t != b && f != n
    ensures Apply(OrthoMatrix(l, r, b, t, n, f), Vec4(l, b, -n, 1.0)) == Vec4(-1.0, -1.0, -1.0, 1.0)
    ensures Apply(OrthoMatrix(l, r, b, t, n, f), Vec4(r, t, -f, 1.0)) == Vec4(1.0, 1.0, 1.0, 1.0)
  {
    assert 2.0 / (r - l) * l - (r + l) / (r - l) == (l - r) / (r - l) == -1.0;
    assert 2.0 / (t - b) * b - (t + b) / (t - b) == (b - t) / (t - b) == -1.0;
    assert -2.0 / (f - n) * -n - (f + n) / (f - n) == (n - f) / (f - n) == -1.0;
    assert 2.0 / (r - l) * r - (r + l) / (r - l) == (r - l) / (r - l) == 1.0;
    assert 2.0 / (t - b) * t - (t + b) / (t - b) == (t - b) / (t - b) == 1.0;
    assert -2.0 / (f - n) * -f - (f + n) / (f - n) == (f - n) / (f - n) == 1.0;
  }

  /** The `glFrustum` matrix for non-degenerate extents. */
  function FrustumMatrix(l: real, r: real, b: real, t: real, n: real, f: real): Mat4
    requires r != l && t != b && f != n
  {
    var A := (r + l) / (r - l);
    var B := (t + b) / (t - b);
    var C := -(f + n) / (f - n);
    var D := -2.0 * f * n / (f - n);
    Mat4(Vec4(2.0 * n / (r - l), 0.0, A, 0.0),
         Vec4(0.0, 2.0 * n / (t - b), B, 0.0),
         Vec4(0.0, 0.0, C, D),
         Vec4(0.0, 0.0, -1.0, 0.0))
  }

  /** `t.frustum(left, right, bottom, top, near, far)`: a zero extent raises
      `ZeroDivisionError`; otherwise the frustum matrix is chained after `t`. */
  function Frustum(t: Transform, l: real, r: real, b: real, tp: real, n: real, f: real): (res: Result<Transform>)
    ensures res.Err? <==> r == l || tp == b || f == n
    ensures res.Err? ==> res.error == ZeroDivisionError
    ensures res.Ok? ==> res.value == Then(t, FrustumMatrix(l, r, b, tp, n, f))
  {
    if r == l || tp == b || f == n then Err(ZeroDivisionError)
    else Ok(Then(t, FrustumMatrix(l, r, b, tp, n, f)))
  }

  /** `frustum` sends the near-bottom-left corner (left, bottom, -near) to the homogeneous
      point near * (-1, -1, -1, 1); `FrustumNearCornerDivided` does the division by w. */
  lemma FrustumNearCorner(l: real, r: real, b: real, t: real, n: real, f: real)
    requires r != l && t != b && f != n
    ensures Apply(FrustumMatrix(l, r, b, t, n, f), Vec4(l, b, -n, 1.0)) == Vec4(-n, -n, -n, n)
  {
    assert 2.0 * n / (r - l) * l + (r + l) / (r - l) * -n == n * (l - r) / (r - l) == -n;
    assert 2.0 * n / (t - b) * b + (t + b) / (t - b) * -n == n * (b - t) / (t - b) == -n;
    assert -(f + n) / (f - n) * -n + -2.0 * f * n / (f - n) == n * (n - f) / (f - n) == -n;
  }

  const HomogenizeMsg := "Expected a 3 or 4 element sequence or a 3 or 4 row/element ndarray"

  /** `homogenize(A, hom)` for a single point given as a sequence. */
  function Homogenize(a: seq<real>, hom: real): (r: Result<seq<real>>)
    ensures r.Ok? <==> |a| == 3 || |a| == 4
    ensures r.Ok? ==> |r.value| == 4 && r.value[..3] == a[..3]
    ensures r.Ok? && |a| == 3 ==> r.value[3] == hom
    ensures r.Ok? && |a| == 4 ==> r.value == a
    ensures r.Err? ==> r.error == ValueError(HomogenizeMsg)
  {
    if |a| == 3 then Ok(a + [hom])
    else if |a| == 4 then Ok(a)
    else Err(ValueError(HomogenizeMsg))
  }

  /** Dropping the coordinate `homogenize` appended gives the 3-element point back. */
  lemma HomogenizeDrop(a: seq<real>, hom: real)
    requires |a| == 3
    ensures Homogenize(a, hom).Ok? && Homogenize(a, hom).value[..3] == a
  {
  }

  /** The outcome of `t * p` for a point `p`. */
  datatype PointResult = Point(coords: seq<real>) | NonFinite | Failed(error: PyError)

  /** `t * p` for a point `p`: a 3-element point is promoted with w = 1 and the first three
      components of the result are divided by its w; a 4-element point gives the raw product.
      A zero w makes numpy produce infinities and NaNs, reported here as `NonFinite`. */
  function PointTimes(t: Transform, p: seq<real>): (r: PointResult)
    ensures r.Failed? <==> |p| != 3 && |p| != 4
    ensures r.Failed? ==> r.error == ValueError(HomogenizeMsg)
    ensures r.Point? ==> |r.coords| == |p|
    ensures r.NonFinite? ==> |p| == 3
  {
    match Homogenize(p, 1.0)
    case Err(e) => Failed(e)
    case Ok(h) =>
      var q := Apply(t.M, Vec4(h[0], h[1], h[2], h[3]));
      if |p| == 3 then
        if q.w == 0.0 then NonFinite else Point([q.x / q.w, q.y / q.w, q.z / q.w])
      else Point(q.AsSeq())
  }

  /** What `t * p` computes, in terms of the product of `t`'s matrix and the point: a
      3-element point promoted with w = 1 gives the product's x, y and z divided by its w,
      and cannot be divided exactly when that w is 0; a 4-element point gives the product. */
  lemma PointTimesValue(t: Transform, p: seq<real>)
    ensures |p| == 4 ==> PointTimes(t, p) == Point(Apply(t.M, Vec4(p[0], p[1], p[2], p[3])).AsSeq())
    ensures |p| == 3 ==>
      var q := Apply(t.M, Vec4(p[0], p[1], p[2], 1.0));
      (PointTimes(t, p).NonFinite? <==> q.w == 0.0) &&
      (q.w != 0.0 ==> PointTimes(t, p) == Point([q.x / q.w, q.y / q.w, q.z / q.w]))
  {
  }

  /** After the division by w, `frustum` sends the near-bottom-left corner
      (left, bottom, -near) to (-1, -1, -1), provided near is not 0. */
  lemma FrustumNearCornerDivided(l: real, r: real, b: real, t: real, n: real, f: real)
    requires r != l && t != b && f != n && n != 0.0
    ensures PointTimes(Transform(FrustumMatrix(l, r, b, t, n, f)), [l, b, -n]) == Point([-1.0, -1.0, -1.0])
  {
    FrustumNearCorner(l, r, b, t, n, f);
    PointTimesValue(Transform(FrustumMatrix(l, r, b, t, n, f)), [l, b, -n]);
    assert -n / n == -1.0;
  }

  /** A transform that keeps w = 1 maps a 3-element point to the first three coordinates
      of its product, with no division to speak of. */
  lemma PointTimesAffine(t: Transform, p: seq<real>, q: Vec4)
    requires |p| == 3
    requires Apply(t.M, Vec4(p[0], p[1], p[2], 1.0)) == q && q.w == 1.0
    ensures PointTimes(t, p) == Point([q.x, q.y, q.z])
  {
    var h := p + [1.0];
    assert Homogenize(p, 1.0) == Ok(h);
    assert Vec4(h[0], h[1], h[2], h[3]) == Vec4(p[0], p[1], p[2], 1.0);
    assert q.x / q.w == q.x && q.y / q.w == q.y && q.z / q.w == q.z;
  }

  /** The default transform maps every point to itself. */
  lemma PointTimesDefault(p: seq<real>)
    requires |p| == 3 || |p| == 4
    ensures PointTimes(Default(), p) == Point(p)
  {
    var h := Homogenize(p, 1.0).value;
    var v := Vec4(h[0], h[1], h[2], h[3]);
    ApplyIdentity(v);
    if |p| == 3 {
      assert v.w == 1.0;
      assert [v.x / v.w, v.y / v.w, v.z / v.w] == p;
    } else {
      assert v.AsSeq() == p;
    }
  }

  /** `Transform().translate(x, y, z)` holds exactly the translation matrix. */
  lemma TranslateFromDefault(x: real, y: real, z: real)
    ensures Translate(Default(), x, y, z) == Transform(TranslationMatrix(x, y, z))
  {
    MulIdentity(TranslationMatrix(x, y, z));
  }

  /** `Transform().scale(x, y, z)` holds exactly the scale matrix. */
  lemma ScaleFromDefault(x: real, y: real, z: real)
    ensures Scale(Default(), x, y, z) == Transform(ScaleMatrix(x, y, z))
  {
    MulIdentity(ScaleMatrix(x, y, z));
  }

  /** The translation matrix moves a 3-element point by (x, y, z). */
  lemma PointTimesTranslate(x: real, y: real, z: real, p: seq<real>)
    requires |p| == 3
    ensures PointTimes(Transform(TranslationMatrix(x, y, z)), p) == Point([p[0] + x, p[1] + y, p[2] + z])
  {
    var q := Vec4(p[0] + x, p[1] + y, p[2] + z, 1.0);
    assert Apply(TranslationMatrix(x, y, z), Vec4(p[0], p[1], p[2], 1.0)) == q;
    PointTimesAffine(Transform(TranslationMatrix(x, y, z)), p, q);
  }

  /** The scale matrix scales each coordinate of a 3-element point by its own factor. */
  lemma PointTimesScale(x: real, y: real, z: real, p: seq<real>)
    requires |p| == 3
    ensures PointTimes(Transform(ScaleMatrix(x, y, z)), p) == Point([x * p[0], y * p[1], z * p[2]])
  {
    var q := Vec4(x * p[0], y * p[1], z * p[2], 1.0);
    assert Apply(ScaleMatrix(x, y, z), Vec4(p[0], p[1], p[2], 1.0)) == q;
    PointTimesAffine(Transform(ScaleMatrix(x, y, z)), p, q);
  }

  /** For homogeneous points, `(a * b) * p == a * (b * p)`. */
  lemma PointTimesProduct(a: Transform, b: Transform, p: seq<real>)
    requires |p| == 4
    ensures PointTimes(b, p).Point?
    ensures PointTimes(Times(a, b), p) == PointTimes(a, PointTimes(b, p).coords)
  {
    var v := Vec4(p[0], p[1], p[2], p[3]);
    var q := Apply(b.M, v);
    assert PointTimes(b, p) == Point(q.AsSeq());
    assert Vec4(q.AsSeq()[0], q.AsSeq()[1], q.AsSeq()[2], q.AsSeq()[3]) == q;
    ApplyMul(a.M, b.M, v);
  }

  /** The scenario of the unit test: `Transform().translate(p).rotate(r)` equals `R * T`
      with `T = Transform().translate(p)` and `R = Transform().rotate(r)`. */
  lemma TranslateThenRotate(px: real, py: real, pz: real, x: real, y: real, z: real, c: real, s: real)
    ensures Rotate(Translate(Default(), px, py, pz), x, y, z, c, s)
         == Times(Rotate(Default(), x, y, z, c, s), Translate(Default(), px, py, pz))
  {
    ChainFromDefault(TranslationMatrix(px, py, pz), RotationMatrix(x, y, z, c, s));
  }
}

=== FILE: triangle_order.dfy ===
/** Triangles with their material tags, and the order `sorted()` puts them in.

    `finalize` sorts `zip(mat, init_tri)`: tuples `(tag, ((v0, t0), (v1, t1), (v2, t2)))`
    compared lexicographically. A texture slot is an index or `None`; Python compares
    `None` only with `None` (equal), so the order below, which puts `None` before
    every index, agrees with Python on every comparison Python can make.
 */
module TriangleOrder {
  import opened Wrappers

  /** One corner of a face: a vertex index and an optional texture-coordinate index. */
  datatype Corner = Corner(vertex: int, texcoord: Option<int>)

  datatype Triangle = Triangle(a: Corner, b: Corner, c: Corner)

  /** An element of `zip(mat, init_tri)`. */
  datatype Tagged = Tagged(tag: int, tri: Triangle)

  /** Lexicographic order on integer sequences of the same length. */
  predicate LexLeq(a: seq<int>, b: seq<int>)
    decreases |a|
  {
    |a| == 0 || |b| == 0 || a[0] < b[0] || (a[0] == b[0] && LexLeq(a[1..], b[1..]))
  }

  lemma {:induction false} LexTotal(a: seq<int>, b: seq<int>)
    requires |a| == |b|
    ensures LexLeq(a, b) || LexLeq(b, a)
    decreases |a|
  {
    if |a| > 0 && a[0] == b[0] {
      LexTotal(a[1..], b[1..]);
    }
  }

  lemma {:induction false} LexTrans(a: seq<int>, b: seq<int>, c: seq<int>)
    requires |a| == |b| == |c|
    requires LexLeq(a, b) && LexLeq(b, c)
    ensures LexLeq(a, c)
    decreases |a|
  {
    if |a| > 0 && a[0] == b[0] == c[0] {
      LexTrans(a[1..], b[1..], c[1..]);
    }
  }

  lemma {:induction false} LexRefl(a: seq<int>)
    ensures LexLeq(a, a)
    decreases |a|
  {
    if |a| > 0 {
      LexRefl(a[1..]);
    }
  }

  lemma {:induction false} LexAntisym(a: seq<int>, b: seq<int>)
    requires |a| == |b|
    requires LexLeq(a, b) && LexLeq(b, a)
    ensures a == b
    decreases |a|
  {
    if |a| > 0 {
      LexAntisym(a[1..], b[1..]);
      assert a == [a[0]] + a[1..];
      assert b == [b[0]] + b[1..];
    }
  }

  /** `None` before every index, indices by value. */
  function SlotKey(t: Option<int>): seq<int> {
    match t
    case None => [0, 0]
    case Some(k) => [1, k]
  }

  function CornerKey(c: Corner): seq<int> {
    [c.vertex] + SlotKey(c.texcoord)
  }

  /** The tuple `(tag, ((v0, t0), (v1, t1), (v2, t2)))` flattened into ten integers. */
  function Key(p: Tagged): (k: seq<int>)
    ensures |k| == 10
  {
    [p.tag] + CornerKey(p.tri.a) + CornerKey(p.tri.b) + CornerKey(p.tri.c)
  }

  lemma SlotKeyInjective(s: Option<int>, t: Option<int>)
    requires SlotKey(s) == SlotKey(t)
    ensures s == t
  {
    assert SlotKey(s)[0] == SlotKey(t)[0];
    assert SlotKey(s)[1] == SlotKey(t)[1];
  }

  lemma CornerKeyInjective(c: Corner, d: Corner)
    requires CornerKey(c) == CornerKey(d)
    ensures c == d
  {
    assert CornerKey(c)[0] == c.vertex && CornerKey(d)[0] == d.vertex;
    assert CornerKey(c)[1..] == SlotKey(c.texcoord) && CornerKey(d)[1..] == SlotKey(d.texcoord);
    SlotKeyInjective(c.texcoord, d.texcoord);
  }

  lemma Split4<T>(a: seq<T>, b: seq<T>, c: seq<T>, d: seq<T>)
    requires |a| == 1 && |b| == 3 && |c| == 3 && |d| == 3
    ensures var s := a + b + c + d; s[0] == a[0] && s[1..4] == b && s[4..7] == c && s[7..10] == d
  {
    var s := a + b + c + d;
    assert s[1..4] == b by { assert forall i | 0 <= i < 3 :: s[1..4][i] == b[i]; }
    assert s[4..7] == c by { assert forall i | 0 <= i < 3 :: s[4..7][i] == c[i]; }
    assert s[7..10] == d by { assert forall i | 0 <= i < 3 :: s[7..10][i] == d[i]; }
  }

  /** Different pairs have different keys, so the order is antisymmetric on pairs. */
  lemma KeyInjective(p: Tagged, q: Tagged)
    requires Key(p) == Key(q)
    ensures p == q
  {
    Split4([p.tag], CornerKey(p.tri.a), CornerKey(p.tri.b), CornerKey(p.tri.c));
    Split4([q.tag], CornerKey(q.tri.a), CornerKey(q.tri.b), CornerKey(q.tri.c));
    CornerKeyInjective(p.tri.a, q.tri.a);
    CornerKeyInjective(p.tri.b, q.tri.b);
    CornerKeyInjective(p.tri.c, q.tri.c);
  }

  /** `p <= q` as Python compares the tuples. */
  predicate Leq(p: Tagged, q: Tagged) {
    LexLeq(Key(p), Key(q))
  }

  lemma LeqTotal(p: Tagged, q: Tagged)
    ensures Leq(p, q) || Leq(q, p)
  {
    LexTotal(Key(p), Key(q));
  }

  lemma LeqTrans(p: Tagged, q: Tagged, r: Tagged)
    requires Leq(p, q) && Leq(q, r)
    ensures Leq(p, r)
  {
    LexTrans(Key(p), Key(q), Key(r));
  }

  lemma LeqAntisym(p: Tagged, q: Tagged)
    requires Leq(p, q) && Leq(q, p)
    ensures p == q
  {
    LexAntisym(Key(p), Key(q));
    KeyInjective(p, q);
  }

  /** A smaller tag comes first: the order sorts by material before anything else. */
  lemma LeqTag(p: Tagged, q: Tagged)
    requires Leq(p, q)
    ensures p.tag <= q.tag
  {
    assert Key(p)[0] == p.tag && Key(q)[0] == q.tag;
  }

  predicate Sorted(s: seq<Tagged>) {
    forall i, j | 0 <= i < j < |s| :: Leq(s[i], s[j])
  }

  /** Insert `x` before the first element it does not exceed. */
  function Insert(x: Tagged, s: seq<Tagged>): (r: seq<Tagged>)
    ensures multiset(r) == multiset(s) + multiset{x}
    decreases |s|
  {
    if |s| == 0 then [x]
    else if Leq(x, s[0]) then [x] + s
    else
      assert s == [s[0]] + s[1..];
      [s[0]] + Insert(x, s[1..])
  }

  /** A lower bound of `x` and of every element of `s` bounds the insertion result. */
  lemma {:induction false} InsertBound(y: Tagged, x: Tagged, s: seq<Tagged>)
    requires Leq(y, x)
    requires forall j | 0 <= j < |s| :: Leq(y, s[j])
    ensures forall j | 0 <= j < |Insert(x, s)| :: Leq(y, Insert(x, s)[j])
    decreases |s|
  {
    if |s| > 0 && !Leq(x, s[0]) {
      InsertBound(y, x, s[1..]);
    }
  }

  lemma {:induction false} InsertSorted(x: Tagged, s: seq<Tagged>)
    requires Sorted(s)
    ensures Sorted(Insert(x, s))
    decreases |s|
  {
    if |s| == 0 {
    } else if Leq(x, s[0]) {
      forall j | 0 < j < |s| ensures Leq(x, s[j]) { LeqTrans(x, s[0], s[j]); }
    } else {
      LeqTotal(x, s[0]);
      SortedTail(s);
      InsertSorted(x, s[1..]);
      InsertBound(s[0], x, s[1..]);
      SortedCons(s[0], Insert(x, s[1..]));
    }
  }

  /** A lower bound of a sorted sequence can go in front of it. */
  lemma SortedCons(y: Tagged, t: seq<Tagged>)
    requires Sorted(t) && forall j | 0 <= j < |t| :: Leq(y, t[j])
    ensures Sorted([y] + t)
  {
    var s := [y] + t;
    forall i, j | 0 <= i < j < |s| ensures Leq(s[i], s[j]) {
      assert s[j] == t[j - 1];
      if i > 0 {
        assert s[i] == t[i - 1];
      }
    }
  }

  /** `sorted(s)`, by insertion. */
  function Sort(s: seq<Tagged>): (r: seq<Tagged>)
    ensures Sorted(r)
    ensures multiset(r) == multiset(s)
    decreases |s|
  {
    if |s| == 0 then []
    else
      assert s == [s[0]] + s[1..];
      InsertSorted(s[0], Sort(s[1..]));
      Insert(s[0], Sort(s[1..]))
  }

  /** The first element of a sorted sequence is below every element of it. */
  lemma SortedHead(a: seq<Tagged>, x: Tagged)
    requires Sorted(a) && x in multiset(a)
    ensures Leq(a[0], x)
  {
    var i :| 0 <= i < |a| && a[i] == x;
    if i == 0 {
      LexRefl(Key(x));
    }
  }

  lemma SortedTail(a: seq<Tagged>)
    requires Sorted(a) && |a| > 0
    ensures Sorted(a[1..])
  {
    forall i, j | 0 <= i < j < |a[1..]| ensures Leq(a[1..][i], a[1..][j]) {
      assert a[1..][i] == a[i + 1] && a[1..][j] == a[j + 1];
    }
  }

  lemma MultisetTail(a: seq<Tagged>)
    requires |a| > 0
    ensures multiset(a) == multiset{a[0]} + multiset(a[1..])
  {
    assert a == [a[0]] + a[1..];
  }

  /** There is only one sorted arrangement of a multiset of pairs, so any correct sort,
      Python's included, returns what `Sort` returns. */
  lemma {:induction false} SortedUnique(a: seq<Tagged>, b: seq<Tagged>)
    requires Sorted(a) && Sorted(b)
    requires multiset(a) == multiset(b)
    ensures a == b
    decreases |a|
  {
    assert |a| == |multiset(a)| == |multiset(b)| == |b|;
    if |a| > 0 {
      SortedStep(a, b);
      SortedUnique(a[1..], b[1..]);
      ConsEqual(a, b);
    }
  }

  /** Two sorted arrangements of one multiset start alike, and what follows is again
      two sorted arrangements of one multiset. */
  lemma SortedStep(a: seq<Tagged>, b: seq<Tagged>)
    requires Sorted(a) && Sorted(b) && |a| > 0 && |b| > 0
    requires multiset(a) == multiset(b)
    ensures a[0] == b[0]
    ensures Sorted(a[1..]) && Sorted(b[1..])
    ensures multiset(a[1..]) == multiset(b[1..])
  {
    assert a[0] in multiset(a) && b[0] in multiset(b);
    SortedHead(b, a[0]);
    SortedHead(a, b[0]);
    LeqAntisym(a[0], b[0]);
    MultisetTail(a);
    MultisetTail(b);
    assert multiset(a[1..]) == multiset(a) - multiset{a[0]} == multiset(b[1..]);
    SortedTail(a);
    SortedTail(b);
  }

  lemma ConsEqual<T>(a: seq<T>, b: seq<T>)
    requires |a| > 0 && |b| > 0 && a[0] == b[0] && a[1..] == b[1..]
    ensures a == b
  {
    assert a == [a[0]] + a[1..];
    assert b == [b[0]] + b[1..];
  }

  /** Sorting what is already sorted changes nothing. */
  lemma SortOfSorted(s: seq<Tagged>)
    requires Sorted(s)
    ensures Sort(s) == s
  {
    SortedUnique(Sort(s), s);
  }

  /** In sorted pairs the tags never decrease. */
  lemma SortedTags(s: seq<Tagged>, i: int, j: int)
    requires Sorted(s) && 0 <= i <= j < |s|
    ensures s[i].tag <= s[j].tag
  {
    if i < j {
      LeqTag(s[i], s[j]);
    }
  }

  /** Python's `zip(mat, tri)`: as long as the shorter argument. */
  function Zip(tags: seq<int>, tris: seq<Triangle>): (r: seq<Tagged>)
    ensures |r| == if |tags| <= |tris| then |tags| else |tris|
    ensures forall i | 0 <= i < |r| :: r[i] == Tagged(tags[i], tris[i])
  {
    var n := if |tags| <= |tris| then |tags| else |tris|;
    seq(n, i requires 0 <= i < n => Tagged(tags[i], tris[i]))
  }

  function Tags(s: seq<Tagged>): (r: seq<int>)
    ensures |r| == |s| && forall i | 0 <= i < |s| :: r[i] == s[i].tag
  {
    seq(|s|, i requires 0 <= i < |s| => s[i].tag)
  }

  function Tris(s: seq<Tagged>): (r: seq<Triangle>)
    ensures |r| == |s| && forall i | 0 <= i < |s| :: r[i] == s[i].tri
  {
    seq(|s|, i requires 0 <= i < |s| => s[i].tri)
  }

  /** Unzipping and zipping again gives the pairs back. */
  lemma ZipUnzip(s: seq<Tagged>)
    ensures Zip(Tags(s), Tris(s)) == s
  {
  }
}

=== FILE: wavefront.dfy ===
/** Wavefront .OBJ geometry and .MTL material files: the reader and writer of
    `graphics/io/wavefront.py`.

    A file is the sequence of lines Python iterates over (each with its '\n');
    a writer returns the lines it writes, one `f.write` each. The file system is a
    map from path to lines. Float text is a `Numerals` parameter.

    Each loader takes `asWritten`: `true` follows the code as it stands, `false` the
    evident intent (see the findings in README.md).
 */
module Wavefront {
  import opened Wrappers
  import opened PyText
  import opened Materials
  import opened TriangleOrder
  import opened Meshes

  type FileSystem = map<string, seq<string>>

  // ---------------------------------------------------------------------------
  // Text of values

  function ShowScalar(c: Numerals, s: Scalar): string {
    match s
    case Num(x) => c.show(x)
    case Text(t) => t
    case Nil => "None"
  }

  function ReprScalar(c: Numerals, s: Scalar): string {
    match s
    case Text(t) => "'" + t + "'"
    case _ => ShowScalar(c, s)
  }

  function Shows(c: Numerals, xs: seq<Scalar>): (r: seq<string>)
    ensures |r| == |xs| && forall i | 0 <= i < |xs| :: r[i] == ShowScalar(c, xs[i])
  {
    seq(|xs|, i requires 0 <= i < |xs| => ShowScalar(c, xs[i]))
  }

  /** `'{}'.format(v)`. A bound method prints its address in Python; the model omits it. */
  function Format(c: Numerals, v: Value): string {
    match v
    case One(s) => ShowScalar(c, s)
    case List(xs) => "[" + Join(seq(|xs|, i requires 0 <= i < |xs| => ReprScalar(c, xs[i])), ", ") + "]"
    case CopyOf(_) => "<built-in method copy of list object>"
  }

  function FloatError(tok: string): PyError {
    ValueError("could not convert string to float: '" + tok + "'")
  }

  function IntError(tok: string): PyError {
    ValueError("invalid literal for int() with base 10: '" + tok + "'")
  }

  /** `float(tok)`. */
  function Float(c: Numerals, tok: string): (r: Result<real>)
    ensures r.Ok? <==> ParseFloat(c, tok).Some?
    ensures r.Ok? ==> r.value == ParseFloat(c, tok).value
    ensures r.Err? ==> r.error == FloatError(tok)
  {
    match ParseFloat(c, tok)
    case Some(x) => Ok(x)
    case None => Err(FloatError(tok))
  }

  /** `int(tok)`. */
  function Int(tok: string): (r: Result<int>)
    ensures r.Ok? <==> ParseInt(tok).Some?
    ensures r.Ok? ==> r.value == ParseInt(tok).value
    ensures r.Err? ==> r.error == IntError(tok)
  {
    match ParseInt(tok)
    case Some(n) => Ok(n)
    case None => Err(IntError(tok))
  }

  lemma TailShift<T>(s: seq<T>)
    requires |s| > 0
    ensures forall i | 1 <= i < |s| :: s[i] == s[1..][i - 1]
  {
  }

  /** `[float(v) for v in toks]`: the first token that is not a number raises. */
  function Floatify(c: Numerals, toks: seq<string>): (r: Result<seq<Scalar>>)
    ensures r.Ok? ==> |r.value| == |toks|
    decreases |toks|
  {
    if |toks| == 0 then Ok([])
    else
      var x :- Float(c, toks[0]);
      var rest :- Floatify(c, toks[1..]);
      Ok([Num(x)] + rest)
  }

  /** `floatify` succeeds exactly when every token parses, and then gives the numbers
      in order. */
  lemma FloatifyReads(c: Numerals, toks: seq<string>)
    ensures var r := Floatify(c, toks);
      && (r.Ok? <==> forall i | 0 <= i < |toks| :: ParseFloat(c, toks[i]).Some?)
      && (r.Ok? ==> forall i | 0 <= i < |toks| :: r.value[i] == Num(ParseFloat(c, toks[i]).value))
  {
    if Floatify(c, toks).Ok? {
      FloatifyValues(c, toks);
    }
    if forall i | 0 <= i < |toks| :: ParseFloat(c, toks[i]).Some? {
      FloatifyOk(c, toks);
    }
  }

  lemma {:induction false} FloatifyOk(c: Numerals, toks: seq<string>)
    requires forall i | 0 <= i < |toks| :: ParseFloat(c, toks[i]).Some?
    ensures Floatify(c, toks).Ok?
    decreases |toks|
  {
    if |toks| > 0 {
      TailShift(toks);
      FloatifyOk(c, toks[1..]);
      assert Float(c, toks[0]).Ok?;
    }
  }

  lemma {:induction false} FloatifyValues(c: Numerals, toks: seq<string>)
    requires Floatify(c, toks).Ok?
    ensures forall i | 0 <= i < |toks| ::
              ParseFloat(c, toks[i]).Some? && Floatify(c, toks).value[i] == Num(ParseFloat(c, toks[i]).value)
    decreases |toks|
  {
    if |toks| > 0 {
      var x := Float(c, toks[0]);
      assert x.Ok?;
      var rest := Floatify(c, toks[1..]);
      assert rest.Ok?;
      FloatifyValues(c, toks[1..]);
      TailShift(toks);
      assert Floatify(c, toks).value == [Num(x.value)] + rest.value;
    }
  }

  // ---------------------------------------------------------------------------
  // MTL writer

  /** `write_key(key, vals)`: nothing for `None`, a list space-joined, anything else formatted. */
  function KeyLine(c: Numerals, key: string, v: Value): (r: seq<string>)
    ensures v == NoneValue <==> |r| == 0
    ensures |r| <= 1
    ensures v.List? ==> r == [key + " " + Join(Shows(c, v.items), " ") + "\n"]
    ensures v != NoneValue && !v.List? ==> r == [key + " " + Format(c, v) + "\n"]
  {
    if v == NoneValue then []
    else if v.List? then [key + " " + Join(Shows(c, v.items), " ") + "\n"]
    else [key + " " + Format(c, v) + "\n"]
  }

  /** The `newmtl` line and the colour and exponent lines of a saved material. */
  function BlockHead(c: Numerals, m: Material): (r: seq<string>)
    ensures 4 <= |r| <= 5 && r[0] == "newmtl " + Format(c, m.name) + "\n"
  {
    ["newmtl " + Format(c, m.name) + "\n"]
    + KeyLine(c, "Kd", List(m.diffuse))
    + KeyLine(c, "Ka", List(m.ambient))
    + KeyLine(c, "Ks", List(m.specular))
    + KeyLine(c, "Ns", m.exponent)
  }

  /** The texture-map lines of a saved material, one per map that is not `None`. */
  function BlockMaps(c: Numerals, m: Material): (r: seq<string>)
    ensures |r| <= 4
  {
    KeyLine(c, "map_Kd", m.diffuseMap)
    + KeyLine(c, "map_Ka", m.ambientMap)
    + KeyLine(c, "map_Ks", m.specularMap)
    + KeyLine(c, "map_bump", m.bumpMap)
  }

  /** The lines `save_mtl_file` writes for one material, closed by an empty line. */
  function MtlBlock(c: Numerals, m: Material): (r: seq<string>)
    ensures 5 <= |r| <= 10
    ensures r[0] == "newmtl " + Format(c, m.name) + "\n" && r[|r| - 1] == "\n"
  {
    BlockHead(c, m) + BlockMaps(c, m) + ["\n"]
  }

  /** `save_mtl_file(materials, filename)`: the blocks of all materials, in order. */
  function SaveMtl(c: Numerals, ms: seq<Material>): (r: seq<string>)
    ensures |r| >= 5 * |ms|
    ensures |ms| > 0 ==> |MtlBlock(c, ms[0])| <= |r| && r[..|MtlBlock(c, ms[0])|] == MtlBlock(c, ms[0])
    decreases |ms|
  {
    if |ms| == 0 then [] else MtlBlock(c, ms[0]) + SaveMtl(c, ms[1..])
  }

  // ---------------------------------------------------------------------------
  // MTL reader

  /** The materials finished so far and the one being read. */
  datatype MtlState = MtlState(done: seq<Material>, cur: Option<Material>)

  function Finish(st: MtlState): seq<Material> {
    st.done + (if st.cur.Some? then [st.cur.value] else [])
  }

  /** A colour directive: the floats after the key, through the validating setter. */
  function ReadColor(c: Numerals, toks: seq<string>): (r: Result<seq<Scalar>>)
    requires |toks| >= 1
    ensures r.Ok? ==> |r.value| == 3
  {
    var vals :- Floatify(c, toks[1..]);
    ColorOf(List(vals))
  }

  /** Whether a colour line carries exactly three numbers after its key. */
  predicate ColorToks(c: Numerals, toks: seq<string>) {
    |toks| == 4 && forall i | 1 <= i < 4 :: ParseFloat(c, toks[i]).Some?
  }

  /** The colour the three numbers of such a line denote. */
  function ColorValue(c: Numerals, toks: seq<string>): seq<Scalar>
    requires ColorToks(c, toks)
  {
    [Num(ParseFloat(c, toks[1]).value), Num(ParseFloat(c, toks[2]).value), Num(ParseFloat(c, toks[3]).value)]
  }

  /** A colour line reads exactly when three numbers follow the key; numbers in another
      count are rejected by the setter's length check. */
  lemma ReadColorReads(c: Numerals, toks: seq<string>)
    requires |toks| >= 1
    ensures ReadColor(c, toks).Ok? <==> ColorToks(c, toks)
    ensures ColorToks(c, toks) ==> ReadColor(c, toks) == Ok(ColorValue(c, toks))
    ensures (forall i | 1 <= i < |toks| :: ParseFloat(c, toks[i]).Some?) && |toks| != 4 ==>
              ReadColor(c, toks) == Err(ValueError(ColorMsg))
  {
    var s := toks[1..];
    ParsesAfterKey(c, toks);
    FloatifyReads(c, s);
    if Floatify(c, s).Ok? {
      var vals := Floatify(c, s).value;
      ColorOfList(vals);
      if |toks| == 4 {
        ColorValueOfThree(c, toks, s, vals);
      }
    }
  }

  /** The numbers after the key, seen through the slice `floatify` is given. */
  lemma ParsesAfterKey(c: Numerals, toks: seq<string>)
    requires |toks| >= 1
    ensures (forall i | 1 <= i < |toks| :: ParseFloat(c, toks[i]).Some?)
        <==> (forall i | 0 <= i < |toks[1..]| :: ParseFloat(c, toks[1..][i]).Some?)
  {
    TailShift(toks);
  }

  /** The setter's length check on a list of numbers. */
  lemma ColorOfList(vals: seq<Scalar>)
    ensures ColorOf(List(vals)) == if |vals| == 3 then Ok(vals) else Err(ValueError(ColorMsg))
  {
    assert Len(List(vals)) == Ok(|vals|);
  }

  lemma ColorValueOfThree(c: Numerals, toks: seq<string>, s: seq<string>, vals: seq<Scalar>)
    requires |toks| == 4 && s == toks[1..] && |vals| == 3
    requires forall i | 0 <= i < 3 :: ParseFloat(c, s[i]).Some? && vals[i] == Num(ParseFloat(c, s[i]).value)
    ensures ColorToks(c, toks) && vals == ColorValue(c, toks)
  {
    assert s[0] == toks[1] && s[1] == toks[2] && s[2] == toks[3];
    var x0, x1, x2 := ParseFloat(c, toks[1]), ParseFloat(c, toks[2]), ParseFloat(c, toks[3]);
    assert x0.Some? && x1.Some? && x2.Some?;
    SeqOfThree(vals, Num(x0.value), Num(x1.value), Num(x2.value));
  }

  /** A sequence of length three is the display of its elements. */
  lemma SeqOfThree<T>(v: seq<T>, a: T, b: T, d: T)
    requires |v| == 3 && v[0] == a && v[1] == b && v[2] == d
    ensures v == [a, b, d]
  {
  }

  /** A directive line for the material being read; unknown keys are ignored. As written,
      `Ka` sets the diffuse colour, `map_Ka` the diffuse map and `map_Kd` the ambient map. */
  function Directive(c: Numerals, m: Material, toks: seq<string>, asWritten: bool): (r: Result<Material>)
    requires |toks| > 0
    ensures toks[0] !in {"Kd", "Ka", "Ks", "Ns", "map_Ka", "map_Kd", "map_Ks", "map_bump"} ==> r == Ok(m)
    ensures toks[0] in {"Kd", "Ka", "Ks"} ==> (r.Ok? <==> ColorToks(c, toks))
    ensures toks[0] in {"Kd", "Ka", "Ks"} && |toks| != 4 ==>
              (forall i | 1 <= i < |toks| :: ParseFloat(c, toks[i]).Some?) ==> r == Err(ValueError(ColorMsg))
    ensures toks[0] == "Kd" && r.Ok? ==> r.value == m.(diffuse := ColorValue(c, toks))
    ensures toks[0] == "Ka" && r.Ok? ==>
              r.value == if asWritten then m.(diffuse := ColorValue(c, toks)) else m.(ambient := ColorValue(c, toks))
    ensures toks[0] == "Ks" && r.Ok? ==> r.value == m.(specular := ColorValue(c, toks))
    ensures toks[0] == "Ns" ==> (r.Ok? <==> |toks| >= 2 && ParseFloat(c, toks[1]).Some?)
    ensures toks[0] == "Ns" && |toks| < 2 ==> r == Err(IndexError)
    ensures toks[0] == "Ns" && |toks| >= 2 && ParseFloat(c, toks[1]).None? ==> r == Err(FloatError(toks[1]))
    ensures toks[0] == "Ns" && r.Ok? ==> r.value == m.(exponent := One(Num(ParseFloat(c, toks[1]).value)))
    ensures toks[0] == "map_Ka" ==> r == Ok(if asWritten then m.(diffuseMap := One(Text(toks[|toks| - 1])))
                                            else m.(ambientMap := One(Text(toks[|toks| - 1]))))
    ensures toks[0] == "map_Kd" ==> r == Ok(if asWritten then m.(ambientMap := One(Text(toks[|toks| - 1])))
                                            else m.(diffuseMap := One(Text(toks[|toks| - 1]))))
    ensures toks[0] == "map_Ks" ==> r == Ok(m.(specularMap := One(Text(toks[|toks| - 1]))))
    ensures toks[0] == "map_bump" ==> r == Ok(m.(bumpMap := One(Text(toks[|toks| - 1]))))
  {
    var key := toks[0];
    var last := One(Text(toks[|toks| - 1]));
    ReadColorReads(c, toks);
    if key == "Kd" then
      var col :- ReadColor(c, toks); Ok(m.(diffuse := col))
    else if key == "Ka" then
      var col :- ReadColor(c, toks);
      Ok(if asWritten then m.(diffuse := col) else m.(ambient := col))
    else if key == "Ks" then
      var col :- ReadColor(c, toks); Ok(m.(specular := col))
    else if key == "Ns" then
      var tok :- PyIndex(toks, 1);
      var x :- Float(c, tok);
      SetExponent(m, One(Num(x)))
    else if key == "map_Ka" then
      Ok(if asWritten then m.(diffuseMap := last) else m.(ambientMap := last))
    else if key == "map_Kd" then
      Ok(if asWritten then m.(ambientMap := last) else m.(diffuseMap := last))
    else if key == "map_Ks" then Ok(m.(specularMap := last))
    else if key == "map_bump" then Ok(m.(bumpMap := last))
    else Ok(m)
  }

  /** One line of `load_mtl_file`, split into words: blank lines and every line before the
      first `newmtl` are skipped, `newmtl` finishes the current material and starts another. */
  function StepToks(c: Numerals, st: MtlState, toks: seq<string>, asWritten: bool): (r: Result<MtlState>)
    ensures toks == [] ==> r == Ok(st)
    ensures |toks| > 0 && toks[0] != "newmtl" && st.cur.None? ==> r == Ok(st)
    ensures |toks| > 0 && toks[0] == "newmtl" ==>
      if |toks| < 2 then r == Err(IndexError)
      else r == Ok(MtlState(Finish(st), Some(Defaults(One(Text(toks[1]))))))
    ensures |toks| > 0 && toks[0] != "newmtl" && st.cur.Some? ==>
      var d := Directive(c, st.cur.value, toks, asWritten);
      && (r.Ok? <==> d.Ok?)
      && (r.Ok? ==> r.value == MtlState(st.done, Some(d.value)))
      && (r.Err? ==> r.error == d.error)
  {
    if |toks| == 0 then Ok(st)
    else if toks[0] == "newmtl" then
      var name :- PyIndex(toks, 1);
      Ok(MtlState(Finish(st), Some(Defaults(One(Text(name))))))
    else if st.cur.None? then Ok(st)
    else
      var m1 :- Directive(c, st.cur.value, toks, asWritten);
      Ok(MtlState(st.done, Some(m1)))
  }

  function MtlStep(c: Numerals, st: MtlState, line: string, asWritten: bool): Result<MtlState> {
    StepToks(c, st, Words(line), asWritten)
  }

  /** The `for line in f` loop of `load_mtl_file`. */
  function MtlLines(c: Numerals, st: MtlState, lines: seq<string>, asWritten: bool): (r: Result<MtlState>)
    decreases |lines|
  {
    if |lines| == 0 then Ok(st)
    else
      var st1 :- MtlStep(c, st, lines[0], asWritten);
      MtlLines(c, st1, lines[1..], asWritten)
  }

  /** Reading `a + b` is reading `a`, then `b` from where `a` left off. */
  lemma {:induction false} MtlLinesAppend(c: Numerals, st: MtlState, a: seq<string>, b: seq<string>, asWritten: bool)
    requires MtlLines(c, st, a, asWritten).Ok?
    ensures MtlLines(c, st, a + b, asWritten) == MtlLines(c, MtlLines(c, st, a, asWritten).value, b, asWritten)
    decreases |a|
  {
    if |a| > 0 {
      assert (a + b)[0] == a[0] && (a + b)[1..] == a[1..] + b;
      var st1 := MtlStep(c, st, a[0], asWritten).value;
      MtlLinesAppend(c, st1, a[1..], b, asWritten);
    } else {
      assert a + b == b;
    }
  }

  /** `load_mtl_file` on the lines of a file. */
  function LoadMtl(c: Numerals, lines: seq<string>, asWritten: bool): (r: Result<seq<Material>>)
  {
    var st :- MtlLines(c, MtlState([], None), lines, asWritten);
    Ok(Finish(st))
  }

  /** `load_mtl_file(filename)`; a missing file raises `FileNotFoundError`. */
  function LoadMtlFile(fs: FileSystem, c: Numerals, filename: string, asWritten: bool): (r: Result<seq<Material>>)
    ensures filename !in fs ==> r == Err(FileNotFound(filename))
    ensures filename in fs ==> r == LoadMtl(c, fs[filename], asWritten)
  {
    if filename !in fs then Err(FileNotFound(filename)) else LoadMtl(c, fs[filename], asWritten)
  }

  /** The first word of a line is `newmtl`. */
  predicate IsNewmtl(line: string) {
    |Words(line)| > 0 && Words(line)[0] == "newmtl"
  }

  function CountNewmtl(lines: seq<string>): nat
    decreases |lines|
  {
    if |lines| == 0 then 0 else (if IsNewmtl(lines[0]) then 1 else 0) + CountNewmtl(lines[1..])
  }

  function Pending(st: MtlState): nat {
    |st.done| + (if st.cur.Some? then 1 else 0)
  }

  /** Every `newmtl` line starts exactly one material; no other line starts or drops one. */
  lemma {:induction false} MtlLinesCount(c: Numerals, st: MtlState, lines: seq<string>, asWritten: bool)
    requires MtlLines(c, st, lines, asWritten).Ok?
    ensures Pending(MtlLines(c, st, lines, asWritten).value) == Pending(st) + CountNewmtl(lines)
    ensures st.cur.Some? ==> MtlLines(c, st, lines, asWritten).value.cur.Some?
    decreases |lines|
  {
    if |lines| > 0 {
      var st1 := MtlStep(c, st, lines[0], asWritten).value;
      assert Pending(st1) == Pending(st) + (if IsNewmtl(lines[0]) then 1 else 0);
      MtlLinesCount(c, st1, lines[1..], asWritten);
    }
  }

  /** `load_mtl_file` returns one material per `newmtl` line. */
  lemma LoadMtlCount(c: Numerals, lines: seq<string>, asWritten: bool)
    requires LoadMtl(c, lines, asWritten).Ok?
    ensures |LoadMtl(c, lines, asWritten).value| == CountNewmtl(lines)
  {
    MtlLinesCount(c, MtlState([], None), lines, asWritten);
  }

  /** Directives before the first `newmtl` are ignored, whatever they say. */
  lemma MtlIgnoresBeforeNewmtl(c: Numerals, line: string, asWritten: bool)
    requires !IsNewmtl(line)
    ensures MtlStep(c, MtlState([], None), line, asWritten) == Ok(MtlState([], None))
  {
  }

  /** As written, a `Ka` line overwrites the diffuse colour and leaves the ambient one alone. */
  lemma KaSetsDiffuseAsWritten(c: Numerals, m: Material, done: seq<Material>, line: string)
    requires |Words(line)| > 0 && Words(line)[0] == "Ka"
    requires ReadColor(c, Words(line)).Ok?
    ensures MtlStep(c, MtlState(done, Some(m)), line, true)
         == Ok(MtlState(done, Some(m.(diffuse := ReadColor(c, Words(line)).value))))
    ensures MtlStep(c, MtlState(done, Some(m)), line, false)
         == Ok(MtlState(done, Some(m.(ambient := ReadColor(c, Words(line)).value))))
  {
  }

  // ---------------------------------------------------------------------------
  // MTL round trip

  /** A material whose saved text reads back as itself: the name and the maps are single
      words, the colours and the exponent numbers that print as words and read back. */
  predicate WordValue(v: Value) {
    v.One? && v.v.Text? && IsWord(v.v.s)
  }

  predicate MapWritable(v: Value) {
    v == NoneValue || WordValue(v)
  }

  predicate ColorWritable(c: Numerals, xs: seq<Scalar>) {
    |xs| == 3 && forall i | 0 <= i < 3 :: xs[i].Num? && Reads(c, xs[i].x)
  }

  predicate Writable(c: Numerals, m: Material) {
    && WordValue(m.name)
    && ColorWritable(c, m.diffuse) && ColorWritable(c, m.ambient) && ColorWritable(c, m.specular)
    && m.exponent.One? && m.exponent.v.Num? && Reads(c, m.exponent.v.x)
    && MapWritable(m.diffuseMap) && MapWritable(m.ambientMap)
    && MapWritable(m.specularMap) && MapWritable(m.bumpMap)
  }

  /** What the as-written loader makes of a saved material: the ambient colour lands in
      the diffuse slot, the ambient colour stays black, and the two maps trade places. */
  function AsWrittenImage(m: Material): Material {
    m.(diffuse := m.ambient, ambient := Rgb(0.0, 0.0, 0.0),
       diffuseMap := m.ambientMap, ambientMap := m.diffuseMap)
  }

  function AsWrittenImages(ms: seq<Material>): (r: seq<Material>)
    ensures |r| == |ms| && forall i | 0 <= i < |ms| :: r[i] == AsWrittenImage(ms[i])
  {
    seq(|ms|, i requires 0 <= i < |ms| => AsWrittenImage(ms[i]))
  }

  lemma JoinCons(w: string, ws: seq<string>)
    requires |ws| > 0
    ensures Join([w] + ws, " ") == w + " " + Join(ws, " ")
  {
    assert ([w] + ws)[1..] == ws;
  }

  /** The words of a line `key + " " + rest + "\n"` where `rest` is words joined by spaces. */
  lemma WordsOfKeyLine(key: string, ws: seq<string>)
    requires IsWord(key) && |ws| > 0
    requires forall i | 0 <= i < |ws| :: IsWord(ws[i])
    ensures Words(key + " " + Join(ws, " ") + "\n") == [key] + ws
  {
    JoinCons(key, ws);
    WordsOfJoin([key] + ws, "\n");
  }

  lemma WordsOfPair(key: string, w: string)
    requires IsWord(key) && IsWord(w)
    ensures Words(key + " " + w + "\n") == [key, w]
  {
    assert Join([w], " ") == w;
    WordsOfKeyLine(key, [w]);
  }

  /** Reading `a` then `b` in two steps is reading `a + b`. */
  lemma Chain(c: Numerals, st: MtlState, a: seq<string>, b: seq<string>, s1: MtlState, s2: MtlState, asWritten: bool)
    requires MtlLines(c, st, a, asWritten) == Ok(s1) && MtlLines(c, s1, b, asWritten) == Ok(s2)
    ensures MtlLines(c, st, a + b, asWritten) == Ok(s2)
  {
    MtlLinesAppend(c, st, a, b, asWritten);
  }

  lemma OneLine(c: Numerals, st: MtlState, line: string, asWritten: bool)
    ensures MtlLines(c, st, [line], asWritten) == StepToks(c, st, Words(line), asWritten)
  {
    assert [line][1..] == [];
  }

  /** The floats of a saved colour read back as the colour. */
  lemma FloatifyShows(c: Numerals, xs: seq<Scalar>)
    requires ColorWritable(c, xs)
    ensures forall i | 0 <= i < 3 :: IsWord(Shows(c, xs)[i])
    ensures Floatify(c, Shows(c, xs)) == Ok(xs)
  {
    var ss := Shows(c, xs);
    forall i | 0 <= i < 3 ensures IsWord(ss[i]) && ParseFloat(c, ss[i]) == Some(xs[i].x) {
      ParseFloatShow(c, xs[i].x, "");
      assert c.show(xs[i].x) + "" == ss[i];
    }
    var f := Floatify(c, ss);
    FloatifyReads(c, ss);
    assert f.Ok?;
    assert f.value == xs;
  }

  /** The `newmtl` line of a saved block starts a default material of that name. */
  lemma NewmtlStep(c: Numerals, st: MtlState, m: Material, asWritten: bool)
    requires WordValue(m.name)
    ensures MtlLines(c, st, ["newmtl " + Format(c, m.name) + "\n"], asWritten)
         == Ok(MtlState(Finish(st), Some(Defaults(m.name))))
  {
    var w := m.name.v.s;
    assert Format(c, m.name) == w && m.name == One(Text(w));
    WordsOfPair("newmtl", w);
    assert "newmtl" + " " == "newmtl ";
    OneLine(c, st, "newmtl " + w + "\n", asWritten);
  }

  /** A saved `Kd`, `Ka` or `Ks` line sets its colour (as written, `Ka` sets the diffuse one). */
  lemma ColorStep(c: Numerals, done: seq<Material>, cur: Material, key: string, xs: seq<Scalar>, asWritten: bool)
    requires key in {"Kd", "Ka", "Ks"} && ColorWritable(c, xs)
    ensures MtlLines(c, MtlState(done, Some(cur)), KeyLine(c, key, List(xs)), asWritten) == Ok(MtlState(done, Some(
      if key == "Kd" then cur.(diffuse := xs)
      else if key == "Ka" then (if asWritten then cur.(diffuse := xs) else cur.(ambient := xs))
      else cur.(specular := xs))))
  {
    var line := key + " " + Join(Shows(c, xs), " ") + "\n";
    var toks := ColorLineTokens(c, key, xs);
    ColorDirective(c, cur, toks, xs, asWritten);
    StepOfDirective(c, done, cur, toks, asWritten);
    OneLine(c, MtlState(done, Some(cur)), line, asWritten);
  }

  /** The words of a saved colour line, which read back as the colour. */
  lemma ColorLineTokens(c: Numerals, key: string, xs: seq<Scalar>) returns (toks: seq<string>)
    requires key in {"Kd", "Ka", "Ks"} && ColorWritable(c, xs)
    ensures Words(key + " " + Join(Shows(c, xs), " ") + "\n") == toks
    ensures |toks| > 0 && toks[0] == key && key != "newmtl" && ReadColor(c, toks) == Ok(xs)
  {
    var ss := Shows(c, xs);
    ColorKeyWord(key);
    FloatifyShows(c, xs);
    WordsOfKeyLine(key, ss);
    toks := [key] + ss;
    assert toks[1..] == ss;
  }

  lemma ColorDirective(c: Numerals, cur: Material, toks: seq<string>, xs: seq<Scalar>, asWritten: bool)
    requires |toks| > 0 && toks[0] in {"Kd", "Ka", "Ks"} && ReadColor(c, toks) == Ok(xs)
    ensures Directive(c, cur, toks, asWritten) == Ok(
      if toks[0] == "Kd" then cur.(diffuse := xs)
      else if toks[0] == "Ka" then (if asWritten then cur.(diffuse := xs) else cur.(ambient := xs))
      else cur.(specular := xs))
  {
  }

  /** A directive line changes the current material and nothing else. */
  lemma StepOfDirective(c: Numerals, done: seq<Material>, cur: Material, toks: seq<string>, asWritten: bool)
    requires |toks| > 0 && toks[0] != "newmtl" && Directive(c, cur, toks, asWritten).Ok?
    ensures StepToks(c, MtlState(done, Some(cur)), toks, asWritten)
         == Ok(MtlState(done, Some(Directive(c, cur, toks, asWritten).value)))
  {
  }

  lemma ColorKeyWord(key: string)
    requires key in {"Kd", "Ka", "Ks"}
    ensures IsWord(key) && key != "newmtl"
  {
  }

  /** A saved `Ns` line sets the exponent. */
  lemma NsStep(c: Numerals, done: seq<Material>, cur: Material, v: Value, asWritten: bool)
    requires v.One? && v.v.Num? && Reads(c, v.v.x)
    ensures MtlLines(c, MtlState(done, Some(cur)), KeyLine(c, "Ns", v), asWritten)
         == Ok(MtlState(done, Some(cur.(exponent := v))))
  {
    var w := c.show(v.v.x);
    ParseFloatShow(c, v.v.x, "");
    assert w + "" == w;
    WordsOfPair("Ns", w);
    OneLine(c, MtlState(done, Some(cur)), "Ns " + w + "\n", asWritten);
  }

  /** The material being read after the map lines of a saved `m`. */
  function MapsRead(cur: Material, m: Material, asWritten: bool): Material {
    var withKd := if m.diffuseMap == NoneValue then cur
                  else if asWritten then cur.(ambientMap := m.diffuseMap) else cur.(diffuseMap := m.diffuseMap);
    var withKa := if m.ambientMap == NoneValue then withKd
                  else if asWritten then withKd.(diffuseMap := m.ambientMap) else withKd.(ambientMap := m.ambientMap);
    var withKs := if m.specularMap == NoneValue then withKa else withKa.(specularMap := m.specularMap);
    if m.bumpMap == NoneValue then withKs else withKs.(bumpMap := m.bumpMap)
  }

  /** One map line of a saved block, read into the current material. */
  lemma MapStep(c: Numerals, done: seq<Material>, cur: Material, key: string, v: Value, asWritten: bool)
    requires key in {"map_Kd", "map_Ka", "map_Ks", "map_bump"}
    requires MapWritable(v)
    ensures MtlLines(c, MtlState(done, Some(cur)), KeyLine(c, key, v), asWritten) == Ok(MtlState(done, Some(
      if v == NoneValue then cur
      else if key == "map_Kd" then (if asWritten then cur.(ambientMap := v) else cur.(diffuseMap := v))
      else if key == "map_Ka" then (if asWritten then cur.(diffuseMap := v) else cur.(ambientMap := v))
      else if key == "map_Ks" then cur.(specularMap := v)
      else cur.(bumpMap := v))))
  {
    if v != NoneValue {
      var line := key + " " + v.v.s + "\n";
      MapKeyWord(key);
      WordsOfPair(key, v.v.s);
      assert KeyLine(c, key, v) == [line];
      OneLine(c, MtlState(done, Some(cur)), line, asWritten);
      var toks := [key, v.v.s];
      assert toks[0] == key && toks[|toks| - 1] == v.v.s && v == One(Text(v.v.s));
      StepOfDirective(c, done, cur, toks, asWritten);
    }
  }

  lemma MapKeyWord(key: string)
    requires key in {"map_Kd", "map_Ka", "map_Ks", "map_bump"}
    ensures IsWord(key) && key != "newmtl"
  {
  }

  /** The four map lines of a saved block. */
  lemma MapsStep(c: Numerals, done: seq<Material>, cur: Material, m: Material, asWritten: bool)
    requires MapWritable(m.diffuseMap) && MapWritable(m.ambientMap)
    requires MapWritable(m.specularMap) && MapWritable(m.bumpMap)
    ensures MtlLines(c, MtlState(done, Some(cur)), BlockMaps(c, m), asWritten) == Ok(MtlState(done, Some(MapsRead(cur, m, asWritten))))
  {
    var l1, l2 := KeyLine(c, "map_Kd", m.diffuseMap), KeyLine(c, "map_Ka", m.ambientMap);
    var l3, l4 := KeyLine(c, "map_Ks", m.specularMap), KeyLine(c, "map_bump", m.bumpMap);
    var s0 := MtlState(done, Some(cur));
    MapStep(c, done, cur, "map_Kd", m.diffuseMap, asWritten);
    var s1 := MtlLines(c, s0, l1, asWritten).value;
    MapStep(c, done, s1.cur.value, "map_Ka", m.ambientMap, asWritten);
    var s2 := MtlLines(c, s1, l2, asWritten).value;
    Chain(c, s0, l1, l2, s1, s2, asWritten);
    MapStep(c, done, s2.cur.value, "map_Ks", m.specularMap, asWritten);
    var s3 := MtlLines(c, s2, l3, asWritten).value;
    Chain(c, s0, l1 + l2, l3, s2, s3, asWritten);
    MapStep(c, done, s3.cur.value, "map_bump", m.bumpMap, asWritten);
    var s4 := MtlLines(c, s3, l4, asWritten).value;
    Chain(c, s0, l1 + l2 + l3, l4, s3, s4, asWritten);
  }

  /** What the head of a saved block leaves as the material being read. */
  function HeadRead(m: Material, asWritten: bool): Material {
    Defaults(m.name).(diffuse := if asWritten then m.ambient else m.diffuse,
                      ambient := if asWritten then Rgb(0.0, 0.0, 0.0) else m.ambient,
                      specular := m.specular, exponent := m.exponent)
  }

  lemma HeadReads(c: Numerals, st: MtlState, m: Material, asWritten: bool)
    requires Writable(c, m)
    ensures MtlLines(c, st, BlockHead(c, m), asWritten) == Ok(MtlState(Finish(st), Some(HeadRead(m, asWritten))))
  {
    var d := Finish(st);
    var p0 := ["newmtl " + Format(c, m.name) + "\n"];
    var p1, p2, p3 := KeyLine(c, "Kd", List(m.diffuse)), KeyLine(c, "Ka", List(m.ambient)), KeyLine(c, "Ks", List(m.specular));
    var p4 := KeyLine(c, "Ns", m.exponent);
    var c0 := Defaults(m.name);
    NewmtlStep(c, st, m, asWritten);
    var c1 := c0.(diffuse := m.diffuse);
    ColorStep(c, d, c0, "Kd", m.diffuse, asWritten);
    Chain(c, st, p0, p1, MtlState(d, Some(c0)), MtlState(d, Some(c1)), asWritten);
    var c2 := if asWritten then c1.(diffuse := m.ambient) else c1.(ambient := m.ambient);
    ColorStep(c, d, c1, "Ka", m.ambient, asWritten);
    Chain(c, st, p0 + p1, p2, MtlState(d, Some(c1)), MtlState(d, Some(c2)), asWritten);
    var c3 := c2.(specular := m.specular);
    ColorStep(c, d, c2, "Ks", m.specular, asWritten);
    Chain(c, st, p0 + p1 + p2, p3, MtlState(d, Some(c2)), MtlState(d, Some(c3)), asWritten);
    NsStep(c, d, c3, m.exponent, asWritten);
    Chain(c, st, p0 + p1 + p2 + p3, p4, MtlState(d, Some(c3)), MtlState(d, Some(c3.(exponent := m.exponent))), asWritten);
    assert c3.(exponent := m.exponent) == HeadRead(m, asWritten);
  }

  /** The maps of a saved block complete the material (as written: its image). */
  lemma MapsReadImage(m: Material, asWritten: bool)
    requires MapWritable(m.diffuseMap) && MapWritable(m.ambientMap)
    requires MapWritable(m.specularMap) && MapWritable(m.bumpMap)
    ensures MapsRead(HeadRead(m, asWritten), m, asWritten) == if asWritten then AsWrittenImage(m) else m
  {
    var h := HeadRead(m, asWritten);
    assert h.diffuseMap == NoneValue && h.ambientMap == NoneValue;
    assert h.specularMap == NoneValue && h.bumpMap == NoneValue;
  }

  /** A saved block reads back as the material (as written: as its image). */
  lemma BlockReads(c: Numerals, st: MtlState, m: Material, asWritten: bool)
    requires Writable(c, m)
    ensures MtlLines(c, st, MtlBlock(c, m), asWritten)
         == Ok(MtlState(Finish(st), Some(if asWritten then AsWrittenImage(m) else m)))
  {
    var d := Finish(st);
    var h := HeadRead(m, asWritten);
    HeadReads(c, st, m, asWritten);
    MapsStep(c, d, h, m, asWritten);
    var c5 := MapsRead(h, m, asWritten);
    Chain(c, st, BlockHead(c, m), BlockMaps(c, m), MtlState(d, Some(h)), MtlState(d, Some(c5)), asWritten);
    WordsOfSpace("\n");
    OneLine(c, MtlState(d, Some(c5)), "\n", asWritten);
    Chain(c, st, BlockHead(c, m) + BlockMaps(c, m), ["\n"], MtlState(d, Some(c5)), MtlState(d, Some(c5)), asWritten);
    MapsReadImage(m, asWritten);
  }

  lemma ConcatAssoc<T>(a: seq<T>, b: seq<T>, c: seq<T>)
    ensures a + b + c == a + (b + c)
  {
  }

  lemma ImagesCons(ms: seq<Material>, asWritten: bool)
    requires |ms| > 0
    ensures (if asWritten then AsWrittenImages(ms) else ms)
         == [if asWritten then AsWrittenImage(ms[0]) else ms[0]] + (if asWritten then AsWrittenImages(ms[1..]) else ms[1..])
  {
    assert ms == [ms[0]] + ms[1..];
  }

  lemma {:induction false} SaveMtlReads(c: Numerals, st: MtlState, ms: seq<Material>, asWritten: bool)
    requires forall i | 0 <= i < |ms| :: Writable(c, ms[i])
    ensures MtlLines(c, st, SaveMtl(c, ms), asWritten).Ok?
    ensures Finish(MtlLines(c, st, SaveMtl(c, ms), asWritten).value)
         == Finish(st) + (if asWritten then AsWrittenImages(ms) else ms)
    decreases |ms|
  {
    var all := if asWritten then AsWrittenImages(ms) else ms;
    if |ms| == 0 {
      assert SaveMtl(c, ms) == [];
      assert MtlLines(c, st, [], asWritten) == Ok(st);
      assert all == [];
      assert Finish(st) + all == Finish(st);
    } else {
      var rest := SaveMtl(c, ms[1..]);
      assert SaveMtl(c, ms) == MtlBlock(c, ms[0]) + rest;
      BlockReads(c, st, ms[0], asWritten);
      var img := if asWritten then AsWrittenImage(ms[0]) else ms[0];
      var st1 := MtlState(Finish(st), Some(img));
      MtlLinesAppend(c, st, MtlBlock(c, ms[0]), rest, asWritten);
      var r1 := MtlLines(c, st1, rest, asWritten);
      assert MtlLines(c, st, SaveMtl(c, ms), asWritten) == r1;
      SaveMtlReads(c, st1, ms[1..], asWritten);
      var tail := if asWritten then AsWrittenImages(ms[1..]) else ms[1..];
      assert Finish(r1.value) == Finish(st1) + tail;
      assert Finish(st1) == Finish(st) + [img];
      ImagesCons(ms, asWritten);
      ConcatAssoc(Finish(st), [img], tail);
    }
  }

  /** Corrected loader: loading what `save_mtl_file` wrote gives the materials back. */
  lemma MtlRoundTrip(c: Numerals, ms: seq<Material>)
    requires forall i | 0 <= i < |ms| :: Writable(c, ms[i])
    ensures LoadMtl(c, SaveMtl(c, ms), false) == Ok(ms)
  {
    SaveMtlReads(c, MtlState([], None), ms, false);
    var r := MtlLines(c, MtlState([], None), SaveMtl(c, ms), false);
    assert r.Ok?;
    assert Finish(MtlState([], None)) == [];
    assert Finish(r.value) == ms;
  }

  /** As written, loading what `save_mtl_file` wrote gives every material's image instead. */
  lemma MtlRoundTripAsWritten(c: Numerals, ms: seq<Material>)
    requires forall i | 0 <= i < |ms| :: Writable(c, ms[i])
    ensures LoadMtl(c, SaveMtl(c, ms), true) == Ok(AsWrittenImages(ms))
  {
    SaveMtlReads(c, MtlState([], None), ms, true);
    var r := MtlLines(c, MtlState([], None), SaveMtl(c, ms), true);
    assert r.Ok?;
    assert Finish(MtlState([], None)) == [];
    assert Finish(r.value) == AsWrittenImages(ms);
  }

  /** The image differs from the material whenever its diffuse and ambient colours differ,
      as for every default material (white diffuse, black ambient). */
  lemma AsWrittenImageDiffers(m: Material)
    requires m.diffuse != m.ambient
    ensures AsWrittenImage(m) != m
  {
  }

  // ---------------------------------------------------------------------------
  // OBJ reader

  /** POSIX `os.path.join(a, b)`. */
  function PathJoin(a: string, b: string): (r: string)
    ensures |b| > 0 && b[0] == '/' ==> r == b
    ensures (|b| == 0 || b[0] != '/') && |a| == 0 ==> r == b
    ensures (|b| == 0 || b[0] != '/') && |a| > 0 && a[|a| - 1] != '/' ==> r == a + "/" + b
    ensures (|b| == 0 || b[0] != '/') && |a| > 0 && a[|a| - 1] == '/' ==> r == a + b
  {
    if |b| > 0 && b[0] == '/' then b
    else if |a| == 0 || a[|a| - 1] == '/' then a + b
    else a + "/" + b
  }

  /** The file `load_obj` opens for `mtllib name`: as written `'{}/{}'.format(path, name)`,
      which turns a library next to an OBJ file named without a directory into `/name`. */
  function MtlPath(dir: string, name: string, asWritten: bool): string {
    if asWritten then dir + "/" + name else PathJoin(dir, name)
  }

  /** How `load_obj` splits a line: as written `line.split(' ')`, which keeps empty fields
      and leaves the line's '\n' on the last token; corrected `line.split()`. */
  function Tokens(line: string, asWritten: bool): (r: seq<string>)
    ensures asWritten ==> |r| >= 1
  {
    if asWritten then Split(line, ' ') else Words(line)
  }

  lemma SplitHasTwo(s: string, sep: char)
    requires sep in s
    ensures |Split(s, sep)| >= 2
  {
  }

  /** One corner of an `f` line, `v`, `v/t`, `v//n` or `v/t/n`, as zero-based indices. */
  function FaceToken(tok: string): (r: Result<(int, Option<int>)>)
    ensures '/' !in tok ==> r.Ok? ==> r.value.1.None?
  {
    if '/' !in tok then
      match ParseInt(tok)
      case None => Err(IntError(tok))
      case Some(v) => Ok((v - 1, None))
    else
      SplitHasTwo(tok, '/');
      var ind := Split(tok, '/');
      match ParseInt(ind[0])
      case None => Err(IntError(ind[0]))
      case Some(v) =>
        if |ind[1]| == 0 then Ok((v - 1, None))
        else
          match ParseInt(ind[1])
          case None => Err(IntError(ind[1]))
          case Some(t) => Ok((v - 1, Some(t - 1)))
  }

  /** A token without '/' reads as the one-based index `int(tok)` made zero-based, with no
      texture index; a token with '/' takes the vertex from the field before the first '/'
      and a texture index from the second field only when that field is non-empty, so
      `1//3` has none. */
  lemma FaceTokenFields(tok: string)
    ensures var r := FaceToken(tok);
      && ('/' !in tok ==> (r.Ok? <==> ParseInt(tok).Some?))
      && ('/' !in tok && r.Ok? ==> r.value == (ParseInt(tok).value - 1, None))
      && ('/' in tok ==> var ind := Split(tok, '/');
            |ind| >= 2 && (r.Ok? <==> ParseInt(ind[0]).Some? && (|ind[1]| > 0 ==> ParseInt(ind[1]).Some?)))
      && ('/' in tok && r.Ok? ==> var ind := Split(tok, '/');
            && |ind| >= 2 && r.value.0 == ParseInt(ind[0]).value - 1
            && (r.value.1.Some? <==> |ind[1]| > 0)
            && (r.value.1.Some? ==> r.value.1.value == ParseInt(ind[1]).value - 1))
  {
    if '/' in tok {
      SplitHasTwo(tok, '/');
    }
  }

  /** The loop over the tokens of an `f` line: the vertex indices, and the texture indices
      of the corners that have one. */
  function FaceCorners(toks: seq<string>): (r: Result<(seq<int>, seq<int>)>)
    ensures r.Ok? ==> |r.value.0| == |toks| && |r.value.1| <= |toks|
    decreases |toks|
  {
    if |toks| == 0 then Ok(([], []))
    else
      var p :- FaceToken(toks[0]);
      var q :- FaceCorners(toks[1..]);
      Ok(([p.0] + q.0, (if p.1.Some? then [p.1.value] else []) + q.1))
  }

  /** The corners of an `f` line read if and only if every token reads; the vertex indices
      are the tokens' own, and the texture indices are all of theirs when every token has
      one and none when no token has one. */
  lemma FaceCornersOfTokens(toks: seq<string>)
    ensures var r := FaceCorners(toks);
      && (r.Ok? <==> forall i | 0 <= i < |toks| :: FaceToken(toks[i]).Ok?)
      && (r.Ok? ==> forall i | 0 <= i < |toks| :: r.value.0[i] == FaceToken(toks[i]).value.0)
      && (r.Ok? && (forall i | 0 <= i < |toks| :: FaceToken(toks[i]).value.1.Some?) ==>
            |r.value.1| == |toks| && forall i | 0 <= i < |toks| :: r.value.1[i] == FaceToken(toks[i]).value.1.value)
      && (r.Ok? && (forall i | 0 <= i < |toks| :: FaceToken(toks[i]).value.1.None?) ==> r.value.1 == [])
  {
    FaceCornersOk(toks);
    if FaceCorners(toks).Ok? {
      FaceCornersVertices(toks);
      if forall i | 0 <= i < |toks| :: FaceToken(toks[i]).value.1.Some? {
        FaceCornersAllTextures(toks);
      }
      if forall i | 0 <= i < |toks| :: FaceToken(toks[i]).value.1.None? {
        FaceCornersNoTextures(toks);
      }
    }
  }

  lemma {:induction false} FaceCornersOk(toks: seq<string>)
    ensures FaceCorners(toks).Ok? <==> forall i | 0 <= i < |toks| :: FaceToken(toks[i]).Ok?
    decreases |toks|
  {
    if |toks| > 0 {
      var tail := toks[1..];
      FaceCornersOk(tail);
      assert forall i | 1 <= i < |toks| :: tail[i - 1] == toks[i];
    }
  }

  lemma {:induction false} FaceCornersVertices(toks: seq<string>)
    requires FaceCorners(toks).Ok?
    ensures forall i | 0 <= i < |toks| :: FaceToken(toks[i]).Ok? && FaceCorners(toks).value.0[i] == FaceToken(toks[i]).value.0
    decreases |toks|
  {
    if |toks| > 0 {
      var tail := toks[1..];
      FaceCornersVertices(tail);
      assert forall i | 1 <= i < |toks| :: tail[i - 1] == toks[i];
    }
  }

  lemma {:induction false} FaceCornersAllTextures(toks: seq<string>)
    requires FaceCorners(toks).Ok?
    requires forall i | 0 <= i < |toks| :: FaceToken(toks[i]).Ok? && FaceToken(toks[i]).value.1.Some?
    ensures |FaceCorners(toks).value.1| == |toks|
    ensures forall i | 0 <= i < |toks| :: FaceCorners(toks).value.1[i] == FaceToken(toks[i]).value.1.value
    decreases |toks|
  {
    if |toks| > 0 {
      var tail := toks[1..];
      assert forall i | 1 <= i < |toks| :: tail[i - 1] == toks[i];
      FaceCornersAllTextures(tail);
      var p := FaceToken(toks[0]).value;
      assert FaceCorners(toks).value.1 == [p.1.value] + FaceCorners(tail).value.1;
    }
  }

  lemma {:induction false} FaceCornersNoTextures(toks: seq<string>)
    requires FaceCorners(toks).Ok?
    requires forall i | 0 <= i < |toks| :: FaceToken(toks[i]).Ok? && FaceToken(toks[i]).value.1.None?
    ensures FaceCorners(toks).value.1 == []
    decreases |toks|
  {
    if |toks| > 0 {
      var tail := toks[1..];
      assert forall i | 1 <= i < |toks| :: tail[i - 1] == toks[i];
      FaceCornersNoTextures(tail);
      assert FaceCorners(toks).value.1 == [] + FaceCorners(tail).value.1;
    }
  }

  /** The mesh, the material list (`None` until an `mtllib` line) and the current material. */
  datatype ObjState = ObjState(mesh: Mesh, materials: Option<seq<Material>>, curMat: int)

  /** `float(toks[i])`. */
  function FloatAt(c: Numerals, toks: seq<string>, i: nat): (r: Result<real>)
    ensures i >= |toks| ==> r == Err(IndexError)
    ensures i < |toks| ==> r == Float(c, toks[i])
  {
    var tok :- PyIndex(toks, i);
    Float(c, tok)
  }

  /** One line of `load_obj`, split into tokens. As written, a `v` line evaluates
      `toks(3)`, calling the list, after converting the first two coordinates. */
  function ObjStepToks(fs: FileSystem, c: Numerals, dir: string, st: ObjState, toks: seq<string>, asWritten: bool)
    : (r: Result<ObjState>)
    ensures |toks| == 0 ==> r == Ok(st)
    ensures |toks| > 0 && toks[0] !in {"mtllib", "usemtl", "v", "vt", "f"} ==> r == Ok(st)
    ensures asWritten && |toks| > 0 && toks[0] == "v" ==>
      r.Err? && (FloatAt(c, toks, 1).Ok? && FloatAt(c, toks, 2).Ok? ==> r.error == TypeError)
    ensures asWritten && r.Ok? ==> r.value.mesh.initVtx == st.mesh.initVtx
  {
    if |toks| == 0 then Ok(st)
    else if toks[0] == "mtllib" then
      var name :- PyIndex(toks, 1);
      var mats :- LoadMtlFile(fs, c, MtlPath(dir, name, asWritten), asWritten);
      Ok(st.(mesh := st.mesh.(matFile := Some(name)), materials := Some(mats)))
    else if toks[0] == "usemtl" then
      var name :- PyIndex(toks, 1);
      var added := AddMaterial(st.mesh, name);
      Ok(st.(mesh := added.0, curMat := added.1))
    else if toks[0] == "v" then
      var x :- FloatAt(c, toks, 1);
      var y :- FloatAt(c, toks, 2);
      if asWritten then Err(TypeError)
      else
        var z :- FloatAt(c, toks, 3);
        Ok(st.(mesh := AddVertex(st.mesh, [x, y, z]).value.0))
    else if toks[0] == "vt" then
      var u :- FloatAt(c, toks, 1);
      var v :- FloatAt(c, toks, 2);
      Ok(st.(mesh := AddTexcoord(st.mesh, [u, v]).value.0))
    else if toks[0] == "f" then
      var corners :- FaceCorners(toks[1..]);
      var added :- AddFace(st.mesh, corners.0, corners.1, st.curMat);
      Ok(st.(mesh := added.0))
    else Ok(st)
  }

  /** What each directive the loader acts on does to the state, and exactly when it raises:
      `mtllib` and `usemtl` need a name, `v` three coordinates (two as written, which then
      fails anyway), `vt` two, and `f` corners that read and that `add_face` accepts. */
  lemma ObjStepDirectives(fs: FileSystem, c: Numerals, dir: string, st: ObjState, toks: seq<string>, asWritten: bool)
    ensures var r := ObjStepToks(fs, c, dir, st, toks, asWritten);
      && (|toks| > 0 && toks[0] == "mtllib" ==>
          && (r.Ok? <==> |toks| >= 2 && LoadMtlFile(fs, c, MtlPath(dir, toks[1], asWritten), asWritten).Ok?)
          && (r.Ok? ==> r.value == st.(mesh := st.mesh.(matFile := Some(toks[1])),
                                      materials := Some(LoadMtlFile(fs, c, MtlPath(dir, toks[1], asWritten), asWritten).value))))
      && (|toks| > 0 && toks[0] == "usemtl" ==>
          && (r.Ok? <==> |toks| >= 2)
          && (r.Ok? ==> r.value == st.(mesh := AddMaterial(st.mesh, toks[1]).0, curMat := AddMaterial(st.mesh, toks[1]).1)))
      && (!asWritten && |toks| > 0 && toks[0] == "v" ==>
          && (r.Ok? <==> FloatAt(c, toks, 1).Ok? && FloatAt(c, toks, 2).Ok? && FloatAt(c, toks, 3).Ok?)
          && (r.Ok? ==> r.value == st.(mesh := st.mesh.(initVtx := st.mesh.initVtx +
                [Vec3(FloatAt(c, toks, 1).value, FloatAt(c, toks, 2).value, FloatAt(c, toks, 3).value)]))))
      && (|toks| > 0 && toks[0] == "vt" ==>
          && (r.Ok? <==> FloatAt(c, toks, 1).Ok? && FloatAt(c, toks, 2).Ok?)
          && (r.Ok? ==> r.value == st.(mesh := st.mesh.(initTex := st.mesh.initTex +
                [Vec2(FloatAt(c, toks, 1).value, FloatAt(c, toks, 2).value)]))))
      && (|toks| > 0 && toks[0] == "f" ==>
          && (r.Ok? <==> FaceCorners(toks[1..]).Ok?
                         && AddFace(st.mesh, FaceCorners(toks[1..]).value.0, FaceCorners(toks[1..]).value.1, st.curMat).Ok?)
          && (r.Ok? ==> r.value == st.(mesh := AddFace(st.mesh, FaceCorners(toks[1..]).value.0,
                                                       FaceCorners(toks[1..]).value.1, st.curMat).value.0)))
  {
  }

  /** A `v` line with three numbers appends the vertex. */
  lemma VertexDirective(fs: FileSystem, c: Numerals, dir: string, st: ObjState, toks: seq<string>, p: Vec3)
    requires |toks| > 0 && toks[0] == "v"
    requires FloatAt(c, toks, 1) == Ok(p.x) && FloatAt(c, toks, 2) == Ok(p.y) && FloatAt(c, toks, 3) == Ok(p.z)
    ensures ObjStepToks(fs, c, dir, st, toks, false) == Ok(st.(mesh := st.mesh.(initVtx := st.mesh.initVtx + [p])))
  {
    assert toks[0] != "mtllib" && toks[0] != "usemtl";
  }

  /** A `vt` line with two numbers appends the texture coordinate. */
  lemma TexcoordDirective(fs: FileSystem, c: Numerals, dir: string, st: ObjState, toks: seq<string>, t: Vec2, asWritten: bool)
    requires |toks| > 0 && toks[0] == "vt"
    requires FloatAt(c, toks, 1) == Ok(t.u) && FloatAt(c, toks, 2) == Ok(t.v)
    ensures ObjStepToks(fs, c, dir, st, toks, asWritten) == Ok(st.(mesh := st.mesh.(initTex := st.mesh.initTex + [t])))
  {
    assert toks[0] != "mtllib" && toks[0] != "usemtl" && toks[0] != "v";
  }

  function ObjStep(fs: FileSystem, c: Numerals, dir: string, st: ObjState, line: string, asWritten: bool)
    : Result<ObjState>
  {
    ObjStepToks(fs, c, dir, st, Tokens(line, asWritten), asWritten)
  }

  /** The `for line in f` loop of `load_obj`. */
  function ObjLines(fs: FileSystem, c: Numerals, dir: string, st: ObjState, lines: seq<string>, asWritten: bool)
    : (r: Result<ObjState>)
    ensures asWritten && r.Ok? ==> r.value.mesh.initVtx == st.mesh.initVtx
    decreases |lines|
  {
    if |lines| == 0 then Ok(st)
    else
      var st1 :- ObjStep(fs, c, dir, st, lines[0], asWritten);
      ObjLines(fs, c, dir, st1, lines[1..], asWritten)
  }

  lemma {:induction false} ObjLinesAppend(fs: FileSystem, c: Numerals, dir: string, st: ObjState,
                                          a: seq<string>, b: seq<string>, asWritten: bool)
    requires ObjLines(fs, c, dir, st, a, asWritten).Ok?
    ensures ObjLines(fs, c, dir, st, a + b, asWritten)
         == ObjLines(fs, c, dir, ObjLines(fs, c, dir, st, a, asWritten).value, b, asWritten)
    decreases |a|
  {
    if |a| > 0 {
      assert (a + b)[0] == a[0] && (a + b)[1..] == a[1..] + b;
      var st1 := ObjStep(fs, c, dir, st, a[0], asWritten).value;
      ObjLinesAppend(fs, c, dir, st1, a[1..], b, asWritten);
    } else {
      assert a + b == b;
    }
  }

  /** `load_obj(filename)`: read every line, then `finalize` the mesh. */
  function LoadObj(fs: FileSystem, c: Numerals, normal: NormalRule, filename: string, asWritten: bool)
    : (r: Result<(Mesh, Option<seq<Material>>)>)
    ensures filename !in fs ==> r == Err(FileNotFound(filename))
    ensures r.Ok? ==> r.value.0.output.Some?
  {
    if filename !in fs then Err(FileNotFound(filename))
    else
      var st :- ObjLines(fs, c, Dirname(filename), ObjState(Empty(), None, -1), fs[filename], asWritten);
      var mesh :- FinalizeWith(st.mesh, normal, asWritten);
      Ok((mesh, st.materials))
  }

  /** Whether a line of an OBJ file is an `mtllib` directive. */
  predicate IsMtllibLine(line: string, asWritten: bool) {
    var toks := Tokens(line, asWritten);
    |toks| > 0 && toks[0] == "mtllib"
  }

  /** Only an `mtllib` line sets the material list, and it always sets it. */
  lemma ObjStepMaterials(fs: FileSystem, c: Numerals, dir: string, st: ObjState, line: string, asWritten: bool)
    requires ObjStep(fs, c, dir, st, line, asWritten).Ok?
    ensures var st1 := ObjStep(fs, c, dir, st, line, asWritten).value;
      && (IsMtllibLine(line, asWritten) ==> st1.materials.Some?)
      && (!IsMtllibLine(line, asWritten) ==> st1.materials == st.materials)
  {
    var toks := Tokens(line, asWritten);
    ObjStepDirectives(fs, c, dir, st, toks, asWritten);
  }

  /** After the loop the material list is still `None` exactly when it was `None` before
      and no line was an `mtllib` directive. */
  lemma {:induction false} ObjLinesMaterials(fs: FileSystem, c: Numerals, dir: string, st: ObjState,
                                             lines: seq<string>, asWritten: bool)
    requires ObjLines(fs, c, dir, st, lines, asWritten).Ok?
    ensures ObjLines(fs, c, dir, st, lines, asWritten).value.materials.None?
        <==> st.materials.None? && forall i | 0 <= i < |lines| :: !IsMtllibLine(lines[i], asWritten)
    decreases |lines|
  {
    if |lines| > 0 {
      var st1 := ObjStep(fs, c, dir, st, lines[0], asWritten).value;
      ObjStepMaterials(fs, c, dir, st, lines[0], asWritten);
      ObjLinesMaterials(fs, c, dir, st1, lines[1..], asWritten);
      forall i | 1 <= i < |lines| ensures lines[i] == lines[1..][i - 1] {
      }
    }
  }

  /** `load_obj` returns `None` for the materials exactly when the file has no `mtllib`
      line, that is when the object references no material library. */
  lemma LoadObjMaterials(fs: FileSystem, c: Numerals, normal: NormalRule, filename: string, asWritten: bool)
    requires LoadObj(fs, c, normal, filename, asWritten).Ok?
    ensures filename in fs
    ensures LoadObj(fs, c, normal, filename, asWritten).value.1.None?
        <==> forall i | 0 <= i < |fs[filename]| :: !IsMtllibLine(fs[filename][i], asWritten)
  {
    ObjLinesMaterials(fs, c, Dirname(filename), ObjState(Empty(), None, -1), fs[filename], asWritten);
  }

  /** As written, `load_obj` never returns: a `v` line raises `TypeError`, and without
      one every face refers to a vertex that does not exist, while a file without faces
      leaves `finalize` nothing to unpack. */
  lemma LoadObjAsWrittenFails(fs: FileSystem, c: Numerals, normal: NormalRule, filename: string)
    ensures LoadObj(fs, c, normal, filename, true).Err?
  {
    if filename in fs {
      var r := ObjLines(fs, c, Dirname(filename), ObjState(Empty(), None, -1), fs[filename], true);
      if r.Ok? {
        var m := r.value.mesh;
        assert m.initVtx == [];
        var z := Zip(m.mat, m.initTri);
        if |z| > 0 {
          assert !InRange(m.initVtx, CornerAt(z[0].tri, 0).vertex);
          assert !Resolves(m.initVtx, m.initTex, z[0].tri, true);
        }
      }
    }
  }

  // ---------------------------------------------------------------------------
  // OBJ writer

  const Header := "# Mesh file output by mesh.py\n"

  /** A line of the face section of `save_obj`: a material switch or the triangle whose
      first output vertex is `first` (zero-based). */
  datatype FaceItem = UseMtl(name: string) | Face(first: nat)

  /** Every triangle `t` from `j` on has a tag, and every non-negative tag names a material. */
  predicate TagsWritable(mat: seq<int>, materials: seq<string>, faces: nat, j: nat) {
    forall t | j <= t < faces :: t < |mat| && (mat[t] >= 0 ==> mat[t] < |materials|)
  }

  /** The face loop of `save_obj` from triangle `j` on, `last` being the last material
      written: `usemtl` when the triangle's tag is a material other than the last one. */
  function FaceItems(mat: seq<int>, materials: seq<string>, faces: nat, j: nat, last: Option<int>)
    : (r: Result<seq<FaceItem>>)
    ensures (last.None? || 0 <= last.value < |materials|) ==>
      (r.Ok? <==> TagsWritable(mat, materials, faces, j))
    ensures r.Err? ==> r.error == IndexError
    decreases faces - j
  {
    if j >= faces then Ok([])
    else
      assert TagsWritable(mat, materials, faces, j) <==>
        j < |mat| && (mat[j] >= 0 ==> mat[j] < |materials|) && TagsWritable(mat, materials, faces, j + 1);
      var mid :- PyIndex(mat, j);
      if mid >= 0 && last != Some(mid) then
        var name :- PyIndex(materials, mid);
        var rest :- FaceItems(mat, materials, faces, j + 1, Some(mid));
        Ok([UseMtl(name), Face(3 * j)] + rest)
      else
        var rest :- FaceItems(mat, materials, faces, j + 1, last);
        Ok([Face(3 * j)] + rest)
  }

  /** `'{}/{}/{}'.format(k, k, k)`: one corner of a saved face, all three indices equal. */
  function CornerText(k: nat): string {
    Decimal(k) + "/" + Decimal(k) + "/" + Decimal(k)
  }

  /** The text of a face-section line: `'usemtl {}\n'` or `'f {}/{}/{} {}/{}/{} {}/{}/{}\n'`
      with the one-based indices of the triangle's three output vertices. */
  function RenderItem(it: FaceItem): string {
    match it
    case UseMtl(name) => Join(["usemtl", name], " ") + "\n"
    case Face(i) => Join(["f", CornerText(i + 1), CornerText(i + 2), CornerText(i + 3)], " ") + "\n"
  }

  function RenderItems(items: seq<FaceItem>): (r: seq<string>)
    ensures |r| == |items| && forall k | 0 <= k < |items| :: r[k] == RenderItem(items[k])
  {
    seq(|items|, k requires 0 <= k < |items| => RenderItem(items[k]))
  }

  /** `'v {} {} {}\n'`, `'vn {} {} {}\n'` and `'vt {} {}\n'` for one output vertex. */
  function VLine(c: Numerals, p: Vec3): string {
    Join(["v", c.show(p.x), c.show(p.y), c.show(p.z)], " ") + "\n"
  }

  function VnLine(c: Numerals, p: Vec3): string {
    Join(["vn", c.show(p.x), c.show(p.y), c.show(p.z)], " ") + "\n"
  }

  function VtLine(c: Numerals, t: Vec2): string {
    Join(["vt", c.show(t.u), c.show(t.v)], " ") + "\n"
  }

  /** The vertex loop of `save_obj`: three lines per output vertex. */
  function VertexLines(c: Numerals, vtx: seq<Vec3>, nor: seq<Vec3>, tex: seq<Vec2>): (r: seq<string>)
    requires |nor| >= |vtx| && |tex| >= |vtx|
    ensures |r| == 3 * |vtx|
    decreases |vtx|
  {
    if |vtx| == 0 then []
    else [VLine(c, vtx[0]), VnLine(c, nor[0]), VtLine(c, tex[0])] + VertexLines(c, vtx[1..], nor[1..], tex[1..])
  }

  /** The library `save_obj` names: `mat_file`, or the file name with its extension replaced. */
  function MtlName(filename: string, matFile: Option<string>): string {
    if matFile.Some? then matFile.value else SplitExtRoot(filename) + ".mtl"
  }

  /** `save_obj(mesh, filename, mat_file)`: the lines written. Before `finalize` the
      `vertices` property raises; a tag past the material list raises `IndexError`. */
  function SaveObj(c: Numerals, m: Mesh, filename: string, matFile: Option<string>): (r: Result<seq<string>>)
    ensures m.output.None? ==> r == Err(ValueError(VerticesMsg))
    ensures m.output.Some? && Meshes.Valid(m) ==>
      (r.Ok? <==> TagsWritable(m.mat, m.materials, (|m.output.value.vtx| + 2) / 3, 0))
    ensures r.Ok? ==>
      var o := m.output.value;
      && |o.nor| >= |o.vtx| && |o.tex| >= |o.vtx|
      && |r.value| >= 2 + 3 * |o.vtx|
      && r.value[0] == Header && r.value[1] == Join(["mtllib", MtlName(filename, matFile)], " ") + "\n"
      && r.value[2..2 + 3 * |o.vtx|] == VertexLines(c, o.vtx, o.nor, o.tex)
      && FaceItems(m.mat, m.materials, (|o.vtx| + 2) / 3, 0, None).Ok?
      && r.value[2 + 3 * |o.vtx|..] == RenderItems(FaceItems(m.mat, m.materials, (|o.vtx| + 2) / 3, 0, None).value)
      && r.value[1..][1..] == VertexLines(c, o.vtx, o.nor, o.tex)
                            + RenderItems(FaceItems(m.mat, m.materials, (|o.vtx| + 2) / 3, 0, None).value)
  {
    var vtx :- Vertices(m);
    var nor := Normals(m).value;
    var tex := TextureCoords(m).value;
    if |nor| < |vtx| || |tex| < |vtx| then Err(IndexError)
    else
      var items :- FaceItems(m.mat, m.materials, (|vtx| + 2) / 3, 0, None);
      var head := [Header, Join(["mtllib", MtlName(filename, matFile)], " ") + "\n"];
      var r := head + VertexLines(c, vtx, nor, tex) + RenderItems(items);
      ThreeParts(head, VertexLines(c, vtx, nor, tex), RenderItems(items));
      Ok(r)
  }

  /** The slices of a file made of a two-line head, a middle and a tail. */
  lemma ThreeParts<T>(head: seq<T>, mid: seq<T>, tail: seq<T>)
    requires |head| == 2
    ensures var r := head + mid + tail;
      && r[0] == head[0] && r[1] == head[1]
      && r[2..2 + |mid|] == mid && r[2 + |mid|..] == tail && r[1..][1..] == mid + tail
  {
    var r := head + mid + tail;
    assert r[1..][1..] == r[2..];
    assert r[2..] == mid + tail;
  }

  // ---------------------------------------------------------------------------
  // Reading saved lines back

  lemma WordHasNoSpace(w: string)
    requires IsWord(w)
    ensures ' ' !in w
  {
    assert IsSpace(' ');
  }

  lemma DigitsHaveNoSlash(d: string, tail: string)
    requires AllDigits(d) && AllSpace(tail)
    ensures '/' !in d + tail
  {
  }

  /** Appending to a joined line appends to its last field. */
  lemma {:induction false} JoinAppend(ws: seq<string>, sep: string, tail: string)
    requires |ws| > 0
    ensures Join(ws, sep) + tail == Join(ws[..|ws| - 1] + [ws[|ws| - 1] + tail], sep)
    decreases |ws|
  {
    var ws2 := ws[..|ws| - 1] + [ws[|ws| - 1] + tail];
    if |ws| == 1 {
      assert ws2 == [ws[0] + tail];
    } else {
      JoinAppend(ws[1..], sep, tail);
      assert ws2[1..] == ws[1..][..|ws[1..]| - 1] + [ws[1..][|ws[1..]| - 1] + tail];
      ConcatAssoc(ws[0] + sep, Join(ws[1..], sep), tail);
    }
  }

  /** `line.split(' ')` of a saved line: the fields, with the '\n' stuck to the last one. */
  lemma SplitSavedLine(ws: seq<string>)
    requires |ws| > 0
    requires forall i | 0 <= i < |ws| :: IsWord(ws[i])
    ensures Split(Join(ws, " ") + "\n", ' ') == ws[..|ws| - 1] + [ws[|ws| - 1] + "\n"]
  {
    var ws2 := ws[..|ws| - 1] + [ws[|ws| - 1] + "\n"];
    JoinAppend(ws, " ", "\n");
    forall i | 0 <= i < |ws2| ensures ' ' !in ws2[i] {
      WordHasNoSpace(ws[i]);
      assert i < |ws| - 1 ==> ws2[i] == ws[i];
    }
    assert " " == [' '];
    SplitJoin(ws2, ' ');
  }

  /** The fields of a saved line as `load_obj` sees them: as written the last keeps the '\n'. */
  function SavedTokens(ws: seq<string>, asWritten: bool): seq<string>
    requires |ws| > 0
  {
    ws[..|ws| - 1] + [ws[|ws| - 1] + (if asWritten then "\n" else "")]
  }

  lemma SavedLineTokens(ws: seq<string>, asWritten: bool)
    requires |ws| > 0
    requires forall i | 0 <= i < |ws| :: IsWord(ws[i])
    ensures asWritten ==> Tokens(Join(ws, " ") + "\n", asWritten) == SavedTokens(ws, true)
    ensures !asWritten ==> Tokens(Join(ws, " ") + "\n", asWritten) == ws
  {
    if asWritten {
      SplitSavedLine(ws);
    } else {
      SavedLineWords(ws);
    }
  }

  lemma SavedLineWords(ws: seq<string>)
    requires forall i | 0 <= i < |ws| :: IsWord(ws[i])
    ensures Words(Join(ws, " ") + "\n") == ws
  {
    WordsOfSpace("\n");
    WordsOfJoin(ws, "\n");
  }

  lemma CornerTextIsWord(k: nat)
    ensures IsWord(CornerText(k))
  {
    var d := Decimal(k);
    var t := CornerText(k);
    forall i | 0 <= i < |t| ensures !IsSpace(t[i]) {
      assert t == d + "/" + d + "/" + d;
      if i < |d| {
        assert t[i] == d[i];
      } else if i == |d| || i == 2 * |d| + 1 {
        assert t[i] == '/';
      } else if i < 2 * |d| + 1 {
        assert t[i] == d[i - |d| - 1];
      } else {
        assert t[i] == d[i - 2 * |d| - 2];
      }
    }
  }

  /** A saved corner, with or without the line's '\n', reads back as index `k - 1` with
      texture index `k - 1`. */
  lemma FaceTokenReads(k: nat, tail: string)
    requires k >= 1 && AllSpace(tail)
    ensures FaceToken(CornerText(k) + tail) == Ok((k - 1, Some(k - 1)))
  {
    var d := Decimal(k);
    CornerSplit(k, tail);
    ParseIntDecimal(k, "");
    assert d + "" == d;
  }

  /** A saved corner splits at '/' into its three decimal fields. */
  lemma CornerSplit(k: nat, tail: string)
    requires AllSpace(tail)
    ensures '/' in CornerText(k) + tail
    ensures Split(CornerText(k) + tail, '/') == [Decimal(k), Decimal(k), Decimal(k) + tail]
  {
    var d := Decimal(k);
    var tok := CornerText(k) + tail;
    DigitsHaveNoSlash(d, "");
    DigitsHaveNoSlash(d, tail);
    assert d + "" == d;
    var parts := [d, d, d + tail];
    assert parts[1..] == [d, d + tail] && parts[1..][1..] == [d + tail];
    assert Join([d + tail], "/") == d + tail;
    assert Join(parts[1..], "/") == d + "/" + (d + tail);
    assert Join(parts, "/") == d + "/" + (d + "/" + (d + tail));
    assert tok == Join(parts, "/");
    assert tok[|d|] == '/';
    assert "/" == ['/'];
    SplitJoin(parts, '/');
  }

  /** One more corner in front, with a texture index. */
  lemma FaceCornersCons(toks: seq<string>, v: int, w: int, vs: seq<int>, ws: seq<int>)
    requires |toks| > 0
    requires FaceToken(toks[0]) == Ok((v, Some(w)))
    requires FaceCorners(toks[1..]) == Ok((vs, ws))
    ensures FaceCorners(toks) == Ok(([v] + vs, [w] + ws))
  {
  }

  /** Three corners that each carry a texture index. */
  lemma FaceCornersThree(t1: string, t2: string, t3: string, i: int)
    requires FaceToken(t1) == Ok((i, Some(i)))
    requires FaceToken(t2) == Ok((i + 1, Some(i + 1)))
    requires FaceToken(t3) == Ok((i + 2, Some(i + 2)))
    ensures FaceCorners([t1, t2, t3]) == Ok(([i, i + 1, i + 2], [i, i + 1, i + 2]))
  {
    ConsThree(t1, t2, t3);
    ConsThree(i, i + 1, i + 2);
    FaceCornersPush(t3, [], i + 2, i + 2, [], []);
    FaceCornersPush(t2, [t3], i + 1, i + 1, [i + 2], [i + 2]);
    FaceCornersPush(t1, [t2, t3], i, i, [i + 1, i + 2], [i + 1, i + 2]);
  }

  lemma ConsThree<T>(a: T, b: T, c: T)
    ensures [c] + [] == [c] && [b] + [c] == [b, c] && [a] + [b, c] == [a, b, c]
  {
  }

  /** A corner with a texture index in front of corners that read. */
  lemma FaceCornersPush(tok: string, rest: seq<string>, v: int, w: int, vs: seq<int>, ws: seq<int>)
    requires FaceToken(tok) == Ok((v, Some(w)))
    requires FaceCorners(rest) == Ok((vs, ws))
    ensures FaceCorners([tok] + rest) == Ok(([v] + vs, [w] + ws))
  {
    assert ([tok] + rest)[1..] == rest;
    FaceCornersCons([tok] + rest, v, w, vs, ws);
  }

  /** The corners of a saved face line, the last carrying `tail`. */
  lemma FaceCornersOfThree(i: nat, tail: string)
    requires AllSpace(tail)
    ensures FaceCorners([CornerText(i + 1), CornerText(i + 2), CornerText(i + 3) + tail])
         == Ok(([i, i + 1, i + 2], [i, i + 1, i + 2]))
  {
    var t1, t2, t3 := CornerText(i + 1), CornerText(i + 2), CornerText(i + 3) + tail;
    FaceTokenReads(i + 1, "");
    FaceTokenReads(i + 2, "");
    FaceTokenReads(i + 3, tail);
    assert t1 + "" == t1 && t2 + "" == t2;
    FaceCornersThree(t1, t2, t3, i);
  }

  /** How each loader splits a saved face line. */
  lemma FaceLineTokens(i: nat, asWritten: bool)
    ensures var tail := if asWritten then "\n" else "";
      Tokens(RenderItem(Face(i)), asWritten)
      == ["f", CornerText(i + 1), CornerText(i + 2), CornerText(i + 3) + tail]
  {
    var ws := ["f", CornerText(i + 1), CornerText(i + 2), CornerText(i + 3)];
    CornerTextIsWord(i + 1);
    CornerTextIsWord(i + 2);
    CornerTextIsWord(i + 3);
    SavedLineTokens(ws, asWritten);
    assert ws[..3] == ["f", CornerText(i + 1), CornerText(i + 2)];
    assert CornerText(i + 3) + "" == CornerText(i + 3);
  }

  /** The tokens of a saved face line give the corners `i`, `i + 1`, `i + 2`, each with the
      same texture index. */
  lemma FaceCornersRead(i: nat, asWritten: bool)
    ensures var toks := Tokens(RenderItem(Face(i)), asWritten);
      |toks| == 4 && toks[0] == "f" && FaceCorners(toks[1..]) == Ok(([i, i + 1, i + 2], [i, i + 1, i + 2]))
  {
    var tail := if asWritten then "\n" else "";
    FaceLineTokens(i, asWritten);
    FaceCornersOfThree(i, tail);
    var toks := ["f", CornerText(i + 1), CornerText(i + 2), CornerText(i + 3) + tail];
    assert toks[1..] == [CornerText(i + 1), CornerText(i + 2), CornerText(i + 3) + tail];
  }

  /** Both loaders read a saved face line as the triangle of three consecutive output vertices. */
  lemma FaceLineReads(fs: FileSystem, c: Numerals, dir: string, st: ObjState, i: nat, asWritten: bool)
    ensures ObjStep(fs, c, dir, st, RenderItem(Face(i)), asWritten)
         == (var added :- AddFace(st.mesh, [i, i + 1, i + 2], [i, i + 1, i + 2], st.curMat);
             Ok(st.(mesh := added.0)))
  {
    FaceCornersRead(i, asWritten);
  }

  /** A saved `usemtl` line makes the name current; as written the name keeps the '\n'. */
  lemma UseMtlLineReads(fs: FileSystem, c: Numerals, dir: string, st: ObjState, name: string, asWritten: bool)
    requires IsWord(name)
    ensures var n := if asWritten then name + "\n" else name;
      ObjStep(fs, c, dir, st, RenderItem(UseMtl(name)), asWritten)
      == Ok(st.(mesh := AddMaterial(st.mesh, n).0, curMat := AddMaterial(st.mesh, n).1))
  {
    SavedLineTokens(["usemtl", name], asWritten);
    assert ["usemtl", name][..1] == ["usemtl"];
  }

  /** As written, the saved `mtllib name` line asks for `dir/name` followed by '\n', a
      file `save_mtl_file` never writes, so loading stops with `FileNotFoundError`. */
  lemma MtllibLineAsWritten(fs: FileSystem, c: Numerals, dir: string, st: ObjState, name: string)
    requires IsWord(name)
    requires dir + "/" + (name + "\n") !in fs
    ensures ObjStep(fs, c, dir, st, Join(["mtllib", name], " ") + "\n", true)
         == Err(FileNotFound(dir + "/" + (name + "\n")))
  {
    SavedLineTokens(["mtllib", name], true);
    assert ["mtllib", name][..1] == ["mtllib"];
  }

  /** An OBJ file named without a directory: as written its library is looked up at the
      root of the file system, corrected next to the file. */
  lemma MtlPathOfBareName()
    ensures Dirname("cube.obj") == ""
    ensures MtlPath(Dirname("cube.obj"), "cube.mtl", true) == "/cube.mtl"
    ensures MtlPath(Dirname("cube.obj"), "cube.mtl", false) == "cube.mtl"
  {
  }

  /** The corrected path is `os.path.join`: next to the OBJ file whatever its directory,
      and the as-written one agrees with it exactly when that directory is non-empty and
      does not end in '/'; an empty directory or one ending in '/' (the root, say) gives
      a path one character longer. */
  lemma MtlPathCorrected(dir: string, name: string)
    requires |name| > 0 && name[0] != '/'
    ensures |dir| == 0 ==> MtlPath(dir, name, false) == name
    ensures |dir| > 0 && dir[|dir| - 1] != '/' ==> MtlPath(dir, name, false) == MtlPath(dir, name, true)
    ensures |dir| == 0 ==> MtlPath(dir, name, true) != MtlPath(dir, name, false)
    ensures |dir| > 0 && dir[|dir| - 1] == '/' ==> MtlPath(dir, name, true) != MtlPath(dir, name, false)
  {
    if |dir| == 0 || dir[|dir| - 1] == '/' {
      assert |MtlPath(dir, name, true)| == |MtlPath(dir, name, false)| + 1;
    }
  }

  /** The corrected loader reads a saved `v` line as that vertex. */
  lemma VLineReads(fs: FileSystem, c: Numerals, dir: string, st: ObjState, p: Vec3)
    requires Reads(c, p.x) && Reads(c, p.y) && Reads(c, p.z)
    ensures ObjStep(fs, c, dir, st, VLine(c, p), false)
         == Ok(st.(mesh := st.mesh.(initVtx := st.mesh.initVtx + [p])))
  {
    var ws := ["v", c.show(p.x), c.show(p.y), c.show(p.z)];
    SavedLineTokens(ws, false);
    ParseFloatShow(c, p.x, "");
    ParseFloatShow(c, p.y, "");
    ParseFloatShow(c, p.z, "");
    assert c.show(p.x) + "" == c.show(p.x) && c.show(p.y) + "" == c.show(p.y) && c.show(p.z) + "" == c.show(p.z);
    assert FloatAt(c, ws, 1) == Ok(p.x) && FloatAt(c, ws, 2) == Ok(p.y) && FloatAt(c, ws, 3) == Ok(p.z);
    VertexDirective(fs, c, dir, st, ws, p);
  }

  /** As written, the same line raises `TypeError`. */
  lemma VLineAsWritten(fs: FileSystem, c: Numerals, dir: string, st: ObjState, p: Vec3)
    requires Reads(c, p.x) && Reads(c, p.y) && Reads(c, p.z)
    ensures ObjStep(fs, c, dir, st, VLine(c, p), true) == Err(TypeError)
  {
    var ws := ["v", c.show(p.x), c.show(p.y), c.show(p.z)];
    SavedLineTokens(ws, true);
    var toks := ["v", c.show(p.x), c.show(p.y), c.show(p.z) + "\n"];
    assert ws[..3] == ["v", c.show(p.x), c.show(p.y)];
    ParseFloatShow(c, p.x, "");
    ParseFloatShow(c, p.y, "");
    assert c.show(p.x) + "" == c.show(p.x) && c.show(p.y) + "" == c.show(p.y);
    assert toks[1] == c.show(p.x) && toks[2] == c.show(p.y);
    assert FloatAt(c, toks, 1) == Ok(p.x);
    assert FloatAt(c, toks, 2) == Ok(p.y);
  }

  /** Both loaders skip a saved `vn` line: normals are recomputed, not read. */
  lemma VnLineIgnored(fs: FileSystem, c: Numerals, dir: string, st: ObjState, p: Vec3, asWritten: bool)
    requires Reads(c, p.x) && Reads(c, p.y) && Reads(c, p.z)
    ensures ObjStep(fs, c, dir, st, VnLine(c, p), asWritten) == Ok(st)
  {
    var ws := ["vn", c.show(p.x), c.show(p.y), c.show(p.z)];
    SavedLineTokens(ws, asWritten);
  }

  /** Both loaders read a saved `vt` line as that texture coordinate. */
  lemma VtLineReads(fs: FileSystem, c: Numerals, dir: string, st: ObjState, t: Vec2, asWritten: bool)
    requires Reads(c, t.u) && Reads(c, t.v)
    ensures ObjStep(fs, c, dir, st, VtLine(c, t), asWritten)
         == Ok(st.(mesh := st.mesh.(initTex := st.mesh.initTex + [t])))
  {
    var toks := VtLineTokens(c, t, asWritten);
    TexcoordDirective(fs, c, dir, st, toks, t, asWritten);
  }

  /** The tokens of a saved `vt` line, whose two numbers read back. */
  lemma VtLineTokens(c: Numerals, t: Vec2, asWritten: bool) returns (toks: seq<string>)
    requires Reads(c, t.u) && Reads(c, t.v)
    ensures Tokens(VtLine(c, t), asWritten) == toks && |toks| > 0 && toks[0] == "vt"
    ensures FloatAt(c, toks, 1) == Ok(t.u) && FloatAt(c, toks, 2) == Ok(t.v)
  {
    var tail := if asWritten then "\n" else "";
    SavedLineTokens(["vt", c.show(t.u), c.show(t.v)], asWritten);
    toks := ["vt", c.show(t.u), c.show(t.v) + tail];
    assert ["vt", c.show(t.u), c.show(t.v)][..2] == ["vt", c.show(t.u)];
    assert c.show(t.v) + "" == c.show(t.v);
    assert Tokens(VtLine(c, t), asWritten) == toks;
    ParseFloatShow(c, t.u, "");
    ParseFloatShow(c, t.v, tail);
    assert c.show(t.u) + "" == c.show(t.u);
  }
}

=== FILE: wrappers.dfy ===
/** Failure-compatible wrappers used by every module of the model.

    Python signals failure by raising an exception; the model returns
    `Err(e)` instead, where `e` names the exception class (and, for the
    library's own `ValueError`s, its message).
 */
module Wrappers {

  datatype Option<+T> = None | Some(value: T)

  /** The Python exceptions the modelled code can raise. */
  datatype PyError =
    | ValueError(msg: string)
    | IndexError
    | TypeError
    | AttributeError
    | NameError
    | ZeroDivisionError
    | FileNotFound(path: string)

  datatype Result<+T> = Ok(value: T) | Err(error: PyError) {

    predicate IsFailure() {
      Err?
    }

    function PropagateFailure<U>(): Result<U>
      requires Err?
    {
      Err(error)
    }

    function Extract(): T
      requires Ok?
    {
      value
    }
  }

  /** True when `i` is a valid Python list index for `s` (negative indices count from the end). */
  predicate InRange<T>(s: seq<T>, i: int) {
    -|s| <= i < |s|
  }

  /** The position in `s` that Python's `s[i]` reads. */
  function Slot<T>(s: seq<T>, i: int): (k: nat)
    requires InRange(s, i)
    ensures k < |s|
    ensures 0 <= i ==> k == i
    ensures i < 0 ==> k + (-i) == |s|
  {
    if i < 0 then |s| + i else i
  }

  /** Python's `s[i]` on a list: negative indices wrap once, anything else raises IndexError. */
  function PyIndex<T>(s: seq<T>, i: int): (r: Result<T>)
    ensures r.Ok? <==> InRange(s, i)
    ensures r.Ok? ==> r.value == s[Slot(s, i)]
    ensures r.Err? ==> r.error == IndexError
  {
    if InRange(s, i) then Ok(s[Slot(s, i)]) else Err(IndexError)
  }
}
